=== FILE: README.md ===
# Digi Hive Social — a model of its stores, vote rules and page state

Digi Hive Social is a Reddit-like front end. Its data lives in four in-memory
services: posts, comments, communities and users. Each service keeps an array of
records and changes it in place. The pages on top of the services add some
bookkeeping of their own:

- the vote buttons update their counts before the service answers;
- the post feed loads ten posts at a time;
- the post page keeps its comments as a reply tree;
- the profile page lists one user's posts and comments;
- the post form checks its fields before it submits.

This project models those pieces in Dafny:

- Each service is a class (`Posts.PostsService`, `Comments.CommentsService`,
  `Communities.CommunitiesService`, `Users.UsersService`). Its store is a `seq` field.
  Every method that changes the store is proved to leave the store equal to a pure
  function of the old store, e.g. `Posts.AfterVote` or `Comments.AfterDelete`.
- Those functions carry the service's promises:
  - the not-found rejection that leaves the store as it was;
  - the vote toggle;
  - ids assigned as the largest id plus one;
  - case-insensitive lookups;
  - member and karma counts with a floor of zero;
  - unique user names;
  - the cascade of a comment delete through all its replies, at any depth, on a store
    without reply cycles.
- The vote rule is defined once, in `Votes`:
  - `Cast` is the service's toggle;
  - `Clicked` is the vote the buttons send;
  - `Revote` is the pages' "take back the old vote, apply the new one".
  Lemmas show that the three agree on every click.
- The pages are modelled as follows:
  - the vote buttons and the feed change state step by step, so they are classes;
  - the post page, the profile page and the post form are functions over values,
    except the form's `validateForm`, which fills its error dictionary step by step.
- The feed query of `getAll` is `Posts.Feed`:
  - filter by community and type;
  - stable sort by an integer key;
  - pinned posts first;
  - slice out one page.
  The lemmas of `PostFeed` connect the feed's page counter to that projection.

Ids are natural numbers. The source uses decimal strings: "17" for posts and
communities, "c17" for comments. `Comments.IdString` and
`Text.ParseDecimalRoundTrip` show that the encoding loses nothing. Time stamps are
integers. The wall clock is passed in as `now`.

## Model

| member | source | states |
|---|---|---|
| Votes.Score | src/utils/formatters.js:45-47 | the score is upvotes minus downvotes |
| Votes.Cast | src/services/api/postsService.js:147-167 | voting the current vote takes it back and leaves no vote; any other vote takes back the old one and applies the new one; the voter's own share is the only part that changes; a consistent tally stays consistent and non-negative |
| Votes.CastTwice | src/services/api/postsService.js:150-159 | the same vote twice restores the tally exactly when there was no vote or that vote before; the second vote lands on that vote or on none |
| Votes.CastIsRevote | src/services/api/postsService.js:147-167 | the service's toggle is the pages' recount applied to the vote the click settles on |
| Votes.Revote | src/components/pages/PostDetail.jsx:68-84 | the pages' recount sets the user's vote to the vote sent; the other voters' counts are unchanged; it keeps a consistent tally consistent |
| Votes.TallyDetermined | src/services/api/postsService.js:147-167 | a tally is fixed by the other voters' counts and the user's vote |
| Votes.Clicked | src/components/molecules/VoteButtons.jsx:50-59 | the vote sent is "none" exactly when the button pressed is the current vote, and the button otherwise |
| Votes.ClickThenConfirm | src/components/molecules/VoteButtons.jsx:67 | the store's toggle of the vote sent and the pages' recount of it both equal the toggle of the button pressed |
| Votes.CastScoreStep | src/services/api/postsService.js:147-167 | one vote moves the score by at most two; the score is the other voters' score plus the user's own share |
| Ids.MaxId | src/services/api/postsService.js:117 | the largest id of a non-empty store belongs to the store and bounds every id in it |
| Ids.NextIdAsWritten | src/services/api/postsService.js:117 | as written, `Math.max` of an empty store gives no number |
| Ids.NextIdAsWrittenEmpty | src/services/api/postsService.js:117 | the empty store gets no numeric id as written |
| Ids.NextId | src/services/api/postsService.js:117 | the new id is at least 1, is larger than every stored id and is not in use |
| Ids.NextIdAgrees | src/services/api/commentsService.js:56 | on a non-empty store the corrected id is the written max-plus-one |
| Ids.NextIdKeepsDistinct | src/services/api/postsService.js:132 | adding the new id at either end keeps the ids distinct |
| Text.Lower | src/services/api/usersService.js:22 | lower-casing keeps the length and lower-cases each letter A-Z alone |
| Text.LowerIdempotent | src/services/api/usersService.js:22 | lower-casing twice is lower-casing once |
| Text.Trim | src/utils/formatters.js:51 | the trimmed text occurs in the input with only blanks before and after it, starts and ends with a non-blank, and is empty exactly when the input is blank |
| Text.StripWhitespace | src/services/api/communitiesService.js:92 | the result is the input with exactly its whitespace characters removed, in order; it holds no whitespace and is empty for blank input |
| Text.StripWhitespaceIdempotent | src/services/api/communitiesService.js:92 | stripping twice is stripping once |
| Text.StripLowerCommute | src/services/api/communitiesService.js:92 | stripping and lower-casing can be done in either order |
| Text.ParseDecimalRoundTrip | src/services/api/postsService.js:117 | reading back the decimal form of an id gives the id |
| Text.DecimalInjective | src/services/api/postsService.js:117 | distinct ids have distinct decimal forms |
| Posts.Selected | src/services/api/postsService.js:14-37 | the posts kept by the community and type filters come from the store and are no more than it holds |
| Posts.SelectedMembers | src/services/api/postsService.js:14-37 | a post is kept exactly when it is stored, its community matches the option without regard to case (or there is no option), and its type matches (or there is no type) |
| Posts.Arranged | src/services/api/postsService.js:72-76 | the arrangement is a permutation of the filtered posts with every pinned post before every other post |
| Posts.ArrangedGroups | src/services/api/postsService.js:39-76 | within the pinned and the unpinned group the sorted order is kept and each group is sorted by the filter's key |
| Posts.FilterOrders | src/services/api/postsService.js:43-44 | "top" orders by descending score and "new" by descending creation time |
| Posts.Feed | src/services/api/postsService.js:79-85 | a page holds at most `limit` posts, all selected, and is exactly the slice of the arrangement for that page |
| Posts.FeedPagesArePrefix | src/services/api/postsService.js:79-85 | pages 1 to n laid end to end are a prefix of the arrangement, each page the next slice |
| Posts.ArrangedIgnoresPage | src/services/api/postsService.js:8-87 | the arrangement does not depend on the page asked for |
| Posts.FindPost | src/services/api/postsService.js:89-100 | `getById` rejects with "Post not found" exactly when no stored post has the id, and returns the first stored post with the id otherwise |
| Posts.PostsByUser | src/services/api/postsService.js:102-111 | `getByUser` returns exactly that author's posts, each as often as it is stored, newest first, posts of the same time in store order |
| Posts.NewPost | src/services/api/postsService.js:116-130 | a created post copies the draft, is by "demo_user", unpinned, with one upvote that is the author's own and no comments |
| Posts.NewPostOwnVote | src/services/api/postsService.js:125-129 | nobody else has voted on a new post; taking back its own upvote leaves a score of 0 |
| Posts.Merge | src/services/api/postsService.js:183 | each of the fourteen fields takes the update's value when it is supplied and keeps the post's own when it is omitted |
| Posts.MergeLaws | src/services/api/postsService.js:183 | an empty update changes nothing and applying an update twice is applying it once |
| Posts.AfterVote | src/services/api/postsService.js:138-172 | an unknown id is rejected with "Post not found"; otherwise the first post with the id takes the toggle of its tally and every other post is untouched |
| Posts.VoteTargetsOne | src/services/api/postsService.js:147-167 | with distinct ids the voted post takes exactly the toggle and nothing else about it changes |
| Posts.AfterUpdate | src/services/api/postsService.js:174-187 | an unknown id is rejected; otherwise the first post with the id is replaced by its merge with the update, which is also returned, nothing else changes, and ids are kept when the update has no id |
| Posts.AfterDelete | src/services/api/postsService.js:189-202 | an unknown id is rejected; otherwise the store loses exactly the first post with the id, the rest in order |
| Posts.DeleteRemovesOnlyTarget | src/services/api/postsService.js:189-202 | with distinct ids the store keeps every post but the deleted one |
| Posts.AfterCommentCount | src/services/api/postsService.js:204-218 | an unknown id is rejected; otherwise only the matched post's comment count moves, by the increment |
| Posts.IdsOfReplace | src/services/api/postsService.js:183 | replacing a post by one with the same id keeps the ids |
| Posts.PostsService.constructor | src/services/api/postsService.js:4-6 | the store starts as the given posts |
| Posts.PostsService.Create | src/services/api/postsService.js:113-136 | the new post, with the corrected next id (1 on an empty store), is put in front; distinct ids stay distinct |
| Posts.PostsService.Vote | src/services/api/postsService.js:138-172 | the store becomes `AfterVote` of the old store; an unknown id fails with no change |
| Posts.PostsService.Update | src/services/api/postsService.js:174-187 | the store becomes `AfterUpdate` of the old store, i.e. the first match replaced by its merge; an unknown id fails with no change |
| Posts.PostsService.Delete | src/services/api/postsService.js:189-202 | the store becomes `AfterDelete` of the old store; an unknown id fails with no change |
| Posts.PostsService.UpdateCommentCount | src/services/api/postsService.js:204-218 | the store becomes `AfterCommentCount` of the old store; an unknown id fails with no change |
| Comments.IdString | src/services/api/commentsService.js:56 | a comment id is "c" followed by digits that read back as the number |
| Comments.TopLevel | src/services/api/commentsService.js:11-13 | the top level is exactly the post's comments without a parent, each as often as it is stored, newest first, comments of the same time in store order |
| Comments.ReplyComments | src/services/api/commentsService.js:16-24 | the replies of a comment are exactly the stored comments naming it as parent, of any post, each as often as it is stored, oldest first, replies of the same time in store order |
| Comments.BuildReplies | src/services/api/commentsService.js:16-24 | each node holds one reply, in the order of the replies |
| Comments.BuildRepliesFaithful | src/services/api/commentsService.js:16-24 | at every depth each node's replies are exactly the node's own replies |
| Comments.FaithfulFromStore | src/services/api/commentsService.js:20-29 | every record in the tree is an unchanged stored comment |
| Comments.ByPostId | src/services/api/commentsService.js:8-34 | the roots of the tree are the post's top-level comments in order |
| Comments.ByPostIdFaithful | src/services/api/commentsService.js:8-34 | the roots carry their own replies at every depth, and every record comes from the store unchanged |
| Comments.AuthoredBy | src/services/api/commentsService.js:38-41 | exactly that author's comments, each as often as it is stored, newest first, comments of the same time in store order |
| Comments.Tagged | src/services/api/commentsService.js:42-45 | each comment is kept and tagged with the title "Post " and its post id |
| Comments.TaggedMembers | src/services/api/commentsService.js:42-45 | every comment appears tagged and every tagged record is a stored comment |
| Comments.CommentsByUser | src/services/api/commentsService.js:36-50 | `getByUser` returns every comment of that author and no other, each as often as it is stored, newest first with comments of the same time in store order, each with its post's title |
| Comments.NewComment | src/services/api/commentsService.js:55-67 | a new comment copies the draft, is by "demo_user", with its own upvote, not collapsed |
| Comments.AfterVote | src/services/api/commentsService.js:75-109 | an unknown id is rejected with "Comment not found"; otherwise the first comment with the id takes the toggle of its tally, ids are kept and every other comment is untouched |
| Comments.Merge | src/services/api/commentsService.js:111-124 | each field takes the update's value when it is supplied and keeps the comment's own when it is omitted |
| Comments.MergeIdempotent | src/services/api/commentsService.js:111-124 | applying an update twice is applying it once |
| Comments.AfterUpdate | src/services/api/commentsService.js:111-124 | an unknown id is rejected; otherwise the first comment with the id is replaced by its merge with the update, which is also returned, and nothing else changes |
| Comments.RemoveOne | src/services/api/commentsService.js:139-143 | removing a reply by id keeps the other comments in order and changes nothing for an absent id |
| Comments.RemoveOneTakesId | src/services/api/commentsService.js:139-143 | only a comment with that id is removed; with distinct ids none with it is left |
| Comments.AfterRemoveReplies | src/services/api/commentsService.js:136-145 | the cascade keeps the survivors in their order |
| Comments.RemoveRepliesStep | src/services/api/commentsService.js:137-138 | the cascade from a comment works through the replies it finds at the start |
| Comments.AfterRemoveEach | src/services/api/commentsService.js:138-144 | removing each reply's subtree and then the reply keeps the survivors in order |
| Comments.RemoveEachStep | src/services/api/commentsService.js:138-144 | the first reply's subtree goes first, then the reply, then the rest |
| Comments.AfterDeleteAsWritten | src/services/api/commentsService.js:126-152 | as written: unknown id rejected; the root is spliced at the index found before the cascade |
| Comments.ExampleRemoval | src/services/api/commentsService.js:136-145 | on a three-comment store whose reply comes first, the cascade removes the reply |
| Comments.DeleteAsWrittenLosesNeighbour | src/services/api/commentsService.js:148 | as written, deleting that root keeps the root and removes an unrelated comment |
| Comments.AfterDelete | src/services/api/commentsService.js:126-152 | corrected: an unknown id is rejected with "Comment not found"; otherwise the survivors are stored comments in their old order; what is removed is stated by `DeleteSound` and `DeleteComplete` |
| Comments.DeleteExample | src/services/api/commentsService.js:126-152 | the corrected delete removes the root and its reply and keeps the unrelated comment |
| Comments.DescendsDeeper | src/services/api/commentsService.js:136-145 | a descendant within some depth is one within any greater depth |
| Comments.DescendsThrough | src/services/api/commentsService.js:136-145 | a descendant of a reply is a descendant of the reply's parent |
| Comments.SubKeepsDistinct | src/services/api/commentsService.js:148 | removing comments keeps the ids distinct |
| Comments.SameIdSameComment | src/services/api/commentsService.js:129 | with distinct ids one id names one comment |
| Comments.RemoveRepliesSound | src/services/api/commentsService.js:136-145 | the cascade removes only descendants of the comment |
| Comments.RemoveEachSound | src/services/api/commentsService.js:138-144 | removing a list of replies removes only those replies and their descendants |
| Comments.RemoveEachTakesReplies | src/services/api/commentsService.js:138-144 | none of the replies worked through is left |
| Comments.RemoveRepliesTakesChildren | src/services/api/commentsService.js:136-145 | after the cascade no comment names the root as parent |
| Comments.RemoveRepliesKeeps | src/services/api/commentsService.js:136-145 | the survivors are stored comments, none of them a direct reply |
| Comments.DeleteSound | src/services/api/commentsService.js:126-152 | after a delete neither the comment nor any direct reply is left, and every comment removed is the comment or one of its descendants |
| Comments.RemoveRepliesComplete | src/services/api/commentsService.js:136-145 | on a store with distinct ids and no reply cycle, no descendant of the comment within the depth survives the cascade |
| Comments.RemoveEachComplete | src/services/api/commentsService.js:138-144 | removing a list of replies leaves none of them and none of their descendants within the depth |
| Comments.ChainOutside | src/services/api/commentsService.js:136-145 | on a store without reply cycles, a chain of parents from a comment outside the store is no longer than the store |
| Comments.ChainInside | src/services/api/commentsService.js:136-145 | a chain of parents from a stored comment is shorter than the store |
| Comments.DeleteComplete | src/services/api/commentsService.js:126-152 | on a store with distinct ids and no reply cycle, a delete leaves no descendant of the comment at any depth |
| Comments.CommentsService.constructor | src/services/api/commentsService.js:4-6 | the store starts as the given comments |
| Comments.CommentsService.Create | src/services/api/commentsService.js:52-73 | the new comment, with the corrected next id (1 on an empty store), is appended; distinct ids stay distinct |
| Comments.CommentsService.Vote | src/services/api/commentsService.js:75-109 | the store becomes `AfterVote` of the old store; an unknown id fails with no change |
| Comments.CommentsService.Update | src/services/api/commentsService.js:111-124 | the store becomes `AfterUpdate` of the old store, i.e. the first match replaced by its merge; an unknown id fails with no change |
| Comments.CommentsService.RemoveReplies | src/services/api/commentsService.js:136-145 | the splices of the recursive cascade leave the store equal to `AfterRemoveReplies` |
| Comments.CommentsService.Delete | src/services/api/commentsService.js:126-152 | corrected: the store becomes `AfterDelete` of the old store, which looks the comment up again after the cascade; an unknown id fails with no change |
| Communities.Ranked | src/services/api/communitiesService.js:11-12 | a stable reordering by descending member count |
| Communities.RankedIdempotent | src/services/api/communitiesService.js:11-12 | ranking a ranked store changes nothing |
| Communities.FindById | src/services/api/communitiesService.js:18-29 | rejects with "Community not found" exactly when no stored community has the id; returns the first one with that id otherwise |
| Communities.FindByName | src/services/api/communitiesService.js:31-44 | rejects exactly when no name matches without regard to case; returns the first match otherwise |
| Communities.FindByNameIgnoresCase | src/services/api/communitiesService.js:34-36 | names that differ only in case find the same community |
| Communities.Toggled | src/services/api/communitiesService.js:51-56 | the subscription flips and the count moves by one in its direction, nothing else changes |
| Communities.ToggledTwice | src/services/api/communitiesService.js:51-56 | toggling twice restores the community |
| Communities.ToggledBelowZero | src/services/api/communitiesService.js:55 | the toggle has no floor: a subscribed community with no members goes to -1 |
| Communities.AfterToggle | src/services/api/communitiesService.js:46-61 | no answer exactly when the id is unknown; otherwise only the first match changes, by the toggle |
| Communities.ToggleTwice | src/services/api/communitiesService.js:46-61 | toggling the same id twice restores the store |
| Communities.Subscribed | src/services/api/communitiesService.js:72-80 | subscribing sets the flag and adds a member even when already subscribed; unsubscribing sets it off and removes one member, never going below zero |
| Communities.SubscribedTwice | src/services/api/communitiesService.js:72-80 | subscribing twice adds two members; unsubscribing twice is idempotent exactly when at most one member was left |
| Communities.AfterSubscribe | src/services/api/communitiesService.js:63-85 | an unknown id is rejected with "Community not found"; otherwise only the first match changes, by `Subscribed` |
| Communities.SubscribeKeepsCounted | src/services/api/communitiesService.js:76-80 | member counts that are never negative stay so |
| Communities.NormalName | src/services/api/communitiesService.js:92 | a created name is the input with its whitespace removed and A-Z lower-cased; it is lower case, holds no whitespace and is no longer than the input |
| Communities.NormalNameIdempotent | src/services/api/communitiesService.js:92 | normalising a normal name changes nothing |
| Communities.NewCommunity | src/services/api/communitiesService.js:90-97 | a new community has the normal name, one member, its creator subscribed |
| Communities.Merge | src/services/api/communitiesService.js:114-117 | each field takes the update's value when it is supplied and keeps the community's own when it is omitted; an empty update changes nothing |
| Communities.MergeIdempotent | src/services/api/communitiesService.js:114-117 | applying an update twice is applying it once |
| Communities.AfterUpdate | src/services/api/communitiesService.js:105-121 | an unknown id is rejected; otherwise only the first match changes, by `Merge` |
| Communities.AfterDelete | src/services/api/communitiesService.js:123-136 | an unknown id is rejected; otherwise exactly the first match is removed |
| Communities.Search | src/services/api/communitiesService.js:138-149 | exactly the communities whose name or description contains the query without regard to case, each as often as stored, by descending member count, equal counts in store order |
| Communities.SearchEmpty | src/services/api/communitiesService.js:141-144 | the empty query finds every community |
| Communities.CommunitiesService.constructor | src/services/api/communitiesService.js:4-6 | the store starts as the given communities |
| Communities.CommunitiesService.GetAll | src/services/api/communitiesService.js:8-16 | the stored array itself becomes the ranked order, which is returned |
| Communities.CommunitiesService.ToggleSubscription | src/services/api/communitiesService.js:46-61 | the store becomes `AfterToggle` of the old store; an unknown id gives no answer and no change |
| Communities.CommunitiesService.Subscribe | src/services/api/communitiesService.js:63-85 | the store becomes `AfterSubscribe` of the old store; an unknown id fails with no change |
| Communities.CommunitiesService.Create | src/services/api/communitiesService.js:87-103 | the new community, with the corrected next id (1 on an empty store), is appended; distinct ids stay distinct |
| Communities.CommunitiesService.Update | src/services/api/communitiesService.js:105-121 | the store becomes `AfterUpdate` of the old store; an unknown id fails with no change |
| Communities.CommunitiesService.Delete | src/services/api/communitiesService.js:123-136 | the store becomes `AfterDelete` of the old store; an unknown id fails with no change |
| Users.Names | src/services/api/usersService.js:71-78 | the user names of the store, in order |
| Users.UserIndex | src/services/api/usersService.js:62-64 | the first index whose name matches without regard to case, or -1 exactly when none does |
| Users.Ranked | src/services/api/usersService.js:11-12 | a stable reordering by descending total karma |
| Users.RankedIdempotent | src/services/api/usersService.js:11-12 | ranking a ranked store changes nothing |
| Users.FindUser | src/services/api/usersService.js:18-31 | rejects with "User not found" exactly when no name matches without regard to case; returns the first match otherwise |
| Users.FindUserUnique | src/services/api/usersService.js:21-23 | with unique names the user found is the one whose name matches |
| Users.AfterCreate | src/services/api/usersService.js:33-57 | rejects with "Username already exists" exactly when the name is taken without regard to case; otherwise one user with no karma is appended |
| Users.CreateKeepsInvariants | src/services/api/usersService.js:37-53 | names stay unique without regard to case and karma stays non-negative |
| Users.Merge | src/services/api/usersService.js:71-78 | the user name never changes; every other supplied field overwrites |
| Users.AfterUpdate | src/services/api/usersService.js:59-83 | an unknown name is rejected; otherwise the names are kept and only the first match changes, by `Merge` |
| Users.UpdateKeepsNames | src/services/api/usersService.js:71-78 | unique names stay unique |
| Users.AfterDelete | src/services/api/usersService.js:85-101 | an unknown name is rejected; otherwise exactly the first match is removed |
| Users.DeleteRemovesName | src/services/api/usersService.js:85-101 | with unique names the name is gone after the delete and the others stay unique |
| Users.SpliceKeepsUnique | src/services/api/usersService.js:97 | removing one user keeps the names unique |
| Users.SpliceDropsName | src/services/api/usersService.js:97 | with unique names, nobody left has the removed user's name |
| Users.Search | src/services/api/usersService.js:103-113 | exactly the users whose name contains the query without regard to case, each as often as stored, by descending total karma, equal karma in store order |
| Users.Rekarma | src/services/api/usersService.js:127-129 | each karma becomes the old one plus the delta, or zero when that is negative |
| Users.AfterKarma | src/services/api/usersService.js:115-134 | an unknown name is rejected; otherwise names are kept and only the first match changes, by `Rekarma` |
| Users.KarmaKeepsCounted | src/services/api/usersService.js:127-129 | karma never goes negative |
| Users.RekarmaUndo | src/services/api/usersService.js:127-129 | a change that does not hit the floor is undone by the opposite change |
| Users.UsersService.constructor | src/services/api/usersService.js:4-6 | the store starts as the given users |
| Users.UsersService.GetAll | src/services/api/usersService.js:8-16 | the stored array itself becomes the ranked order, which is returned |
| Users.UsersService.Create | src/services/api/usersService.js:33-57 | the store becomes `AfterCreate` of the old store; a taken name fails with no change |
| Users.UsersService.Update | src/services/api/usersService.js:59-83 | the store becomes `AfterUpdate` of the old store; an unknown name fails with no change |
| Users.UsersService.Delete | src/services/api/usersService.js:85-101 | the store becomes `AfterDelete` of the old store; an unknown name fails with no change |
| Users.UsersService.UpdateKarma | src/services/api/usersService.js:115-134 | the store becomes `AfterKarma` of the old store; an unknown name fails with no change |
| Formatters.TimeAgo | src/utils/formatters.js:7-15 | "just now" under a minute, the minutes with "m ago" under an hour, the hours with "h ago" under a day, and the library's wording after that |
| Formatters.TimeAgoReadsBack | src/utils/formatters.js:11-15 | the number shown reads back as the minutes, or as the minutes divided by 60 |
| Formatters.Tenths | src/utils/formatters.js:34-36 | the count in tenths of the unit, rounded half up |
| Formatters.FixedOne | src/utils/formatters.js:34-36 | a whole number of units has no point and reads back as that number; otherwise one digit after the point, the tenth, with the whole part reading back before it; the whole part has no leading zero |
| Formatters.ParseFixedRoundTrip | src/utils/formatters.js:34-36 | the shortened decimal reads back as the tenths |
| Formatters.FormatNumber | src/utils/formatters.js:32-39 | the plain number below 1000, tenths of thousands with "k" below a million, tenths of millions with "M" from a million on |
| Formatters.FormatNumberReadsBack | src/utils/formatters.js:32-39 | the text reads back as the number below 1000, and as its tenths of the unit with the unit's suffix above |
| Formatters.FormatNumberJustUnderMillion | src/utils/formatters.js:33-36 | 999950 is shown as "1000k": rounding can carry the "k" branch up to a thousand |
| Formatters.FormatKarma | src/utils/formatters.js:41-43 | the same text as `formatNumber`: karma below 1000 as its decimal, reading back as itself; from 1000 on the tenths of a thousand with "k" below a million and the tenths of a million with "M" from a million on, reading back as those tenths |
| Formatters.TruncateText | src/utils/formatters.js:49-52 | empty text and text within the limit (150 by default) are returned unchanged; longer text gives its prefix of the limit's length with only blanks trimmed off both ends, starting and ending with a non-blank, followed by "..." |
| Formatters.TruncatedExcerpt | src/utils/formatters.js:51 | a cut text is at most three longer than the limit, ends in "...", and what precedes it occurs in the text |
| VoteButtonsState.VoteButtons.constructor | src/components/molecules/VoteButtons.jsx:16-19 | the buttons show the counts passed in, with no click in flight |
| VoteButtonsState.VoteButtons.SyncProps | src/components/molecules/VoteButtons.jsx:21-25 | new props replace the shown tally and nothing else |
| VoteButtonsState.VoteButtons.HandleVote | src/components/molecules/VoteButtons.jsx:29-67 | a click in flight blocks the next one; otherwise the tally takes the toggle at once, the old one is kept, and the vote sent is the new vote, not the button |
| VoteButtonsState.VoteButtons.Settle | src/components/molecules/VoteButtons.jsx:65-80 | a vote that went through keeps the shown tally; one that failed restores the one from before the click; the click is over either way |
| VoteButtonsState.ClickAndFail | src/components/molecules/VoteButtons.jsx:74-79 | a click whose vote fails leaves the buttons exactly as before it |
| PageVotes.RevotePosts | src/components/organisms/PostFeed.jsx:91-113 | only the posts with the id change, each by the recount to the vote sent; every other post is identical |
| PageVotes.RevoteComments | src/components/pages/UserProfile.jsx:91-111 | only the comments with the id change, by the recount; the post titles stay |
| PageVotes.AfterPostsVote | src/components/organisms/PostFeed.jsx:86-121 | the list changes only once the service accepted the vote |
| PageVotes.AfterCommentsVote | src/components/pages/UserProfile.jsx:87-119 | the list changes only once the service accepted the vote |
| PageVotes.RevotePostsIdempotent | src/components/organisms/PostFeed.jsx:91-113 | recounting the same vote twice is recounting it once |
| PageVotes.PostCopyMatchesStore | src/components/organisms/PostFeed.jsx:91-113 | a shown copy of a stored post becomes exactly the store's new record after the vote a click sends |
| PageVotes.CommentCopyMatchesStore | src/components/pages/UserProfile.jsx:91-111 | a shown copy of a stored comment becomes exactly the store's new record |
| PostDetail.FlattenConcat | src/components/pages/PostDetail.jsx:99-130 | flattening a forest distributes over joining forests |
| PostDetail.UniqueParts | src/components/pages/PostDetail.jsx:99-130 | unique ids in a tree give unique ids in its replies and in its siblings, none shared |
| PostDetail.RevoteAll | src/components/pages/PostDetail.jsx:101-118 | in a flat list only the comments with the id change, by the recount |
| PostDetail.RevoteAllConcat | src/components/pages/PostDetail.jsx:99-130 | the recount of a joined list is the join of the recounts |
| PostDetail.UpdateCommentVote | src/components/pages/PostDetail.jsx:99-130 | the rewrite keeps the number of roots |
| PostDetail.RevoteNode | src/components/pages/PostDetail.jsx:100-128 | the rewrite of a node keeps its id |
| PostDetail.UpdateCommentVoteShape | src/components/pages/PostDetail.jsx:99-130 | the tree keeps its shape and every id |
| PostDetail.UpdateCommentVoteAbsent | src/components/pages/PostDetail.jsx:99-130 | an id found nowhere leaves the tree unchanged |
| PostDetail.RevoteAllAbsent | src/components/pages/PostDetail.jsx:101-118 | an id found nowhere leaves the list unchanged |
| PostDetail.UpdateCommentVoteExact | src/components/pages/PostDetail.jsx:99-130 | with unique ids the tree read in order is the flat list with exactly the matching comment recounted, at any depth |
| PostDetail.Find | src/components/pages/PostDetail.jsx:152 | a node found carries the id |
| PostDetail.FindNone | src/components/pages/PostDetail.jsx:150-166 | nothing is found exactly when no comment in the tree has the id |
| PostDetail.AddReply | src/components/pages/PostDetail.jsx:150-166 | the rewrite keeps the number of roots |
| PostDetail.AddReplyNode | src/components/pages/PostDetail.jsx:151-164 | every node keeps its own comment |
| PostDetail.AddReplyAbsent | src/components/pages/PostDetail.jsx:150-166 | a parent found nowhere leaves the tree unchanged |
| PostDetail.AddReplyAppends | src/components/pages/PostDetail.jsx:152-156 | the new comment goes at the end of the parent's replies |
| PostDetail.AddReplyAddsOne | src/components/pages/PostDetail.jsx:150-166 | with unique ids and the parent present, the tree gains exactly the new comment |
| PostDetail.ReplyBelowParent | src/components/pages/PostDetail.jsx:152-156 | under the parent the replies read in order end with the new comment |
| PostDetail.AddReplyParts | src/components/pages/PostDetail.jsx:150-166 | the first root and the other roots together gain exactly the new comment |
| PostDetail.AddReplyPlaces | src/components/pages/PostDetail.jsx:150-166 | with unique ids and the parent present, the tree read in order is the old one with the new comment inserted right after the parent's whole subtree |
| PostDetail.AfterPostVote | src/components/pages/PostDetail.jsx:60-92 | a failed vote or a missing post changes nothing; an accepted one recounts the post to the vote sent |
| PostDetail.PostVoteMatchesStore | src/components/pages/PostDetail.jsx:65-85 | the page's recount of a post equals the store's new record after the vote a click sends |
| PostDetail.RecountedCopy | src/components/pages/PostDetail.jsx:79-84 | a copy differing only by the recounted tally is what the page shows |
| PostDetail.AfterAddComment | src/components/pages/PostDetail.jsx:140-184 | a failed create is passed on; otherwise the post gains one comment and the new comment is put first, or last under its parent, or nowhere when the parent is not shown |
| PostDetail.AddCommentCounts | src/components/pages/PostDetail.jsx:140-184 | with unique ids and a shown parent, the comment count grows by one and the tree by exactly the new comment |
| CreatePost.Initial | src/components/pages/CreatePost.jsx:14-28 | the form starts as a text post with two empty poll options and no errors |
| CreatePost.ValidOptionsMembers | src/components/pages/CreatePost.jsx:171-176 | the options kept are exactly the non-blank ones |
| CreatePost.PassesIff | src/components/pages/CreatePost.jsx:63-95 | no check fails exactly when the title is not blank, a community is chosen and the type's own field is filled (two non-blank options for a poll) |
| CreatePost.OneTypeError | src/components/pages/CreatePost.jsx:71-92 | each type-specific error can only arise for its own type |
| CreatePost.ValidateForm | src/components/pages/CreatePost.jsx:63-95 | an error is filed exactly for each failing check, with its message, and the form is valid exactly when it is complete |
| CreatePost.Processed | src/components/pages/CreatePost.jsx:171-176 | a poll sends only its non-blank options, any other type none |
| CreatePost.Submit | src/components/pages/CreatePost.jsx:163-187 | nothing is sent unless the form is complete; what is sent is the processed form with no blank option |
| CreatePost.FieldError | src/components/pages/CreatePost.jsx:104-109 | the title, community, content and link fields each have their own error |
| CreatePost.ClearError | src/components/pages/CreatePost.jsx:104-109 | the field's error is emptied and every other one kept |
| CreatePost.InputChange | src/components/pages/CreatePost.jsx:97-110 | the field takes the value, every other field stays, and the field's own error is cleared |
| CreatePost.CheckChange | src/components/pages/CreatePost.jsx:97-103 | a check box sets its flag and nothing else |
| CreatePost.InputChangeClearsOnlyItsOwn | src/components/pages/CreatePost.jsx:97-110 | typing clears that field's error only; the media error is never cleared by typing |
| CreatePost.PollOptionChange | src/components/pages/CreatePost.jsx:112-119 | the option at the index takes the value and the others stay |
| CreatePost.AddPollOption | src/components/pages/CreatePost.jsx:121-128 | an empty option is appended while there are fewer than six, otherwise nothing changes |
| CreatePost.RemoveAt | src/components/pages/CreatePost.jsx:132 | exactly the element at the index is removed, the others in order |
| CreatePost.RemovePollOption | src/components/pages/CreatePost.jsx:130-138 | the option at the index is removed while there are more than two, otherwise nothing changes |
| CreatePost.RemoveThenAdd | src/components/pages/CreatePost.jsx:121-138 | removing and then adding keeps the count and leaves an empty last option |
| CreatePost.TypeChange | src/components/pages/CreatePost.jsx:151-161 | the fields of the other types are cleared and the poll options reset unless the new type is a poll |
| CreatePost.TypeChangeIdempotent | src/components/pages/CreatePost.jsx:151-161 | choosing the same type twice is choosing it once |
| CreatePost.TypeChangeLosesContent | src/components/pages/CreatePost.jsx:151-161 | leaving the text type and coming back loses the content |
| CreatePost.PollBoundsKept | src/components/pages/CreatePost.jsx:112-161 | every form action keeps between two and six poll options |
| PostFeed.Request | src/components/organisms/PostFeed.jsx:32-38 | the feed asks for its community, its filter and page, ten posts, and no type for "all" |
| PostFeed.AllTypes | src/components/organisms/PostFeed.jsx:35 | an "all" feed keeps every post of its community, whatever its type |
| PostFeed.RequestPage | src/components/organisms/PostFeed.jsx:32-38 | asking for page k gets page k of the first page's arrangement |
| PostFeed.ShortPageIsLast | src/components/organisms/PostFeed.jsx:47 | a page shorter than ten means the pages so far hold every post |
| PostFeed.FullPageCount | src/components/organisms/PostFeed.jsx:47 | after a full page the feed holds exactly ten posts per page |
| PostFeed.NextPage | src/components/organisms/PostFeed.jsx:40-45 | appending page k to pages 1 to k-1 gives pages 1 to k |
| PostFeed.Feed.constructor | src/components/organisms/PostFeed.jsx:16-22 | the feed starts empty, loading, on "hot", page 1, with more to come |
| PostFeed.Feed.BeginLoad | src/components/organisms/PostFeed.jsx:23-38 | a first page shows the spinner and clears the error, a further page shows the small spinner; the request is the feed's |
| PostFeed.Feed.EndLoad | src/components/organisms/PostFeed.jsx:40-55 | a first page replaces the posts and sets page 1, a further page is appended; more may follow exactly when ten came back; a failure keeps the posts and shows the message |
| PostFeed.Feed.Reload | src/components/organisms/PostFeed.jsx:58-60 | the first page of the current filter is asked for |
| PostFeed.Feed.Scroll | src/components/organisms/PostFeed.jsx:63-79 | the next page is asked for exactly when near the bottom, nothing is loading, more may follow and something is shown |
| PostFeed.Feed.FilterChange | src/components/organisms/PostFeed.jsx:81-84 | the filter is taken and the page set to 1; only a new filter reloads |
| PostFeed.Feed.HandleVote | src/components/organisms/PostFeed.jsx:86-121 | the posts become `AfterPostsVote` of the old posts and nothing else changes |
| PostFeed.ReloadFromStore | src/components/organisms/PostFeed.jsx:23-60 | a reload answered by the store shows the first page of the arrangement |
| PostFeed.ScrollAnswered | src/components/organisms/PostFeed.jsx:63-79 | an answered scroll shows one page more; a short page leaves every post shown and nothing more to load |
| PostFeed.ScrollFails | src/components/organisms/PostFeed.jsx:49-51 | a failed scroll still advances the page, so the next scroll skips the page that failed |
| UserProfile.Initial | src/components/pages/UserProfile.jsx:20-25 | the page starts loading, empty, on the posts tab |
| UserProfile.Load | src/components/pages/UserProfile.jsx:31-51 | a found user is shown with that author's posts and comments; an unknown one shows "User not found" and keeps the rest |
| UserProfile.LoadShowsTheirs | src/components/pages/UserProfile.jsx:31-51 | the user shown matches without regard to case; the posts and comments are exactly theirs, newest first |
| UserProfile.HandleVote | src/components/pages/UserProfile.jsx:53-85 | after an accepted vote only the posts with the id change, by the recount; a failure changes nothing |
| UserProfile.HandleCommentVote | src/components/pages/UserProfile.jsx:87-119 | after an accepted vote only the comments with the id change, by the recount; a failure changes nothing |
| UserProfile.Tabs | src/components/pages/UserProfile.jsx:144-147 | two tabs counting the posts and the comments |
| UserProfile.VotesKeepTabs | src/components/pages/UserProfile.jsx:144-147 | votes never change the tab counts |
| UserProfile.ScreenOf | src/components/pages/UserProfile.jsx:125-142 | the spinner while loading, the error box after a failed load or when no user was found, the profile otherwise |
| UserProfile.LoadSettles | src/components/pages/UserProfile.jsx:125-142 | after a load the spinner is gone; an unknown user gives the box "User not found" |

## Left out

- Timers and promises. Every service call waits a random delay and answers through a
  promise. Each call is modelled as one synchronous step that returns a result or an error.
- Interleaving. The order in which promises in flight settle is not modelled, in the pages
  either. The exception is the vote buttons' one-click-at-a-time flag.
- Posts.Arranged: the "hot", "rising" and "controversial" orders compute floating-point
  scores from logarithms and the wall clock. The model takes each such score as a
  caller-supplied integer key (`rank`); only "top" and "new" are modelled exactly.
- Formatters.Tenths: `toFixed(1)` rounds a binary float. The model rounds exact tenths
  half up, which can differ at ties that floats cannot represent exactly.
- Formatters.TimeAgo: from one day on, the text comes from date-fns'
  `formatDistanceToNow`, which is not part of this model. `TimeAgo` returns no text there.
  Unparsable dates, the `catch` branch, are not modelled either.
- Text lengths are counted in Dafny characters. JavaScript counts UTF-16 code units, so
  `TruncateText`'s limit and every `length` differ from the source for characters outside
  the Basic Multilingual Plane.
- The source's default arguments (`maxLength = 150`, `increment = 1`, `subscribe = true`,
  `postKarmaDelta = 0`, `commentKarmaDelta = 0`) are Dafny default parameters.
- Posts.PostsService.Create, Comments.CommentsService.Create,
  Communities.CommunitiesService.Create: these use the corrected id, 1 on an empty store.
  The id as written, `Math.max` of no ids, is `Ids.NextIdAsWritten` (see Findings).
- Comments.CommentsService.Delete, Comments.AfterDelete: these look the comment up again
  after the cascade, the corrected behaviour. The stale splice as written is
  `Comments.AfterDeleteAsWritten` (see Findings).
- Comments.DeleteComplete: it assumes a store without reply cycles. On a cycle the
  source's cascade recurses without end, so it has no result to state anything about.
- The initial contents of each store come from JSON files that are not part of this
  model. They are a constructor parameter.
- Comments.BuildReplies, Comments.AfterRemoveReplies: the source recurses without a bound
  and would not stop on a parent cycle. The model bounds the depth by the number of stored
  comments.
- Communities.CommunitiesService.ToggleSubscription: for an unknown id the source's promise
  never settles. The model answers `None` and changes nothing.
- Text.Lower: `toLowerCase` also folds letters outside A-Z. The model lower-cases A-Z only.
- Ids are natural numbers, not the source's decimal strings. `null`, `undefined` and `""`
  are all modelled as the empty string, as the source tests them only for falsiness.
- CreatePost.PollOptionChange requires an index inside the list. The page only calls it
  for an option it shows; the source would otherwise write past the end.
- CreatePost's `applyTextFormat`, navigation and the toasts after submission are left out.
  They are presentation.
- The post page's and the profile's toasts, console logging and navigation are left out.
  So are the feed's props changes and the profile's tab switching and layout.

## Findings

| source | as written | input that shows it | evidently intended | confidence | as-written member | corrected member |
|---|---|---|---|---|---|---|
| src/services/api/commentsService.js:148 | the root is spliced at the index found at line 129, before the cascade removed its replies | store [reply c2 of c1, c1, c3]: the cascade removes c2, then the splice at index 1 removes c3 and keeps c1 | remove the comment itself and all its descendants, keep everything else | high; not executed | Comments.DeleteAsWrittenLosesNeighbour | Comments.DeleteSound |
| src/services/api/postsService.js:117 | the new id is `Math.max` of the stored ids plus one; on an empty store that is `-Infinity`, so the id is "-Infinity" (the same at commentsService.js:56 and communitiesService.js:91) | create on an empty store | the first id is 1 | high; not executed | Ids.NextIdAsWrittenEmpty | Ids.NextIdKeepsDistinct |

=== FILE: comments.dfy ===
/** The comments store: a flat array of comment records, each pointing at its post and
    at its parent comment, kept by `CommentsService`. Reading a post's comments builds
    the reply tree from the parent pointers; deleting a comment removes its replies with
    it. */
module Comments {
  import opened Common
  import opened Seqs
  import opened Text
  import opened Votes
  import Ids

  /** The message of every lookup of a comment that is not there. */
  const NotFound := "Comment not found"

  /** A comment record. The stored id is "c" followed by `id`; `parentId` is `None` for a
      top-level comment (null, undefined or ""). */
  datatype Comment = Comment(
    id: nat, postId: nat, parentId: Option<nat>, content: string, author: string,
    tally: Tally, createdAt: int, isCollapsed: bool)

  /** A comment with its replies, as `getByPostId` returns it. */
  datatype Thread = Thread(comment: Comment, replies: seq<Thread>)

  function IdsOf(cs: seq<Comment>): (ids: seq<nat>)
    ensures |ids| == |cs|
    ensures forall i :: 0 <= i < |cs| ==> ids[i] == cs[i].id
  {
    if |cs| == 0 then [] else [cs[0].id] + IdsOf(cs[1..])
  }

  /** The stored form of an id. */
  function IdString(id: nat): (s: string)
    ensures |s| >= 2 && s[0] == 'c' && ParseDecimal(s[1..]) == Some(id)
  {
    ParseDecimalRoundTrip(id);
    "c" + Decimal(id)
  }

  function HasId(id: nat): Comment -> bool {
    (c: Comment) => c.id == id
  }

  function ChildOf(pid: nat): Comment -> bool {
    (c: Comment) => c.parentId == Some(pid)
  }

  function TopLevelOf(postId: nat): Comment -> bool {
    (c: Comment) => c.postId == postId && c.parentId.None?
  }

  function Newest(): Comment -> int {
    (c: Comment) => c.createdAt
  }

  function Oldest(): Comment -> int {
    (c: Comment) => -c.createdAt
  }

  // ------------------------------------------------------------ getByPostId

  /** The top level of `getByPostId(postId)`: the post's comments without a parent,
      newest first. */
  function TopLevel(cs: seq<Comment>, postId: nat): (r: seq<Comment>)
    ensures forall c :: c in r <==> c in cs && c.postId == postId && c.parentId.None?
    ensures forall c :: multiset(r)[c] == if c.postId == postId && c.parentId.None? then multiset(cs)[c] else 0
    ensures forall i, j :: 0 <= i < j < |r| ==> r[i].createdAt >= r[j].createdAt
    ensures forall k :: Filter(r, KeyIs(Newest(), k)) == Filter(Filter(cs, TopLevelOf(postId)), KeyIs(Newest(), k))
  {
    FilterMembers(cs, TopLevelOf(postId));
    FilterCounts(cs, TopLevelOf(postId));
    var r := SortDesc(Filter(cs, TopLevelOf(postId)), Newest());
    forall k ensures Filter(r, KeyIs(Newest(), k)) == Filter(Filter(cs, TopLevelOf(postId)), KeyIs(Newest(), k)) {
      SortDescStable(Filter(cs, TopLevelOf(postId)), Newest(), k);
    }
    SameMembers(r, Filter(cs, TopLevelOf(postId)));
    r
  }

  /** `buildReplies(parentId)` one level down: every comment whose parent is `pid`, from
      any post, oldest first. */
  function ReplyComments(cs: seq<Comment>, pid: nat): (r: seq<Comment>)
    ensures forall c :: c in r <==> c in cs && c.parentId == Some(pid)
    ensures forall c :: multiset(r)[c] == if c.parentId == Some(pid) then multiset(cs)[c] else 0
    ensures forall i, j :: 0 <= i < j < |r| ==> r[i].createdAt <= r[j].createdAt
    ensures forall k :: Filter(r, KeyIs(Oldest(), k)) == Filter(Filter(cs, ChildOf(pid)), KeyIs(Oldest(), k))
  {
    FilterMembers(cs, ChildOf(pid));
    FilterCounts(cs, ChildOf(pid));
    var r := SortDesc(Filter(cs, ChildOf(pid)), Oldest());
    forall k ensures Filter(r, KeyIs(Oldest(), k)) == Filter(Filter(cs, ChildOf(pid)), KeyIs(Oldest(), k)) {
      SortDescStable(Filter(cs, ChildOf(pid)), Oldest(), k);
    }
    SameMembers(r, Filter(cs, ChildOf(pid)));
    assert forall i, j :: 0 <= i < j < |r| ==> Oldest()(r[i]) >= Oldest()(r[j]);
    r
  }

  /** The replies of each comment in the store, as `buildReplies` looks them up. */
  function Kids(cs: seq<Comment>): nat -> seq<Comment> {
    (pid: nat) => ReplyComments(cs, pid)
  }

  /** `buildReplies(pid)` with the lookup of one level given as `kids`, followed `depth`
      levels down: below that depth the replies are left empty. */
  function BuildReplies(kids: nat -> seq<Comment>, pid: nat, depth: nat): (ts: seq<Thread>)
    ensures |ts| == |kids(pid)|
    ensures forall i :: 0 <= i < |ts| ==> ts[i].comment == kids(pid)[i]
    decreases depth
  {
    var rs := kids(pid);
    seq(|rs|, i requires 0 <= i < |rs| =>
      Thread(rs[i], if depth == 0 then [] else BuildReplies(kids, rs[i].id, depth - 1)))
  }

  /** A reply tree read down to `depth`: each level holds exactly what `kids` gives for
      the node above, in that order, and below `depth` nothing. */
  ghost predicate Faithful(kids: nat -> seq<Comment>, ts: seq<Thread>, pid: nat, depth: nat)
    decreases depth
  {
    |ts| == |kids(pid)|
    && forall i :: 0 <= i < |ts| ==>
      ts[i].comment == kids(pid)[i]
      && if depth == 0 then ts[i].replies == [] else Faithful(kids, ts[i].replies, ts[i].comment.id, depth - 1)
  }

  lemma {:induction false} BuildRepliesFaithful(kids: nat -> seq<Comment>, pid: nat, depth: nat)
    ensures Faithful(kids, BuildReplies(kids, pid, depth), pid, depth)
    decreases depth
  {
    var ts := BuildReplies(kids, pid, depth);
    forall i | 0 <= i < |ts| && depth > 0
      ensures Faithful(kids, ts[i].replies, ts[i].comment.id, depth - 1)
    {
      BuildRepliesFaithful(kids, ts[i].comment.id, depth - 1);
    }
  }

  /** Every comment a tree shows is a record of the store. */
  ghost predicate FromStore(cs: seq<Comment>, ts: seq<Thread>)
    decreases ts
  {
    forall i :: 0 <= i < |ts| ==> ts[i].comment in cs && FromStore(cs, ts[i].replies)
  }

  /** A tree read through a lookup that only returns records of the store shows only
      records of the store. */
  lemma {:induction false} FaithfulFromStore(cs: seq<Comment>, kids: nat -> seq<Comment>, ts: seq<Thread>, pid: nat, depth: nat)
    requires Faithful(kids, ts, pid, depth)
    requires forall p: nat, c :: c in kids(p) ==> c in cs
    ensures FromStore(cs, ts)
    decreases depth
  {
    forall i | 0 <= i < |ts| ensures ts[i].comment in cs && FromStore(cs, ts[i].replies) {
      assert kids(pid)[i] in kids(pid);
      if depth > 0 {
        FaithfulFromStore(cs, kids, ts[i].replies, ts[i].comment.id, depth - 1);
      }
    }
  }

  /** `getByPostId(postId)`: the top-level comments, each with its reply tree. The
      recursion is followed as deep as there are comments. */
  function ByPostId(cs: seq<Comment>, postId: nat): (ts: seq<Thread>)
    ensures |ts| == |TopLevel(cs, postId)|
    ensures forall i :: 0 <= i < |ts| ==> ts[i].comment == TopLevel(cs, postId)[i]
  {
    var top := TopLevel(cs, postId);
    seq(|top|, i requires 0 <= i < |top| => Thread(top[i], BuildReplies(Kids(cs), top[i].id, |cs|)))
  }

  /** The threads of a post: its top-level comments newest first, under each the replies
      of `ReplyComments` level by level, and nothing that is not in the store. */
  lemma ByPostIdFaithful(cs: seq<Comment>, postId: nat)
    ensures forall i :: 0 <= i < |ByPostId(cs, postId)| ==>
      Faithful(Kids(cs), ByPostId(cs, postId)[i].replies, ByPostId(cs, postId)[i].comment.id, |cs|)
    ensures FromStore(cs, ByPostId(cs, postId))
  {
    var ts := ByPostId(cs, postId);
    forall i | 0 <= i < |ts| ensures Faithful(Kids(cs), ts[i].replies, ts[i].comment.id, |cs|) {
      BuildRepliesFaithful(Kids(cs), ts[i].comment.id, |cs|);
    }
    forall i | 0 <= i < |ts| ensures ts[i].comment in cs && FromStore(cs, ts[i].replies) {
      assert TopLevel(cs, postId)[i] in TopLevel(cs, postId);
      FaithfulFromStore(cs, Kids(cs), ts[i].replies, ts[i].comment.id, |cs|);
    }
  }

  // -------------------------------------------------------------- getByUser

  /** A comment of `getByUser`, tagged with the title of its post. */
  datatype UserComment = UserComment(comment: Comment, postTitle: string)

  function ByAuthor(username: string): Comment -> bool {
    (c: Comment) => c.author == username
  }

  /** That author's comments, newest first. */
  function AuthoredBy(cs: seq<Comment>, username: string): (r: seq<Comment>)
    ensures forall c :: c in r <==> c in cs && c.author == username
    ensures forall c :: multiset(r)[c] == if c.author == username then multiset(cs)[c] else 0
    ensures forall i, j :: 0 <= i < j < |r| ==> r[i].createdAt >= r[j].createdAt
    ensures forall k :: Filter(r, KeyIs(Newest(), k)) == Filter(Filter(cs, ByAuthor(username)), KeyIs(Newest(), k))
  {
    FilterMembers(cs, ByAuthor(username));
    FilterCounts(cs, ByAuthor(username));
    var r := SortDesc(Filter(cs, ByAuthor(username)), Newest());
    forall k ensures Filter(r, KeyIs(Newest(), k)) == Filter(Filter(cs, ByAuthor(username)), KeyIs(Newest(), k)) {
      SortDescStable(Filter(cs, ByAuthor(username)), Newest(), k);
    }
    SameMembers(r, Filter(cs, ByAuthor(username)));
    r
  }

  /** Each comment tagged "Post " followed by its post id, in the same order. */
  function Tagged(cs: seq<Comment>): (r: seq<UserComment>)
    ensures |r| == |cs|
    ensures forall i :: 0 <= i < |cs| ==> r[i].comment == cs[i] && r[i].postTitle == "Post " + Decimal(cs[i].postId)
  {
    seq(|cs|, i requires 0 <= i < |cs| => UserComment(cs[i], "Post " + Decimal(cs[i].postId)))
  }

  /** Tagging keeps exactly the comments it was given. */
  lemma TaggedMembers(cs: seq<Comment>)
    ensures forall c :: c in cs ==> exists u :: u in Tagged(cs) && u.comment == c
    ensures forall u :: u in Tagged(cs) ==> u.comment in cs && u.postTitle == "Post " + Decimal(u.comment.postId)
  {
    var r := Tagged(cs);
    forall c | c in cs ensures exists u :: u in r && u.comment == c {
      var i :| 0 <= i < |cs| && cs[i] == c;
      assert r[i] in r;
    }
    forall u | u in r ensures u.comment in cs && u.postTitle == "Post " + Decimal(u.comment.postId) {
      var i :| 0 <= i < |r| && r[i] == u;
    }
  }

  /** `getByUser(username)`: that author's comments, newest first, each tagged
      "Post " followed by its post id. */
  function CommentsByUser(cs: seq<Comment>, username: string): (r: seq<UserComment>)
    ensures forall u :: u in r ==> u.comment in cs && u.comment.author == username
    ensures forall c :: c in cs && c.author == username ==> exists u :: u in r && u.comment == c
    ensures forall u :: u in r ==> u.postTitle == "Post " + Decimal(u.comment.postId)
    ensures forall i, j :: 0 <= i < j < |r| ==> r[i].comment.createdAt >= r[j].comment.createdAt
    ensures forall c :: multiset(Untagged(r))[c] == if c.author == username then multiset(cs)[c] else 0
    ensures forall k :: Filter(Untagged(r), KeyIs(Newest(), k)) == Filter(Filter(cs, ByAuthor(username)), KeyIs(Newest(), k))
  {
    var mine := AuthoredBy(cs, username);
    TaggedMembers(mine);
    assert Untagged(Tagged(mine)) == mine;
    Tagged(mine)
  }

  /** The comments of tagged comments, in their order. */
  function Untagged(us: seq<UserComment>): (cs: seq<Comment>)
    ensures |cs| == |us| && forall i :: 0 <= i < |us| ==> cs[i] == us[i].comment
  {
    seq(|us|, i requires 0 <= i < |us| => us[i].comment)
  }

  // ----------------------------------------------------------------- create

  /** What a new comment is given: its post, its parent (`None` for a top-level one) and
      its text. */
  datatype Draft = Draft(postId: nat, parentId: Option<nat>, content: string)

  /** The record `create` builds: authored by "demo_user", upvoted by its author, shown
      expanded. */
  function NewComment(id: nat, d: Draft, now: int): (c: Comment)
    ensures c.id == id && c.postId == d.postId && c.parentId == d.parentId && c.content == d.content
    ensures c.author == "demo_user" && c.tally == Tally(1, 0, Up) && c.createdAt == now && !c.isCollapsed
  {
    Comment(id, d.postId, d.parentId, d.content, "demo_user", Tally(1, 0, Up), now, false)
  }

  // ------------------------------------------------------------ vote, update

  /** The store after `vote(commentId, v)`: the first comment with the id gets the toggle,
      every other comment is untouched; an unknown id rejects. */
  function AfterVote(cs: seq<Comment>, id: nat, v: Vote): (r: Result<seq<Comment>>)
    ensures r.Err? <==> forall c :: c in cs ==> c.id != id
    ensures r.Err? ==> r.message == NotFound
    ensures r.Ok? ==> |r.value| == |cs| && IdsOf(r.value) == IdsOf(cs)
    ensures r.Ok? ==> forall j :: 0 <= j < |cs| && cs[j].id != id ==> r.value[j] == cs[j]
    ensures r.Ok? ==> forall j :: 0 <= j < |cs| && r.value[j] != cs[j] ==>
      r.value[j] == cs[j].(tally := Cast(cs[j].tally, v))
    ensures r.Ok? ==> exists i :: (0 <= i < |cs| && cs[i].id == id
      && (forall j :: 0 <= j < i ==> cs[j].id != id)
      && r.value == cs[i := cs[i].(tally := Cast(cs[i].tally, v))])
  {
    var i := FirstIndex(cs, HasId(id));
    if i == -1 then Err(NotFound)
    else
      var q := cs[i].(tally := Cast(cs[i].tally, v));
      var r := cs[i := q];
      assert r[i] == q && cs[i].id == id && q.id == id;
      assert IdsOf(r) == IdsOf(cs);
      Ok(r)
  }

  /** The fields of `data` in `update(id, data)`; `None` for a field `data` leaves out. */
  datatype Patch = Patch(
    id: Option<nat>, postId: Option<nat>, parentId: Option<Option<nat>>, content: Option<string>,
    author: Option<string>, upvotes: Option<int>, downvotes: Option<int>, userVote: Option<Vote>,
    createdAt: Option<int>, isCollapsed: Option<bool>)

  function Pick<T>(o: Option<T>, old_: T): T {
    if o.Some? then o.value else old_
  }

  /** `{ ...comment, ...data }`: every field `data` supplies overwrites, the others stay. */
  function Merge(c: Comment, d: Patch): (r: Comment)
    ensures d.id.Some? ==> r.id == d.id.value
    ensures d.id.None? ==> r.id == c.id
    ensures d.postId.Some? ==> r.postId == d.postId.value
    ensures d.postId.None? ==> r.postId == c.postId
    ensures d.parentId.Some? ==> r.parentId == d.parentId.value
    ensures d.parentId.None? ==> r.parentId == c.parentId
    ensures d.content.Some? ==> r.content == d.content.value
    ensures d.content.None? ==> r.content == c.content
    ensures d.author.Some? ==> r.author == d.author.value
    ensures d.author.None? ==> r.author == c.author
    ensures d.upvotes.Some? ==> r.tally.upvotes == d.upvotes.value
    ensures d.upvotes.None? ==> r.tally.upvotes == c.tally.upvotes
    ensures d.downvotes.Some? ==> r.tally.downvotes == d.downvotes.value
    ensures d.downvotes.None? ==> r.tally.downvotes == c.tally.downvotes
    ensures d.userVote.Some? ==> r.tally.userVote == d.userVote.value
    ensures d.userVote.None? ==> r.tally.userVote == c.tally.userVote
    ensures d.createdAt.Some? ==> r.createdAt == d.createdAt.value
    ensures d.createdAt.None? ==> r.createdAt == c.createdAt
    ensures d.isCollapsed.Some? ==> r.isCollapsed == d.isCollapsed.value
    ensures d.isCollapsed.None? ==> r.isCollapsed == c.isCollapsed
  {
    Comment(Pick(d.id, c.id), Pick(d.postId, c.postId), Pick(d.parentId, c.parentId),
            Pick(d.content, c.content), Pick(d.author, c.author),
            Tally(Pick(d.upvotes, c.tally.upvotes), Pick(d.downvotes, c.tally.downvotes), Pick(d.userVote, c.tally.userVote)),
            Pick(d.createdAt, c.createdAt), Pick(d.isCollapsed, c.isCollapsed))
  }

  /** Merging the same data twice is merging it once. */
  lemma MergeIdempotent(c: Comment, d: Patch)
    ensures Merge(Merge(c, d), d) == Merge(c, d)
  {
  }

  /** The store after `update(id, data)`, and the merged record. */
  function AfterUpdate(cs: seq<Comment>, id: nat, d: Patch): (r: Result<(seq<Comment>, Comment)>)
    ensures r.Err? <==> forall c :: c in cs ==> c.id != id
    ensures r.Err? ==> r.message == NotFound
    ensures r.Ok? ==> |r.value.0| == |cs| && r.value.1 in r.value.0
    ensures r.Ok? ==> forall j :: 0 <= j < |cs| && cs[j].id != id ==> r.value.0[j] == cs[j]
    ensures r.Ok? ==> exists i :: (0 <= i < |cs| && cs[i].id == id
      && (forall j :: 0 <= j < i ==> cs[j].id != id)
      && r.value.0 == cs[i := Merge(cs[i], d)] && r.value.1 == Merge(cs[i], d))
  {
    var i := FirstIndex(cs, HasId(id));
    if i == -1 then Err(NotFound)
    else
      var m := Merge(cs[i], d);
      assert cs[i := m][i] == m && cs[i].id == id;
      Ok((cs[i := m], m))
  }

  // ----------------------------------------------------------------- delete

  /** `findIndex` by id followed by `splice(index, 1)` when found. */
  function RemoveOne(cs: seq<Comment>, id: nat): (r: seq<Comment>)
    ensures Sub(r, cs)
    ensures (forall c :: c in cs ==> c.id != id) ==> r == cs
  {
    var i := FirstIndex(cs, HasId(id));
    if i == -1 then SubRefl(cs); cs
    else SpliceSub(cs, i); Splice1(cs, i)
  }

  /** Only a comment with the id goes, and in a store with distinct ids no comment with
      the id is left. */
  lemma RemoveOneTakesId(cs: seq<Comment>, id: nat)
    ensures forall c :: c in cs && c !in RemoveOne(cs, id) ==> c.id == id
    ensures Ids.Distinct(IdsOf(cs)) ==> forall c :: c in RemoveOne(cs, id) ==> c.id != id
  {
    var i := FirstIndex(cs, HasId(id));
    if i != -1 {
      var r := Splice1(cs, i);
      assert forall k :: 0 <= k < |cs| && k != i ==> cs[k] in r by {
        forall k | 0 <= k < |cs| && k != i ensures cs[k] in r {
          if k < i { assert r[k] == cs[k]; } else { assert r[k - 1] == cs[k]; }
        }
      }
      if Ids.Distinct(IdsOf(cs)) {
        forall c | c in r ensures c.id != id {
          var j :| 0 <= j < |r| && r[j] == c;
          if j < i { assert IdsOf(cs)[j] != IdsOf(cs)[i]; } else { assert IdsOf(cs)[j + 1] != IdsOf(cs)[i]; }
        }
      }
    }
  }

  /** `removeReplies(parentId)`, followed `depth` levels down: the replies of `pid` in the
      store as it is now, each removed after its own replies. */
  function AfterRemoveReplies(cs: seq<Comment>, pid: nat, depth: nat): (r: seq<Comment>)
    ensures Sub(r, cs)
    decreases depth, 0, 0
  {
    if depth == 0 then SubRefl(cs); cs else AfterRemoveEach(cs, Filter(cs, ChildOf(pid)), depth - 1)
  }

  /** One level of `removeReplies`, spelled out. */
  lemma RemoveRepliesStep(cs: seq<Comment>, pid: nat, depth: nat)
    requires depth > 0
    ensures AfterRemoveReplies(cs, pid, depth) == AfterRemoveEach(cs, Filter(cs, ChildOf(pid)), depth - 1)
  {
  }

  /** The `forEach` of `removeReplies` over the replies it found. */
  function AfterRemoveEach(cs: seq<Comment>, replies: seq<Comment>, depth: nat): (r: seq<Comment>)
    ensures Sub(r, cs)
    decreases depth, 1, |replies|
  {
    if |replies| == 0 then SubRefl(cs); cs
    else
      var x1 := AfterRemoveReplies(cs, replies[0].id, depth);
      var x2 := RemoveOne(x1, replies[0].id);
      var r := AfterRemoveEach(x2, replies[1..], depth);
      SubTrans(x2, x1, cs);
      SubTrans(r, x2, cs);
      r
  }

  /** One round of the `forEach`: the first reply's own replies go, then the reply. */
  lemma RemoveEachStep(cs: seq<Comment>, replies: seq<Comment>, depth: nat)
    requires |replies| > 0
    ensures AfterRemoveEach(cs, replies, depth)
      == AfterRemoveEach(RemoveOne(AfterRemoveReplies(cs, replies[0].id, depth), replies[0].id), replies[1..], depth)
  {
  }

  /** `delete(id)` as written: the index of the comment is taken before its replies are
      removed, and the comment at that index is spliced out afterwards. */
  function AfterDeleteAsWritten(cs: seq<Comment>, id: nat): (r: Result<seq<Comment>>)
    ensures r.Err? <==> forall c :: c in cs ==> c.id != id
    ensures r.Err? ==> r.message == NotFound
  {
    var i := FirstIndex(cs, HasId(id));
    if i == -1 then Err(NotFound)
    else Ok(Splice1(AfterRemoveReplies(cs, id, |cs|), i))
  }

  /** A record used to state small examples. */
  function Example(id: nat, parentId: Option<nat>): Comment {
    Comment(id, 1, parentId, "", "", Tally(0, 0, NoVote), 0, false)
  }

  /** A store whose first record is a reply to the second: comment 2 answers comment 1,
      and comment 3 stands alone. */
  function ExampleStore(): seq<Comment> {
    [Example(2, Some(1)), Example(1, None), Example(3, None)]
  }

  /** Removing the replies of comment 1 from the example store takes out comment 2 only. */
  lemma ExampleRemoval()
    ensures AfterRemoveReplies(ExampleStore(), 1, 3) == [Example(1, None), Example(3, None)]
  {
    var a, b, c := Example(1, None), Example(2, Some(1)), Example(3, None);
    var cs := ExampleStore();
    assert Filter(cs, ChildOf(1)) == [b] by {
      FilterCons(b, [a, c], ChildOf(1));
      FilterCons(a, [c], ChildOf(1));
      FilterCons(c, [], ChildOf(1));
      assert [b, a, c] == [b] + [a, c] && [a, c] == [a] + [c] && [c] == [c] + [];
    }
    assert Filter(cs, ChildOf(2)) == [] by {
      FilterUniform(cs, ChildOf(2));
    }
    assert AfterRemoveReplies(cs, 2, 2) == cs;
    assert FirstIndex(cs, HasId(2)) == 0;
    assert RemoveOne(cs, 2) == [a, c];
  }

  /** With a reply stored before the comment it answers, the stale index points one place
      too far: deleting comment 1 from the example store removes its reply and the
      unrelated comment 3, and keeps comment 1. */
  lemma DeleteAsWrittenLosesNeighbour()
    ensures AfterDeleteAsWritten(ExampleStore(), 1) == Ok([Example(1, None)])
  {
    var ac := [Example(1, None), Example(3, None)];
    assert Splice1(ac, 1) == [Example(1, None)] by {
      assert |Splice1(ac, 1)| == 1 && Splice1(ac, 1)[0] == ac[0];
    }
    assert AfterDeleteAsWritten(ExampleStore(), 1) == Ok(Splice1(AfterRemoveReplies(ExampleStore(), 1, 3), 1)) by {
      assert FirstIndex(ExampleStore(), HasId(1)) == 1;
      assert |ExampleStore()| == 3;
    }
    ExampleRemoval();
  }

  /** `delete(id)` with the index looked up again after the replies are gone. */
  function AfterDelete(cs: seq<Comment>, id: nat): (r: Result<seq<Comment>>)
    ensures r.Err? <==> forall c :: c in cs ==> c.id != id
    ensures r.Err? ==> r.message == NotFound
    ensures r.Ok? ==> Sub(r.value, cs)
  {
    var i := FirstIndex(cs, HasId(id));
    if i == -1 then Err(NotFound)
    else
      var rest := AfterRemoveReplies(cs, id, |cs|);
      SubTrans(RemoveOne(rest, id), rest, cs);
      Ok(RemoveOne(rest, id))
  }

  /** On the same example, the corrected delete removes comment 1 and its reply and keeps
      comment 3. */
  lemma DeleteExample()
    ensures AfterDelete(ExampleStore(), 1) == Ok([Example(3, None)])
  {
    var ac := [Example(1, None), Example(3, None)];
    assert RemoveOne(ac, 1) == [Example(3, None)] by {
      assert FirstIndex(ac, HasId(1)) == 0;
      assert |Splice1(ac, 0)| == 1 && Splice1(ac, 0)[0] == ac[1];
    }
    assert AfterDelete(ExampleStore(), 1) == Ok(RemoveOne(AfterRemoveReplies(ExampleStore(), 1, 3), 1)) by {
      assert FirstIndex(ExampleStore(), HasId(1)) == 1;
      assert |ExampleStore()| == 3;
    }
    ExampleRemoval();
  }

  // Facts about removal, in a store whose ids are distinct.

  /** `c` sits below comment `a`, at most `depth` levels under its direct replies. */
  ghost predicate Descends(cs: seq<Comment>, c: Comment, a: nat, depth: nat)
    decreases depth
  {
    c.parentId == Some(a)
    || (depth > 0 && exists p :: p in cs && c.parentId == Some(p.id) && Descends(cs, p, a, depth - 1))
  }

  lemma {:induction false} DescendsDeeper(cs: seq<Comment>, c: Comment, a: nat, depth: nat)
    requires Descends(cs, c, a, depth)
    ensures Descends(cs, c, a, depth + 1)
    decreases depth
  {
    if c.parentId != Some(a) {
      var p :| p in cs && c.parentId == Some(p.id) && Descends(cs, p, a, depth - 1);
      DescendsDeeper(cs, p, a, depth - 1);
    }
  }

  /** What sits below a reply of `a` sits below `a`, one level further down. */
  lemma {:induction false} DescendsThrough(cs: seq<Comment>, c: Comment, r: Comment, a: nat, depth: nat)
    requires r in cs && r.parentId == Some(a) && Descends(cs, c, r.id, depth)
    ensures Descends(cs, c, a, depth + 1)
    decreases depth
  {
    if c.parentId == Some(r.id) {
      assert Descends(cs, r, a, depth);
    } else {
      var p :| p in cs && c.parentId == Some(p.id) && Descends(cs, p, r.id, depth - 1);
      DescendsThrough(cs, p, r, a, depth - 1);
    }
  }

  /** Taking comments out of a store keeps the ids distinct. */
  lemma {:induction false} SubKeepsDistinct(a: seq<Comment>, b: seq<Comment>)
    requires Sub(a, b) && Ids.Distinct(IdsOf(b))
    ensures Ids.Distinct(IdsOf(a))
    decreases |b|
  {
    if a != [] {
      assert Ids.Distinct(IdsOf(b[1..])) by {
        forall i, j | 0 <= i < j < |b[1..]| ensures IdsOf(b[1..])[i] != IdsOf(b[1..])[j] {
          assert IdsOf(b)[i + 1] != IdsOf(b)[j + 1];
        }
      }
      if a[0] == b[0] && Sub(a[1..], b[1..]) {
        SubKeepsDistinct(a[1..], b[1..]);
        SubMembers(a[1..], b[1..]);
        forall i, j | 0 <= i < j < |a| ensures IdsOf(a)[i] != IdsOf(a)[j] {
          if i == 0 {
            assert a[j] == a[1..][j - 1] && a[j] in b[1..];
            var k :| 0 <= k < |b[1..]| && b[1..][k] == a[j];
            assert IdsOf(b)[0] != IdsOf(b)[k + 1];
          } else {
            assert IdsOf(a[1..])[i - 1] != IdsOf(a[1..])[j - 1];
          }
        }
      } else {
        SubKeepsDistinct(a, b[1..]);
      }
    }
  }

  /** In a store with distinct ids, a record is identified by its id. */
  lemma SameIdSameComment(cs: seq<Comment>, x: Comment, y: Comment)
    requires Ids.Distinct(IdsOf(cs)) && x in cs && y in cs && x.id == y.id
    ensures x == y
  {
    var i :| 0 <= i < |cs| && cs[i] == x;
    var j :| 0 <= j < |cs| && cs[j] == y;
    assert IdsOf(cs)[i] == IdsOf(cs)[j];
  }

  /** Removal only takes out comments below `pid`, and keeps the rest in order. `w` is
      the store before the delete began, `cs` what is left of it now. */
  lemma {:induction false} RemoveRepliesSound(w: seq<Comment>, cs: seq<Comment>, pid: nat, depth: nat)
    requires Ids.Distinct(IdsOf(w)) && Sub(cs, w)
    ensures forall c :: c in cs && c !in AfterRemoveReplies(cs, pid, depth) ==> Descends(w, c, pid, depth)
    decreases depth, 0, 0
  {
    if depth > 0 {
      var replies := Filter(cs, ChildOf(pid));
      FilterMembers(cs, ChildOf(pid));
      SubMembers(cs, w);
      assert forall r :: r in replies ==> r in w && r.parentId == Some(pid);
      var d := depth - 1;
      RemoveEachSound(w, cs, replies, pid, d);
      var result := AfterRemoveEach(cs, replies, d);
      assert AfterRemoveReplies(cs, pid, depth) == result;
      forall c | c in cs && c !in result ensures Descends(w, c, pid, depth) {
        assert Descends(w, c, pid, d + 1) && d + 1 == depth;
      }
    }
  }

  lemma {:induction false} RemoveEachSound(w: seq<Comment>, cs: seq<Comment>, replies: seq<Comment>, pid: nat, depth: nat)
    requires Ids.Distinct(IdsOf(w)) && Sub(cs, w)
    requires forall r :: r in replies ==> r in w && r.parentId == Some(pid)
    ensures forall c :: c in cs && c !in AfterRemoveEach(cs, replies, depth) ==> Descends(w, c, pid, depth + 1)
    decreases depth, 1, |replies|
  {
    if |replies| > 0 {
      var r := replies[0];
      var x1 := AfterRemoveReplies(cs, r.id, depth);
      RemoveRepliesSound(w, cs, r.id, depth);
      var x2 := RemoveOne(x1, r.id);
      SubTrans(x1, cs, w);
      SubTrans(x2, x1, w);
      assert forall q :: q in replies[1..] ==> q in replies;
      RemoveEachSound(w, x2, replies[1..], pid, depth);
      var result := AfterRemoveEach(cs, replies, depth);
      assert result == AfterRemoveEach(x2, replies[1..], depth);
      SubMembers(x1, w);
      forall c | c in cs && c !in result ensures Descends(w, c, pid, depth + 1) {
        if c !in x1 {
          DescendsThrough(w, c, r, pid, depth);
        } else if c !in x2 {
          RemoveOneTakesId(x1, r.id);
          SameIdSameComment(w, c, r);
        }
      }
    }
  }

  /** Each reply handed to the `forEach` is gone when it finishes. */
  lemma {:induction false} RemoveEachTakesReplies(cs: seq<Comment>, replies: seq<Comment>, depth: nat)
    requires Ids.Distinct(IdsOf(cs))
    ensures forall c :: c in AfterRemoveEach(cs, replies, depth) ==> c !in replies
    decreases |replies|
  {
    if |replies| > 0 {
      var r := replies[0];
      var x1 := AfterRemoveReplies(cs, r.id, depth);
      var x2 := RemoveOne(x1, r.id);
      SubKeepsDistinct(x1, cs);
      SubKeepsDistinct(x2, x1);
      RemoveOneTakesId(x1, r.id);
      RemoveEachTakesReplies(x2, replies[1..], depth);
      RemoveEachStep(cs, replies, depth);
      var result := AfterRemoveEach(x2, replies[1..], depth);
      SubMembers(result, x2);
      NoneOfReplies(result, x2, replies);
    }
  }

  /** What is kept from `x2`, which holds no comment with the first reply's id, and is none
      of the other replies, is none of the replies. */
  lemma NoneOfReplies(result: seq<Comment>, x2: seq<Comment>, replies: seq<Comment>)
    requires |replies| > 0
    requires forall c :: c in result ==> c in x2 && c !in replies[1..]
    requires forall c :: c in x2 ==> c.id != replies[0].id
    ensures forall c :: c in result ==> c !in replies
  {
    assert replies == [replies[0]] + replies[1..];
  }

  /** Removing the replies of `pid` leaves none of them behind. */
  lemma {:induction false} RemoveRepliesTakesChildren(cs: seq<Comment>, pid: nat, depth: nat)
    requires Ids.Distinct(IdsOf(cs))
    ensures depth > 0 ==> forall c :: c in AfterRemoveReplies(cs, pid, depth) ==> c.parentId != Some(pid)
  {
    if depth > 0 {
      RemoveRepliesKeeps(cs, pid, depth);
      NoChildLeft(cs, AfterRemoveReplies(cs, pid, depth), pid);
    }
  }

  /** What is left after removing the replies of `pid` comes from the store and is none of
      those replies. */
  lemma RemoveRepliesKeeps(cs: seq<Comment>, pid: nat, depth: nat)
    requires Ids.Distinct(IdsOf(cs)) && depth > 0
    ensures forall c :: c in AfterRemoveReplies(cs, pid, depth) ==> c in cs && c !in Filter(cs, ChildOf(pid))
  {
    var replies := Filter(cs, ChildOf(pid));
    var result := AfterRemoveReplies(cs, pid, depth);
    RemoveRepliesStep(cs, pid, depth);
    RemoveEachTakesReplies(cs, replies, depth - 1);
    SubMembers(result, cs);
  }

  /** Whatever is kept from `cs`, and is none of the replies to `pid` in it, is not a
      reply to `pid`. */
  lemma NoChildLeft(cs: seq<Comment>, kept: seq<Comment>, pid: nat)
    requires forall c :: c in kept ==> c in cs
    requires forall c :: c in kept ==> c !in Filter(cs, ChildOf(pid))
    ensures forall c :: c in kept ==> c.parentId != Some(pid)
  {
    FilteredOut(cs, kept, ChildOf(pid));
    forall c | c in kept ensures c.parentId != Some(pid) {
      assert !ChildOf(pid)(c);
    }
  }

  /** `delete(id)`, with the index looked up again, on a store with distinct ids: the
      comment and its direct replies are gone, and everything that went was the comment
      itself or sat somewhere below it. */
  lemma {:induction false} DeleteSound(cs: seq<Comment>, id: nat)
    requires Ids.Distinct(IdsOf(cs)) && AfterDelete(cs, id).Ok?
    ensures forall c :: c in AfterDelete(cs, id).value ==> c.id != id && c.parentId != Some(id)
    ensures forall c :: c in cs && c !in AfterDelete(cs, id).value ==> c.id == id || Descends(cs, c, id, |cs|)
  {
    SubRefl(cs);
    var rest := AfterRemoveReplies(cs, id, |cs|);
    var r := AfterDelete(cs, id).value;
    assert r == RemoveOne(rest, id);
    RemoveRepliesSound(cs, cs, id, |cs|);
    RemoveRepliesTakesChildren(cs, id, |cs|);
    SubKeepsDistinct(rest, cs);
    RemoveOneTakesId(rest, id);
    SubMembers(r, rest);
  }

  // Facts about completeness: nothing below the deleted comment is left.

  /** No comment of the store sits below itself: the parent pointers form a forest.
      `removeReplies` recurses without end on a store where they do not. */
  ghost predicate Acyclic(cs: seq<Comment>) {
    forall c, depth: nat :: c in cs ==> !Descends(cs, c, c.id, depth)
  }

  /** In a store with distinct ids, every record is identified by its id. */
  lemma IdsIdentify(cs: seq<Comment>)
    requires Ids.Distinct(IdsOf(cs))
    ensures forall x, y :: x in cs && y in cs && x.id == y.id ==> x == y
  {
    forall x, y | x in cs && y in cs && x.id == y.id ensures x == y {
      SameIdSameComment(cs, x, y);
    }
  }

  /** Descent through part of a store is descent through all of it. */
  lemma {:induction false} DescendsInLarger(x: seq<Comment>, w: seq<Comment>, c: Comment, a: nat, depth: nat)
    requires forall q :: q in x ==> q in w
    ensures Descends(x, c, a, depth) ==> Descends(w, c, a, depth)
    decreases depth
  {
    if Descends(x, c, a, depth) && c.parentId != Some(a) {
      var p :| p in x && c.parentId == Some(p.id) && Descends(x, p, a, depth - 1);
      DescendsInLarger(x, w, p, a, depth - 1);
    }
  }

  /** What sits below `a` without answering it sits below one of `a`'s direct replies. */
  lemma {:induction false} DescendsTop(cs: seq<Comment>, c: Comment, a: nat, depth: nat)
    ensures Descends(cs, c, a, depth + 1) && c.parentId != Some(a) ==>
      exists r :: r in cs && r.parentId == Some(a) && Descends(cs, c, r.id, depth)
    decreases depth
  {
    if Descends(cs, c, a, depth + 1) && c.parentId != Some(a) {
      var p :| p in cs && c.parentId == Some(p.id) && Descends(cs, p, a, depth);
      if p.parentId == Some(a) {
        assert Descends(cs, c, p.id, depth);
      } else {
        assert depth > 0;
        DescendsTop(cs, p, a, depth - 1);
        var r :| r in cs && r.parentId == Some(a) && Descends(cs, p, r.id, depth - 1);
        assert Descends(cs, c, r.id, depth);
      }
    }
  }

  /** A chain of replies that runs through `x` but not through `y` passes a comment of `x`
      that `y` lacks. */
  lemma {:induction false} DescendsBroken(x: seq<Comment>, y: seq<Comment>, c: Comment, b: nat, depth: nat)
    ensures Descends(x, c, b, depth) && !Descends(y, c, b, depth) ==>
      exists q :: q in x && q !in y && Descends(x, c, q.id, depth) && Descends(x, q, b, depth)
    decreases depth
  {
    if Descends(x, c, b, depth) && !Descends(y, c, b, depth) {
      var p :| p in x && c.parentId == Some(p.id) && Descends(x, p, b, depth - 1);
      DescendsDeeper(x, p, b, depth - 1);
      if p in y {
        assert !Descends(y, p, b, depth - 1);
        DescendsBroken(x, y, p, b, depth - 1);
        var q :| q in x && q !in y && Descends(x, p, q.id, depth - 1) && Descends(x, q, b, depth - 1);
        assert Descends(x, c, q.id, depth);
        DescendsDeeper(x, q, b, depth - 1);
      } else {
        assert Descends(x, c, p.id, depth);
      }
    }
  }

  /** The comments a record sits below lie on one chain: of two of them, one sits below
      the other. */
  lemma {:induction false} DescendsComparable(cs: seq<Comment>, q: Comment, a: nat, b: nat, i: nat, j: nat)
    requires Ids.Distinct(IdsOf(cs)) && Descends(cs, q, a, i) && Descends(cs, q, b, j)
    ensures a == b
      || (exists n :: n in cs && n.id == a && Descends(cs, n, b, j))
      || (exists n :: n in cs && n.id == b && Descends(cs, n, a, i))
    decreases i
  {
    if q.parentId == Some(a) && q.parentId == Some(b) {
    } else if q.parentId == Some(a) {
      var p :| p in cs && q.parentId == Some(p.id) && Descends(cs, p, b, j - 1);
      DescendsDeeper(cs, p, b, j - 1);
    } else if q.parentId == Some(b) {
      var p :| p in cs && q.parentId == Some(p.id) && Descends(cs, p, a, i - 1);
      DescendsDeeper(cs, p, a, i - 1);
    } else {
      var p :| p in cs && q.parentId == Some(p.id) && Descends(cs, p, a, i - 1);
      var p' :| p' in cs && q.parentId == Some(p'.id) && Descends(cs, p', b, j - 1);
      SameIdSameComment(cs, p, p');
      DescendsComparable(cs, p, a, b, i - 1, j - 1);
      forall n | n in cs && Descends(cs, n, b, j - 1) ensures Descends(cs, n, b, j) {
        DescendsDeeper(cs, n, b, j - 1);
      }
      forall n | n in cs && Descends(cs, n, a, i - 1) ensures Descends(cs, n, a, i) {
        DescendsDeeper(cs, n, a, i - 1);
      }
    }
  }

  /** A reply that sits below one of its siblings closes a cycle. */
  lemma SiblingBelowSibling(cs: seq<Comment>, r: Comment, s: Comment, depth: nat)
    requires s in cs && r.parentId.Some? && r.parentId == s.parentId
    ensures Descends(cs, r, s.id, depth) ==> !Acyclic(cs)
  {
    if Descends(cs, r, s.id, depth) {
      if r.parentId == Some(s.id) {
        assert Descends(cs, s, s.id, 0);
      } else {
        var p :| p in cs && r.parentId == Some(p.id) && Descends(cs, p, s.id, depth - 1);
        DescendsThrough(cs, p, s, p.id, depth - 1);
      }
    }
  }

  /** Nothing is, or sits below, one reply of a comment and also sits below another,
      unless the store has a cycle. */
  lemma NoTwoSiblings(cs: seq<Comment>, q: Comment, r: Comment, s: Comment, i: nat, j: nat)
    requires Ids.Distinct(IdsOf(cs)) && r in cs && s in cs && r != s
    requires r.parentId.Some? && r.parentId == s.parentId
    ensures (q == r || Descends(cs, q, r.id, i)) && Descends(cs, q, s.id, j) ==> !Acyclic(cs)
  {
    IdsIdentify(cs);
    if q == r {
      SiblingBelowSibling(cs, r, s, j);
    } else if Descends(cs, q, r.id, i) && Descends(cs, q, s.id, j) {
      DescendsComparable(cs, q, r.id, s.id, i, j);
      SiblingBelowSibling(cs, r, s, j);
      SiblingBelowSibling(cs, s, r, i);
    }
  }

  /** Removing the replies of `pid`, `depth` levels down, leaves nothing that sat up to
      `depth - 1` levels below it. `w` is the store before the delete began, `cs` what is
      left of it now. */
  lemma {:induction false} RemoveRepliesComplete(w: seq<Comment>, cs: seq<Comment>, pid: nat, depth: nat)
    requires Ids.Distinct(IdsOf(w)) && Acyclic(w) && Sub(cs, w)
    ensures depth > 0 ==> forall c :: c in AfterRemoveReplies(cs, pid, depth) ==> !Descends(cs, c, pid, depth - 1)
    decreases depth, 0, 0
  {
    if depth > 0 {
      var replies := Filter(cs, ChildOf(pid));
      FilterMembers(cs, ChildOf(pid));
      SubMembers(cs, w);
      SubKeepsDistinct(cs, w);
      RemoveEachComplete(w, cs, replies, pid, depth - 1);
      RemoveEachTakesReplies(cs, replies, depth - 1);
      RemoveRepliesStep(cs, pid, depth);
      var result := AfterRemoveReplies(cs, pid, depth);
      SubMembers(result, cs);
      forall c | c in result ensures !Descends(cs, c, pid, depth - 1) {
        if depth > 1 {
          DescendsTop(cs, c, pid, depth - 2);
        }
      }
    }
  }

  lemma {:induction false} RemoveEachComplete(w: seq<Comment>, cs: seq<Comment>, replies: seq<Comment>, pid: nat, depth: nat)
    requires Ids.Distinct(IdsOf(w)) && Acyclic(w) && Sub(cs, w)
    requires forall r :: r in replies ==> r in w && r.parentId == Some(pid)
    ensures depth > 0 ==> forall c, r :: c in AfterRemoveEach(cs, replies, depth) && r in replies ==> !Descends(cs, c, r.id, depth - 1)
    decreases depth, 1, |replies|
  {
    if |replies| > 0 && depth > 0 {
      var r := replies[0];
      var x1 := AfterRemoveReplies(cs, r.id, depth);
      var x2 := RemoveOne(x1, r.id);
      var result := AfterRemoveEach(cs, replies, depth);
      RemoveEachStep(cs, replies, depth);
      SubTrans(x1, cs, w);
      SubTrans(x2, x1, w);
      RemoveRepliesComplete(w, cs, r.id, depth);
      assert forall q :: q in replies[1..] ==> q in replies;
      RemoveEachComplete(w, x2, replies[1..], pid, depth);
      SubMembers(result, x2);
      SubMembers(x2, x1);
      SubMembers(cs, w);
      FirstReplyTakes(w, cs, r, depth);
      EachStepKept(w, cs, x1, x2, result, replies, pid, depth - 1);
    }
  }

  /** One round of the `forEach`, put together: what survives it and the rounds after it
      sits below none of the replies. */
  lemma EachStepKept(w: seq<Comment>, cs: seq<Comment>, x1: seq<Comment>, x2: seq<Comment>,
                     result: seq<Comment>, replies: seq<Comment>, pid: nat, d: nat)
    requires Ids.Distinct(IdsOf(w)) && Acyclic(w) && (forall q :: q in cs ==> q in w)
    requires |replies| > 0 && forall q :: q in replies ==> q in w && q.parentId == Some(pid)
    requires forall c :: c in x1 ==> !Descends(cs, c, replies[0].id, d)
    requires forall c, s :: c in result && s in replies[1..] ==> !Descends(x2, c, s.id, d)
    requires forall c :: c in result ==> c in x2 && c in x1
    requires forall q :: q in cs && q !in x2 ==> q == replies[0] || Descends(w, q, replies[0].id, d + 1)
    ensures forall c, s :: c in result && s in replies ==> !Descends(cs, c, s.id, d)
  {
    var r := replies[0];
    forall c, s | c in result && s in replies ensures !Descends(cs, c, s.id, d) {
      if s != r {
        assert s in replies[1..] by { assert replies == [r] + replies[1..]; }
        SiblingKept(w, cs, x2, r, s, c, d);
      }
    }
  }

  /** What the first round of the `forEach` takes out is its reply `r` or sat below it. */
  lemma FirstReplyTakes(w: seq<Comment>, cs: seq<Comment>, r: Comment, depth: nat)
    requires Ids.Distinct(IdsOf(w)) && Sub(cs, w) && r in w
    ensures forall q :: q in cs && q !in RemoveOne(AfterRemoveReplies(cs, r.id, depth), r.id) ==>
      q == r || Descends(w, q, r.id, depth)
  {
    var x1 := AfterRemoveReplies(cs, r.id, depth);
    RemoveRepliesSound(w, cs, r.id, depth);
    RemoveOneTakesId(x1, r.id);
    SubMembers(cs, w);
    IdsIdentify(w);
  }

  /** The step of the `forEach` for a later reply `s`: what the first reply `r` took out
      was `r` or sat below it, so no chain below `s` ran through it, and what `x2` no
      longer has below `s` the store before the step did not have either. */
  lemma SiblingKept(w: seq<Comment>, cs: seq<Comment>, x2: seq<Comment>, r: Comment, s: Comment, c: Comment, d: nat)
    requires Ids.Distinct(IdsOf(w)) && Acyclic(w) && (forall q :: q in cs ==> q in w)
    requires r in w && s in w && r != s && r.parentId.Some? && r.parentId == s.parentId
    requires forall q :: q in cs && q !in x2 ==> q == r || Descends(w, q, r.id, d + 1)
    requires !Descends(x2, c, s.id, d)
    ensures !Descends(cs, c, s.id, d)
  {
    DescendsBroken(cs, x2, c, s.id, d);
    if Descends(cs, c, s.id, d) {
      var q :| q in cs && q !in x2 && Descends(cs, c, q.id, d) && Descends(cs, q, s.id, d);
      DescendsInLarger(cs, w, q, s.id, d);
      NoTwoSiblings(w, q, r, s, d + 1, d);
    }
  }

  /** Descent within some number of levels is descent within any larger number. */
  lemma {:induction false} DescendsAtLeast(cs: seq<Comment>, c: Comment, a: nat, depth: nat, more: nat)
    requires depth <= more && Descends(cs, c, a, depth)
    ensures Descends(cs, c, a, more)
    decreases more - depth
  {
    if depth < more {
      DescendsDeeper(cs, c, a, depth);
      DescendsAtLeast(cs, c, a, depth + 1, more);
    }
  }

  function Other(x: Comment): Comment -> bool {
    (c: Comment) => c != x
  }

  /** In a store without a cycle, a chain of replies from a record outside the store meets
      each comment at most once, so `|cs|` levels reach everything the record sits below. */
  lemma {:induction false} ChainOutside(cs: seq<Comment>, x: Comment, a: nat, depth: nat)
    requires Acyclic(cs) && x !in cs
    ensures Descends(cs, x, a, depth) ==> Descends(cs, x, a, |cs|)
    decreases |cs|
  {
    if Descends(cs, x, a, depth) && x.parentId != Some(a) {
      var p :| p in cs && x.parentId == Some(p.id) && Descends(cs, p, a, depth - 1);
      var rest := Filter(cs, Other(p));
      FilterMembers(cs, Other(p));
      FilterDrops(cs, Other(p), p);
      DescendsBroken(cs, rest, p, a, depth - 1);
      assert Descends(rest, p, a, depth - 1);
      forall c, d: nat | c in rest ensures !Descends(rest, c, c.id, d) {
        DescendsInLarger(rest, cs, c, c.id, d);
      }
      ChainOutside(rest, p, a, depth - 1);
      DescendsInLarger(rest, cs, p, a, |rest|);
      DescendsAtLeast(cs, p, a, |rest|, |cs| - 1);
      assert Descends(cs, x, a, |cs|);
    }
  }

  /** In a store without a cycle, `|cs| - 1` levels reach everything a comment of the
      store sits below. */
  lemma {:induction false} ChainInside(cs: seq<Comment>, c: Comment, a: nat, depth: nat)
    requires Acyclic(cs) && c in cs
    ensures Descends(cs, c, a, depth) ==> Descends(cs, c, a, |cs| - 1)
  {
    if Descends(cs, c, a, depth) {
      var rest := Filter(cs, Other(c));
      FilterMembers(cs, Other(c));
      FilterDrops(cs, Other(c), c);
      DescendsBroken(cs, rest, c, a, depth);
      assert Descends(rest, c, a, depth);
      forall q, d: nat | q in rest ensures !Descends(rest, q, q.id, d) {
        DescendsInLarger(rest, cs, q, q.id, d);
      }
      ChainOutside(rest, c, a, depth);
      DescendsInLarger(rest, cs, c, a, |rest|);
      DescendsAtLeast(cs, c, a, |rest|, |cs| - 1);
    }
  }

  /** `delete(id)`, with the index looked up again, on a store with distinct ids and no
      cycle: nothing that sat below the comment, at any depth, is left. */
  lemma {:induction false} DeleteComplete(cs: seq<Comment>, id: nat)
    requires Ids.Distinct(IdsOf(cs)) && Acyclic(cs) && AfterDelete(cs, id).Ok?
    ensures forall c, depth: nat :: c in AfterDelete(cs, id).value ==> !Descends(cs, c, id, depth)
  {
    SubRefl(cs);
    var rest := AfterRemoveReplies(cs, id, |cs|);
    var r := AfterDelete(cs, id).value;
    assert r == RemoveOne(rest, id);
    RemoveRepliesComplete(cs, cs, id, |cs|);
    SubMembers(r, rest);
    SubMembers(rest, cs);
    forall c, depth: nat | c in r ensures !Descends(cs, c, id, depth) {
      ChainInside(cs, c, id, depth);
    }
  }

  /** The comments store. */
  class CommentsService {
    var comments: seq<Comment>

    /** The store starts as a copy of the fixture data. */
    constructor(initial: seq<Comment>)
      ensures comments == initial
    {
      comments := initial;
    }

    /** `create(commentData)`: the new comment goes at the end, with the next id. */
    method Create(d: Draft, now: int) returns (c: Comment)
      modifies this
      ensures c == NewComment(Ids.NextId(IdsOf(old(comments))), d, now)
      ensures comments == old(comments) + [c]
      ensures Ids.Distinct(IdsOf(old(comments))) ==> Ids.Distinct(IdsOf(comments))
    {
      var ids := IdsOf(comments);
      c := NewComment(Ids.NextId(ids), d, now);
      if Ids.Distinct(ids) {
        Ids.NextIdKeepsDistinct(ids);
      }
      assert IdsOf(comments + [c]) == ids + [c.id];
      comments := comments + [c];
    }

    method Vote(id: nat, v: Vote) returns (o: Outcome)
      modifies this
      ensures AfterVote(old(comments), id, v).Err? ==> o == Failed(NotFound) && comments == old(comments)
      ensures AfterVote(old(comments), id, v).Ok? ==> o == Done && comments == AfterVote(old(comments), id, v).value
    {
      var i := FirstIndex(comments, HasId(id));
      if i == -1 {
        return Failed(NotFound);
      }
      var comment := comments[i];
      comments := comments[i := comment.(tally := Cast(comment.tally, v))];
      o := Done;
    }

    method Update(id: nat, d: Patch) returns (r: Result<Comment>)
      modifies this
      ensures AfterUpdate(old(comments), id, d).Err? ==> r == Err(NotFound) && comments == old(comments)
      ensures AfterUpdate(old(comments), id, d).Ok? ==>
        comments == AfterUpdate(old(comments), id, d).value.0 && r == Ok(AfterUpdate(old(comments), id, d).value.1)
    {
      var i := FirstIndex(comments, HasId(id));
      if i == -1 {
        return Err(NotFound);
      }
      var merged := Merge(comments[i], d);
      comments := comments[i := merged];
      r := Ok(merged);
    }

    /** `removeReplies(pid)`: each reply found in the store as it is now is removed after
        its own replies, `depth` levels down. */
    method RemoveReplies(pid: nat, depth: nat)
      modifies this
      ensures comments == AfterRemoveReplies(old(comments), pid, depth)
      decreases depth
    {
      if depth == 0 {
        return;
      }
      var replies := Filter(comments, ChildOf(pid));
      var d := depth - 1;
      ghost var target := AfterRemoveEach(comments, replies, d);
      RemoveRepliesStep(comments, pid, depth);
      var k := 0;
      assert replies[k..] == replies;
      while k < |replies|
        invariant 0 <= k <= |replies|
        invariant AfterRemoveEach(comments, replies[k..], d) == target
        decreases |replies| - k
      {
        var reply := replies[k];
        ghost var before := comments;
        ghost var rest := replies[k..];
        RemoveEachStep(before, rest, d);
        assert rest[0] == reply && rest[1..] == replies[k + 1..];
        RemoveReplies(reply.id, d);
        var i := FirstIndex(comments, HasId(reply.id));
        if i != -1 {
          comments := Splice1(comments, i);
        }
        assert comments == RemoveOne(AfterRemoveReplies(before, reply.id, d), reply.id);
        k := k + 1;
      }
    }

    /** `delete(id)`, with the index of the comment looked up again once its replies are
        gone. */
    method Delete(id: nat) returns (o: Outcome)
      modifies this
      ensures AfterDelete(old(comments), id).Err? ==> o == Failed(NotFound) && comments == old(comments)
      ensures AfterDelete(old(comments), id).Ok? ==> o == Done && comments == AfterDelete(old(comments), id).value
    {
      var i := FirstIndex(comments, HasId(id));
      if i == -1 {
        return Failed(NotFound);
      }
      RemoveReplies(id, |comments|);
      var j := FirstIndex(comments, HasId(id));
      if j != -1 {
        comments := Splice1(comments, j);
      }
      o := Done;
    }
  }
}

=== FILE: common.dfy ===
/** Result types shared by the services and the pages.
    Every service call in the application resolves with a value or rejects with an
    `Error` whose message is a fixed string; `Result` and `Outcome` stand for those. */
module Common {

  datatype Option<T> = None | Some(value: T)

  /** A call that resolves with a value or rejects with a message. */
  datatype Result<T> = Ok(value: T) | Err(message: string)

  /** A call that resolves with `{ success: true }` or rejects with a message. */
  datatype Outcome = Done | Failed(message: string)

  /** `Math.max(0, n)`, the floor the services put under counters. */
  function Max0(n: int): (r: int)
    ensures r >= 0 && r >= n
    ensures r == n || r == 0
  {
    if n > 0 then n else 0
  }
}

=== FILE: communities.dfy ===
/** The communities store: `CommunitiesService` keeps an array of community records,
    sorts it in place by member count, flips and sets subscriptions in place, and
    creates, updates, deletes and searches communities. */
module Communities {
  import opened Common
  import opened Seqs
  import opened Text
  import Ids

  /** The message of every lookup of a community that is not there. */
  const NotFound := "Community not found"

  /** A community record. `createdAt` is the creation time in milliseconds. */
  datatype Community = Community(
    id: nat, name: string, description: string, memberCount: int, createdAt: int, isSubscribed: bool)

  function IdsOf(cs: seq<Community>): (ids: seq<nat>)
    ensures |ids| == |cs|
    ensures forall i :: 0 <= i < |cs| ==> ids[i] == cs[i].id
  {
    if |cs| == 0 then [] else [cs[0].id] + IdsOf(cs[1..])
  }

  function HasId(id: nat): Community -> bool {
    (c: Community) => c.id == id
  }

  function MemberCount(): Community -> int {
    (c: Community) => c.memberCount
  }

  /** No community counts fewer than zero members. */
  predicate Counted(cs: seq<Community>) {
    forall i :: 0 <= i < |cs| ==> cs[i].memberCount >= 0
  }

  // ---------------------------------------------------------------- getAll

  /** The order `getAll` leaves the store in: most members first, communities with the
      same count in their previous order. */
  function Ranked(cs: seq<Community>): (r: seq<Community>)
    ensures multiset(r) == multiset(cs)
    ensures forall i, j :: 0 <= i < j < |r| ==> r[i].memberCount >= r[j].memberCount
    ensures forall k :: Filter(r, KeyIs(MemberCount(), k)) == Filter(cs, KeyIs(MemberCount(), k))
  {
    var r := SortDesc(cs, MemberCount());
    forall k ensures Filter(r, KeyIs(MemberCount(), k)) == Filter(cs, KeyIs(MemberCount(), k)) {
      SortDescStable(cs, MemberCount(), k);
    }
    r
  }

  /** Sorting the store a second time leaves it as the first `getAll` left it. */
  lemma RankedIdempotent(cs: seq<Community>)
    ensures Ranked(Ranked(cs)) == Ranked(cs)
  {
    SortDescOfSorted(Ranked(cs), MemberCount());
  }

  // ---------------------------------------------------------- getById, getByName

  /** `getById(id)`: a copy of the first community with the id, or "Community not found". */
  function FindById(cs: seq<Community>, id: nat): (r: Result<Community>)
    ensures r.Err? <==> forall c :: c in cs ==> c.id != id
    ensures r.Err? ==> r.message == NotFound
    ensures r.Ok? ==> r.value in cs && r.value.id == id
    ensures r.Ok? ==> exists i :: (0 <= i < |cs| && r.value == cs[i]
      && forall j :: 0 <= j < i ==> cs[j].id != id)
  {
    var i := FirstIndex(cs, HasId(id));
    if i == -1 then Err(NotFound) else Ok(cs[i])
  }

  /** The name test of `getByName`, given the lower-cased name asked for. */
  function NamedLike(lowered: string): Community -> bool {
    (c: Community) => Lower(c.name) == lowered
  }

  /** `getByName(name)`: the first community whose name equals `name` when both are
      lower-cased, or "Community not found". */
  function FindByName(cs: seq<Community>, name: string): (r: Result<Community>)
    ensures r.Err? <==> forall c :: c in cs ==> Lower(c.name) != Lower(name)
    ensures r.Err? ==> r.message == NotFound
    ensures r.Ok? ==> r.value in cs && Lower(r.value.name) == Lower(name)
    ensures r.Ok? ==> exists i :: (0 <= i < |cs| && cs[i] == r.value
      && forall j :: 0 <= j < i ==> Lower(cs[j].name) != Lower(name))
  {
    var i := FirstIndex(cs, NamedLike(Lower(name)));
    if i == -1 then
      assert forall c :: c in cs ==> Lower(c.name) != Lower(name) by {
        forall c | c in cs ensures Lower(c.name) != Lower(name) {
          var j :| 0 <= j < |cs| && cs[j] == c;
          assert !NamedLike(Lower(name))(cs[j]);
        }
      }
      Err(NotFound)
    else
      assert NamedLike(Lower(name))(cs[i]);
      assert forall j :: 0 <= j < i ==> !NamedLike(Lower(name))(cs[j]);
      Ok(cs[i])
  }

  /** A lookup by name does not depend on the case of either spelling. */
  lemma FindByNameIgnoresCase(cs: seq<Community>, a: string, b: string)
    requires Lower(a) == Lower(b)
    ensures FindByName(cs, a) == FindByName(cs, b)
  {
  }

  // ---------------------------------------------------------------- toggleSubscription

  /** `toggleSubscription` on one record: the flag flips and the count follows it by one,
      without any floor. */
  function Toggled(c: Community): (r: Community)
    ensures r.isSubscribed == !c.isSubscribed
    ensures r.memberCount == if r.isSubscribed then c.memberCount + 1 else c.memberCount - 1
    ensures r.(isSubscribed := c.isSubscribed, memberCount := c.memberCount) == c
  {
    var on := !c.isSubscribed;
    c.(isSubscribed := on, memberCount := if on then c.memberCount + 1 else c.memberCount - 1)
  }

  /** Toggling twice gives the record back. */
  lemma ToggledTwice(c: Community)
    ensures Toggled(Toggled(c)) == c
  {
  }

  /** Without a floor, leaving a community that counts no members gives it -1 members. */
  lemma ToggledBelowZero(c: Community)
    requires c.isSubscribed && c.memberCount == 0
    ensures Toggled(c).memberCount == -1
  {
  }

  /** The store after `toggleSubscription(id)`. An unknown id changes nothing, and the call
      never settles: `None`. */
  function AfterToggle(cs: seq<Community>, id: nat): (r: Option<(seq<Community>, Community)>)
    ensures r.None? <==> forall c :: c in cs ==> c.id != id
    ensures r.Some? ==> |r.value.0| == |cs| && IdsOf(r.value.0) == IdsOf(cs)
    ensures r.Some? ==> exists i :: (0 <= i < |cs| && cs[i].id == id
      && (forall j :: 0 <= j < i ==> cs[j].id != id)
      && r.value.0 == cs[i := Toggled(cs[i])] && r.value.1 == Toggled(cs[i]))
  {
    var i := FirstIndex(cs, HasId(id));
    if i == -1 then None
    else
      var t := Toggled(cs[i]);
      var r := cs[i := t];
      assert r[i] == t && t.id == cs[i].id == id;
      assert IdsOf(r) == IdsOf(cs);
      Some((r, t))
  }

  /** Toggling the same community twice gives the store back. */
  lemma {:induction false} ToggleTwice(cs: seq<Community>, id: nat)
    ensures AfterToggle(cs, id).Some? ==>
      AfterToggle(AfterToggle(cs, id).value.0, id).Some?
      && AfterToggle(AfterToggle(cs, id).value.0, id).value.0 == cs
  {
    var i := FirstIndex(cs, HasId(id));
    if i != -1 {
      var once := cs[i := Toggled(cs[i])];
      assert AfterToggle(cs, id).value.0 == once;
      assert forall j :: 0 <= j < |cs| ==> HasId(id)(once[j]) == HasId(id)(cs[j]);
      assert FirstIndex(once, HasId(id)) == i;
      assert once[i := Toggled(once[i])] == cs;
    }
  }

  // ---------------------------------------------------------------- subscribe

  /** `subscribe(id, on)` on one record: joining always adds a member, even for a member;
      leaving takes one away but never below zero. */
  function Subscribed(c: Community, on: bool): (r: Community)
    ensures r.isSubscribed == on
    ensures on ==> r.memberCount == c.memberCount + 1
    ensures !on ==> r.memberCount >= 0
    ensures !on && c.memberCount >= 1 ==> r.memberCount == c.memberCount - 1
    ensures !on && c.memberCount < 1 ==> r.memberCount == 0
    ensures r.(isSubscribed := c.isSubscribed, memberCount := c.memberCount) == c
  {
    c.(isSubscribed := on, memberCount := if on then c.memberCount + 1 else Max0(c.memberCount - 1))
  }

  /** Joining twice counts the member twice, so `subscribe(id, true)` is not idempotent;
      leaving twice is idempotent only once the count has reached zero. */
  lemma SubscribedTwice(c: Community)
    ensures Subscribed(Subscribed(c, true), true).memberCount == c.memberCount + 2
    ensures Subscribed(Subscribed(c, false), false).memberCount == Max0(c.memberCount - 2)
    ensures Subscribed(Subscribed(c, false), false) == Subscribed(c, false) <==> c.memberCount <= 1
  {
  }

  /** The store after `subscribe(id, on)`: the first community with the id updated, the
      others untouched; an unknown id rejects. */
  function AfterSubscribe(cs: seq<Community>, id: nat, on: bool): (r: Result<(seq<Community>, Community)>)
    ensures r.Err? <==> forall c :: c in cs ==> c.id != id
    ensures r.Err? ==> r.message == NotFound
    ensures r.Ok? ==> |r.value.0| == |cs| && IdsOf(r.value.0) == IdsOf(cs)
    ensures r.Ok? ==> exists i :: (0 <= i < |cs| && cs[i].id == id
      && (forall j :: 0 <= j < i ==> cs[j].id != id)
      && r.value.0 == cs[i := Subscribed(cs[i], on)] && r.value.1 == Subscribed(cs[i], on))
  {
    var i := FirstIndex(cs, HasId(id));
    if i == -1 then Err(NotFound)
    else
      var c := Subscribed(cs[i], on);
      var r := cs[i := c];
      assert IdsOf(r) == IdsOf(cs);
      Ok((r, c))
  }

  /** `subscribe` never makes a member count negative. */
  lemma SubscribeKeepsCounted(cs: seq<Community>, id: nat, on: bool)
    requires Counted(cs)
    ensures AfterSubscribe(cs, id, on).Ok? ==> Counted(AfterSubscribe(cs, id, on).value.0)
  {
    var i := FirstIndex(cs, HasId(id));
    if i != -1 {
      assert AfterSubscribe(cs, id, on).value.0 == cs[i := Subscribed(cs[i], on)];
    }
  }

  // ---------------------------------------------------------------- create

  /** The name `create` stores: lower-cased with every white-space character removed. */
  function NormalName(name: string): (r: string)
    ensures |r| <= |name|
    ensures forall i :: 0 <= i < |r| ==> !IsWhitespace(r[i])
    ensures Lower(r) == r
    ensures r == Lower(Filter(name, Visible()))
  {
    StripLowerCommute(name);
    LowerIdempotent(StripWhitespace(name));
    StripWhitespace(Lower(name))
  }

  /** A stored name is already normal. */
  lemma {:induction false} NormalNameIdempotent(name: string)
    ensures NormalName(NormalName(name)) == NormalName(name)
  {
    var n := NormalName(name);
    StripWhitespaceIdempotent(Lower(name));
    assert Lower(n) == n;
  }

  /** The record `create` builds: its creator is its one member and is subscribed. */
  function NewCommunity(id: nat, name: string, description: string, now: int): (c: Community)
    ensures c.id == id && c.name == NormalName(name) && c.description == description
    ensures c.memberCount == 1 && c.isSubscribed && c.createdAt == now
  {
    Community(id, NormalName(name), description, 1, now, true)
  }

  // ---------------------------------------------------------------- update, delete

  /** The fields of `data` in `update(id, data)`; `None` for a field `data` leaves out. */
  datatype Patch = Patch(
    id: Option<nat>, name: Option<string>, description: Option<string>,
    memberCount: Option<int>, createdAt: Option<int>, isSubscribed: Option<bool>)

  function Pick<T>(o: Option<T>, old_: T): T {
    if o.Some? then o.value else old_
  }

  /** `{ ...community, ...data }`: the supplied fields overwrite, the others stay; the
      name is stored as given, without the normalisation `create` applies. */
  function Merge(c: Community, d: Patch): (r: Community)
    ensures d.id.Some? ==> r.id == d.id.value
    ensures d.id.None? ==> r.id == c.id
    ensures d.name.Some? ==> r.name == d.name.value
    ensures d.name.None? ==> r.name == c.name
    ensures d.description.Some? ==> r.description == d.description.value
    ensures d.description.None? ==> r.description == c.description
    ensures d.memberCount.Some? ==> r.memberCount == d.memberCount.value
    ensures d.memberCount.None? ==> r.memberCount == c.memberCount
    ensures d.createdAt.Some? ==> r.createdAt == d.createdAt.value
    ensures d.createdAt.None? ==> r.createdAt == c.createdAt
    ensures d.isSubscribed.Some? ==> r.isSubscribed == d.isSubscribed.value
    ensures d.isSubscribed.None? ==> r.isSubscribed == c.isSubscribed
    ensures d == Patch(None, None, None, None, None, None) ==> r == c
  {
    Community(Pick(d.id, c.id), Pick(d.name, c.name), Pick(d.description, c.description),
              Pick(d.memberCount, c.memberCount), Pick(d.createdAt, c.createdAt),
              Pick(d.isSubscribed, c.isSubscribed))
  }

  /** Merging the same data twice is merging it once. */
  lemma MergeIdempotent(c: Community, d: Patch)
    ensures Merge(Merge(c, d), d) == Merge(c, d)
  {
  }

  /** The store after `update(id, data)`. */
  function AfterUpdate(cs: seq<Community>, id: nat, d: Patch): (r: Result<(seq<Community>, Community)>)
    ensures r.Err? <==> forall c :: c in cs ==> c.id != id
    ensures r.Err? ==> r.message == NotFound
    ensures r.Ok? ==> exists i :: (0 <= i < |cs| && cs[i].id == id
      && (forall j :: 0 <= j < i ==> cs[j].id != id)
      && r.value.0 == cs[i := Merge(cs[i], d)] && r.value.1 == Merge(cs[i], d))
  {
    var i := FirstIndex(cs, HasId(id));
    if i == -1 then Err(NotFound)
    else Ok((cs[i := Merge(cs[i], d)], Merge(cs[i], d)))
  }

  /** The store after `delete(id)`: the first community with the id spliced out. */
  function AfterDelete(cs: seq<Community>, id: nat): (r: Result<seq<Community>>)
    ensures r.Err? <==> forall c :: c in cs ==> c.id != id
    ensures r.Err? ==> r.message == NotFound
    ensures r.Ok? ==> exists i :: (0 <= i < |cs| && cs[i].id == id
      && (forall j :: 0 <= j < i ==> cs[j].id != id)
      && r.value == cs[..i] + cs[i + 1..])
  {
    var i := FirstIndex(cs, HasId(id));
    if i == -1 then Err(NotFound)
    else
      assert Splice1(cs, i) == cs[..i] + cs[i + 1..];
      Ok(Splice1(cs, i))
  }

  // ---------------------------------------------------------------- search

  /** The search predicate: the query occurs in the name or in the description, both
      lower-cased. */
  function Mentions(query: string): Community -> bool {
    (c: Community) => Includes(Lower(c.name), Lower(query)) || Includes(Lower(c.description), Lower(query))
  }

  /** `search(query)`: the matching communities, most members first. */
  function Search(cs: seq<Community>, query: string): (r: seq<Community>)
    ensures forall c :: c in r <==> c in cs && (Includes(Lower(c.name), Lower(query)) || Includes(Lower(c.description), Lower(query)))
    ensures multiset(r) == multiset(Filter(cs, Mentions(query)))
    ensures forall i, j :: 0 <= i < j < |r| ==> r[i].memberCount >= r[j].memberCount
    ensures forall k :: Filter(r, KeyIs(MemberCount(), k)) == Filter(Filter(cs, Mentions(query)), KeyIs(MemberCount(), k))
  {
    var found := Filter(cs, Mentions(query));
    FilterMembers(cs, Mentions(query));
    var r := SortDesc(found, MemberCount());
    forall k ensures Filter(r, KeyIs(MemberCount(), k)) == Filter(found, KeyIs(MemberCount(), k)) {
      SortDescStable(found, MemberCount(), k);
    }
    SameMembers(r, found);
    r
  }

  /** The empty query occurs in every string, so it finds every community. */
  lemma SearchEmpty(cs: seq<Community>)
    ensures multiset(Search(cs, "")) == multiset(cs)
  {
    forall c | c in cs ensures Mentions("")(c) {
      assert OccursAt(Lower(c.name), Lower(""), 0);
    }
    FilterUniform(cs, Mentions(""));
  }

  /** `CommunitiesService`: the array of communities and the operations that change it. */
  class CommunitiesService {
    var communities: seq<Community>

    /** The store starts as a copy of the fixture data. */
    constructor(initial: seq<Community>)
      ensures communities == initial
    {
      communities := initial;
    }

    /** `getAll()`: sorts the store itself by member count and returns a copy of it. */
    method GetAll() returns (r: seq<Community>)
      modifies this
      ensures communities == Ranked(old(communities))
      ensures r == communities
    {
      communities := Ranked(communities);
      r := communities;
    }

    /** `toggleSubscription(id)`: `None` is the call that never settles. */
    method ToggleSubscription(id: nat) returns (r: Option<Community>)
      modifies this
      ensures AfterToggle(old(communities), id).None? ==> r.None? && communities == old(communities)
      ensures AfterToggle(old(communities), id).Some? ==>
        communities == AfterToggle(old(communities), id).value.0 && r == Some(AfterToggle(old(communities), id).value.1)
    {
      var i := FirstIndex(communities, HasId(id));
      if i == -1 {
        return None;
      }
      var c := communities[i];
      var on := !c.isSubscribed;
      c := c.(isSubscribed := on);
      if on {
        c := c.(memberCount := c.memberCount + 1);
      } else {
        c := c.(memberCount := c.memberCount - 1);
      }
      assert c == Toggled(communities[i]);
      communities := communities[i := c];
      r := Some(c);
    }

    method Subscribe(id: nat, on: bool := true) returns (r: Result<Community>)
      modifies this
      ensures AfterSubscribe(old(communities), id, on).Err? ==> r == Err(NotFound) && communities == old(communities)
      ensures AfterSubscribe(old(communities), id, on).Ok? ==>
        communities == AfterSubscribe(old(communities), id, on).value.0 && r == Ok(AfterSubscribe(old(communities), id, on).value.1)
    {
      var i := FirstIndex(communities, HasId(id));
      if i == -1 {
        return Err(NotFound);
      }
      var c := communities[i].(isSubscribed := on);
      if on {
        c := c.(memberCount := c.memberCount + 1);
      } else {
        c := c.(memberCount := Max0(c.memberCount - 1));
      }
      assert c == Subscribed(communities[i], on);
      communities := communities[i := c];
      r := Ok(c);
    }

    /** `create(data)`: appended with the next id. */
    method Create(name: string, description: string, now: int) returns (c: Community)
      modifies this
      ensures c == NewCommunity(Ids.NextId(IdsOf(old(communities))), name, description, now)
      ensures communities == old(communities) + [c]
      ensures Ids.Distinct(IdsOf(old(communities))) ==> Ids.Distinct(IdsOf(communities))
    {
      var ids := IdsOf(communities);
      c := NewCommunity(Ids.NextId(ids), name, description, now);
      if Ids.Distinct(ids) {
        Ids.NextIdKeepsDistinct(ids);
      }
      assert IdsOf(communities + [c]) == ids + [c.id];
      communities := communities + [c];
    }

    method Update(id: nat, d: Patch) returns (r: Result<Community>)
      modifies this
      ensures AfterUpdate(old(communities), id, d).Err? ==> r == Err(NotFound) && communities == old(communities)
      ensures AfterUpdate(old(communities), id, d).Ok? ==>
        communities == AfterUpdate(old(communities), id, d).value.0 && r == Ok(AfterUpdate(old(communities), id, d).value.1)
    {
      var i := FirstIndex(communities, HasId(id));
      if i == -1 {
        return Err(NotFound);
      }
      var merged := Merge(communities[i], d);
      communities := communities[i := merged];
      r := Ok(merged);
    }

    method Delete(id: nat) returns (o: Outcome)
      modifies this
      ensures AfterDelete(old(communities), id).Err? ==> o == Failed(NotFound) && communities == old(communities)
      ensures AfterDelete(old(communities), id).Ok? ==> o == Done && communities == AfterDelete(old(communities), id).value
    {
      var i := FirstIndex(communities, HasId(id));
      if i == -1 {
        return Failed(NotFound);
      }
      assert Splice1(communities, i) == AfterDelete(communities, id).value;
      communities := Splice1(communities, i);
      o := Done;
    }
  }
}

=== FILE: create_post.dfy ===
/** The create-post form: the draft and the errors shown beside it, the checks run before
    a post is sent, the poll options that stay between two and six, and the change of
    post type that clears what belongs to the other types. */
module CreatePost {
  import opened Common
  import opened Text
  import opened Seqs

  datatype PostType = TextPost | MediaPost | LinkPost | PollPost

  /** The draft (`postData`). */
  datatype PostData = PostData(
    title: string, content: string, postType: PostType,
    imageUrl: string, videoUrl: string, linkUrl: string,
    communityName: string, flair: string,
    isNsfw: bool, isSpoiler: bool,
    pollOptions: seq<string>, pollDuration: string)

  /** The names `validateForm` files its messages under: four fields of the draft, and
      "media" and "poll", which no single field owns. */
  datatype ErrorKey = TitleError | CommunityError | ContentError | LinkError | MediaError | PollError

  /** What the page shows: the draft and the error messages by name. */
  datatype Form = Form(data: PostData, errors: map<ErrorKey, string>)

  /** The empty form the page starts with: a text post, two empty poll options, three days. */
  function Initial(): (f: Form)
    ensures f.errors == map[] && f.data.postType == TextPost
    ensures f.data.pollOptions == ["", ""] && PollBounds(f.data)
  {
    Form(PostData("", "", TextPost, "", "", "", "", "", false, false, ["", ""], "3"), map[])
  }

  // ---------------------------------------------------------------- validateForm

  /** `opt.trim()` is truthy: the option has something in it besides white space. (The
      form's tests `!x.trim()` are written `IsBlank(x)` here: `Trim` leaves nothing exactly
      when its argument is blank.) */
  predicate Filled(opt: string) {
    !IsBlank(opt)
  }

  /** The poll options that count: the filled ones, in their order. */
  function ValidOptions(d: PostData): seq<string> {
    Filter(d.pollOptions, Filled)
  }

  /** The options that count are the options with something besides white space in them. */
  lemma ValidOptionsMembers(d: PostData)
    ensures forall o :: o in ValidOptions(d) <==> o in d.pollOptions && !IsBlank(o)
  {
    FilterMembers(d.pollOptions, Filled);
  }

  /** The messages `validateForm` files, one per check. */
  const TitleMessage := "Title is required"
  const CommunityMessage := "Please select a community"
  const ContentMessage := "Content is required for text posts"
  const LinkMessage := "URL is required for link posts"
  const MediaMessage := "Image or video URL is required for media posts"
  const PollMessage := "Poll must have at least 2 options"

  function Message(key: ErrorKey): string {
    match key
    case TitleError => TitleMessage
    case CommunityError => CommunityMessage
    case ContentError => ContentMessage
    case LinkError => LinkMessage
    case MediaError => MediaMessage
    case PollError => PollMessage
  }

  /** The check behind each message. */
  predicate Fails(d: PostData, key: ErrorKey) {
    match key
    case TitleError => IsBlank(d.title)
    case CommunityError => d.communityName == ""
    case ContentError => d.postType == TextPost && IsBlank(d.content)
    case LinkError => d.postType == LinkPost && IsBlank(d.linkUrl)
    case MediaError => d.postType == MediaPost && IsBlank(d.imageUrl) && IsBlank(d.videoUrl)
    case PollError => d.postType == PollPost && |ValidOptions(d)| < 2
  }

  /** A draft ready to be sent: a title and a community, and what its type needs. */
  predicate Complete(d: PostData) {
    !IsBlank(d.title) && d.communityName != ""
    && match d.postType
       case TextPost => !IsBlank(d.content)
       case LinkPost => !IsBlank(d.linkUrl)
       case MediaPost => !IsBlank(d.imageUrl) || !IsBlank(d.videoUrl)
       case PollPost => |ValidOptions(d)| >= 2
  }

  /** The draft passes every check exactly when it is complete. */
  lemma PassesIff(d: PostData)
    ensures (forall k :: !Fails(d, k)) <==> Complete(d)
  {
    if Complete(d) {
      forall k ensures !Fails(d, k) {
        match k
        case TitleError =>
        case CommunityError =>
        case ContentError =>
        case LinkError =>
        case MediaError =>
        case PollError =>
      }
    } else {
      assert Fails(d, TitleError) || Fails(d, CommunityError) || Fails(d, ContentError)
        || Fails(d, LinkError) || Fails(d, MediaError) || Fails(d, PollError);
    }
  }

  /** At most one of the checks tied to a post type can fail: the one of the draft's type. */
  lemma OneTypeError(d: PostData)
    ensures Fails(d, ContentError) ==> d.postType == TextPost
    ensures Fails(d, LinkError) ==> d.postType == LinkPost
    ensures Fails(d, MediaError) ==> d.postType == MediaPost
    ensures Fails(d, PollError) ==> d.postType == PollPost
  {
  }

  /** `validateForm()`: the checks one after the other, each filing its message in the new
      errors when it fails; the form is valid when none was filed. */
  method ValidateForm(d: PostData) returns (errors: map<ErrorKey, string>, valid: bool)
    ensures forall k :: k in errors <==> Fails(d, k)
    ensures forall k :: k in errors ==> errors[k] == Message(k)
    ensures valid <==> Complete(d)
  {
    errors := map[];
    if IsBlank(d.title) {
      errors := errors[TitleError := Message(TitleError)];
    }
    if d.communityName == "" {
      errors := errors[CommunityError := Message(CommunityError)];
    }
    if d.postType == TextPost && IsBlank(d.content) {
      errors := errors[ContentError := Message(ContentError)];
    }
    if d.postType == LinkPost && IsBlank(d.linkUrl) {
      errors := errors[LinkError := Message(LinkError)];
    }
    if d.postType == MediaPost && IsBlank(d.imageUrl) && IsBlank(d.videoUrl) {
      errors := errors[MediaError := Message(MediaError)];
    }
    if d.postType == PollPost {
      var validOptions := ValidOptions(d);
      if |validOptions| < 2 {
        errors := errors[PollError := Message(PollError)];
      }
    }
    forall k ensures (k in errors <==> Fails(d, k)) && (k in errors ==> errors[k] == Message(k)) {
      match k
      case TitleError =>
      case CommunityError =>
      case ContentError =>
      case LinkError =>
      case MediaError =>
      case PollError =>
    }
    valid := |errors| == 0;
    PassesIff(d);
    if !valid {
      var k :| k in errors;
    }
  }

  // ---------------------------------------------------------------- handleSubmit

  /** The draft as it is sent: for a poll only the filled options, for any other type none. */
  function Processed(d: PostData): (r: PostData)
    ensures r == d.(pollOptions := r.pollOptions)
    ensures d.postType != PollPost ==> r.pollOptions == []
    ensures d.postType == PollPost ==> r.pollOptions == ValidOptions(d)
  {
    d.(pollOptions := if d.postType == PollPost then ValidOptions(d) else [])
  }

  /** `handleSubmit` up to the call of `create`: the errors are shown, and the processed
      draft is sent exactly when the draft is complete. */
  method Submit(d: PostData) returns (errors: map<ErrorKey, string>, sent: Option<PostData>)
    ensures forall k :: k in errors <==> Fails(d, k)
    ensures sent.Some? <==> Complete(d)
    ensures sent.Some? ==> sent.value == Processed(d) && forall o :: o in sent.value.pollOptions ==> !IsBlank(o)
  {
    ValidOptionsMembers(d);
    var valid;
    errors, valid := ValidateForm(d);
    if !valid {
      return errors, None;
    }
    sent := Some(Processed(d));
  }

  // ---------------------------------------------------------------- handleInputChange

  datatype TextField = Title | Content | ImageUrl | VideoUrl | LinkUrl | CommunityName | Flair | PollDuration
  datatype FlagField = Nsfw | Spoiler

  /** The message filed under a field's name, for the four fields that have one. */
  function FieldError(f: TextField): (r: Option<ErrorKey>)
    ensures r.Some? <==> f in {Title, CommunityName, Content, LinkUrl}
  {
    match f
    case Title => Some(TitleError)
    case CommunityName => Some(CommunityError)
    case Content => Some(ContentError)
    case LinkUrl => Some(LinkError)
    case _ => None
  }

  function TextOf(d: PostData, f: TextField): string {
    match f
    case Title => d.title
    case Content => d.content
    case ImageUrl => d.imageUrl
    case VideoUrl => d.videoUrl
    case LinkUrl => d.linkUrl
    case CommunityName => d.communityName
    case Flair => d.flair
    case PollDuration => d.pollDuration
  }

  /** An error is shown for `key` while its message is not empty. */
  predicate Shown(errors: map<ErrorKey, string>, key: ErrorKey) {
    key in errors && errors[key] != ""
  }

  /** The error filed under the edited field's name, if shown, is blanked; the others stay.
      A field without a message of its own (and a checkbox) clears nothing. */
  function ClearError(errors: map<ErrorKey, string>, key: Option<ErrorKey>): (r: map<ErrorKey, string>)
    ensures key.Some? ==> !Shown(r, key.value)
    ensures forall k :: key != Some(k) ==> (k in r <==> k in errors) && (k in r ==> r[k] == errors[k])
    ensures forall k :: k in r <==> k in errors
  {
    if key.Some? && Shown(errors, key.value) then errors[key.value := ""] else errors
  }

  /** `handleInputChange(field, value)` for a text field: the field takes the value, every
      other part of the draft stays, and the field's own error is cleared. */
  function InputChange(form: Form, f: TextField, value: string): (r: Form)
    ensures TextOf(r.data, f) == value
    ensures forall g :: g != f ==> TextOf(r.data, g) == TextOf(form.data, g)
    ensures r.data.postType == form.data.postType && r.data.pollOptions == form.data.pollOptions
    ensures r.data.isNsfw == form.data.isNsfw && r.data.isSpoiler == form.data.isSpoiler
    ensures r.errors == ClearError(form.errors, FieldError(f))
  {
    var d := form.data;
    var data := match f
      case Title => d.(title := value)
      case Content => d.(content := value)
      case ImageUrl => d.(imageUrl := value)
      case VideoUrl => d.(videoUrl := value)
      case LinkUrl => d.(linkUrl := value)
      case CommunityName => d.(communityName := value)
      case Flair => d.(flair := value)
      case PollDuration => d.(pollDuration := value);
    Form(data, ClearError(form.errors, FieldError(f)))
  }

  /** `handleInputChange(field, checked)` for a checkbox. */
  function CheckChange(form: Form, f: FlagField, value: bool): (r: Form)
    ensures f == Nsfw ==> r.data == form.data.(isNsfw := value)
    ensures f == Spoiler ==> r.data == form.data.(isSpoiler := value)
    ensures r.errors == form.errors
  {
    var data := if f == Nsfw then form.data.(isNsfw := value) else form.data.(isSpoiler := value);
    Form(data, ClearError(form.errors, None))
  }

  /** Typing in a field takes its own message away and no other: the messages for the
      media and the poll, which no single field owns, stay until the next check, even
      while the image URL or an option is being typed. */
  lemma InputChangeClearsOnlyItsOwn(form: Form, f: TextField, value: string, k: ErrorKey)
    ensures FieldError(f) == Some(k) ==> !Shown(InputChange(form, f, value).errors, k)
    ensures FieldError(f) != Some(k) ==> (Shown(InputChange(form, f, value).errors, k) <==> Shown(form.errors, k))
    ensures Shown(form.errors, MediaError) ==> Shown(InputChange(form, f, value).errors, MediaError)
  {
  }

  // ---------------------------------------------------------------- poll options

  /** Between two and six options. */
  predicate PollBounds(d: PostData) {
    2 <= |d.pollOptions| <= 6
  }

  /** `handlePollOptionChange(index, value)`: that option takes the value. */
  function PollOptionChange(d: PostData, index: nat, value: string): (r: PostData)
    requires index < |d.pollOptions|
    ensures r == d.(pollOptions := r.pollOptions)
    ensures |r.pollOptions| == |d.pollOptions| && r.pollOptions[index] == value
    ensures forall i :: 0 <= i < |d.pollOptions| && i != index ==> r.pollOptions[i] == d.pollOptions[i]
  {
    d.(pollOptions := d.pollOptions[index := value])
  }

  /** `addPollOption()`: one more empty option, unless there are six already. */
  function AddPollOption(d: PostData): (r: PostData)
    ensures r == d.(pollOptions := r.pollOptions)
    ensures |d.pollOptions| < 6 ==> r.pollOptions == d.pollOptions + [""]
    ensures |d.pollOptions| >= 6 ==> r == d
  {
    if |d.pollOptions| < 6 then d.(pollOptions := d.pollOptions + [""]) else d
  }

  /** `filter((_, i) => i !== index)`: every element but the one at `index`, in order. */
  function RemoveAt<T>(s: seq<T>, index: int): (r: seq<T>)
    ensures 0 <= index < |s| ==> (|r| == |s| - 1
      && (forall i :: 0 <= i < index ==> r[i] == s[i])
      && (forall i :: index <= i < |r| ==> r[i] == s[i + 1]))
    ensures !(0 <= index < |s|) ==> r == s
  {
    if 0 <= index < |s| then s[..index] + s[index + 1..] else s
  }

  /** `removePollOption(index)`: the option at `index` goes, unless there are only two. */
  function RemovePollOption(d: PostData, index: int): (r: PostData)
    ensures r == d.(pollOptions := r.pollOptions)
    ensures |d.pollOptions| > 2 ==> r.pollOptions == RemoveAt(d.pollOptions, index)
    ensures |d.pollOptions| <= 2 ==> r == d
  {
    if |d.pollOptions| > 2 then d.(pollOptions := RemoveAt(d.pollOptions, index)) else d
  }

  /** Removing an option and then adding one keeps the others, in order, and ends with an
      empty option. */
  lemma RemoveThenAdd(d: PostData, index: nat)
    requires 2 < |d.pollOptions| <= 6 && index < |d.pollOptions|
    ensures var r := AddPollOption(RemovePollOption(d, index));
      |r.pollOptions| == |d.pollOptions| && r.pollOptions[|r.pollOptions| - 1] == ""
      && r.pollOptions[..|r.pollOptions| - 1] == d.pollOptions[..index] + d.pollOptions[index + 1..]
  {
    var removed := RemoveAt(d.pollOptions, index);
    assert RemovePollOption(d, index).pollOptions == removed;
    assert (removed + [""])[..|removed|] == removed;
  }

  // ---------------------------------------------------------------- handleTypeChange

  /** `handleTypeChange(type)`: the draft takes the type; the content, the link, the media
      URLs and the poll options are kept only by the type they belong to. */
  function TypeChange(d: PostData, t: PostType): (r: PostData)
    ensures r.postType == t
    ensures r.title == d.title && r.communityName == d.communityName && r.flair == d.flair
    ensures r.isNsfw == d.isNsfw && r.isSpoiler == d.isSpoiler && r.pollDuration == d.pollDuration
    ensures r.content == (if t == TextPost then d.content else "")
    ensures r.linkUrl == (if t == LinkPost then d.linkUrl else "")
    ensures r.imageUrl == (if t == MediaPost then d.imageUrl else "")
    ensures r.videoUrl == (if t == MediaPost then d.videoUrl else "")
    ensures r.pollOptions == (if t == PollPost then d.pollOptions else ["", ""])
  {
    d.(postType := t,
       content := if t == TextPost then d.content else "",
       linkUrl := if t == LinkPost then d.linkUrl else "",
       imageUrl := if t == MediaPost then d.imageUrl else "",
       videoUrl := if t == MediaPost then d.videoUrl else "",
       pollOptions := if t == PollPost then d.pollOptions else ["", ""])
  }

  /** Choosing the type the draft already has twice is choosing it once; and choosing a
      type, then going back, keeps only what the two types share. */
  lemma TypeChangeIdempotent(d: PostData, t: PostType)
    ensures TypeChange(TypeChange(d, t), t) == TypeChange(d, t)
  {
  }

  /** Switching away from a text post and back loses its content. */
  lemma TypeChangeLosesContent(d: PostData, t: PostType)
    requires t != TextPost
    ensures TypeChange(TypeChange(d, t), TextPost).content == ""
  {
  }

  /** Every change the form offers keeps the number of poll options between two and six. */
  lemma {:induction false} PollBoundsKept(d: PostData, index: int, value: string, t: PostType)
    requires PollBounds(d)
    ensures PollBounds(AddPollOption(d))
    ensures PollBounds(RemovePollOption(d, index))
    ensures PollBounds(TypeChange(d, t))
    ensures 0 <= index < |d.pollOptions| ==> PollBounds(PollOptionChange(d, index, value))
  {
  }
}

=== FILE: formatters.dfy ===
/** The display helpers of `utils/formatters`: relative times, abbreviated counts and
    truncated excerpts. (`getVoteScore` is `Votes.Score`.) */
module Formatters {
  import opened Common
  import opened Text
  import opened Seqs

  // ---------------------------------------------------------------- formatTimeAgo

  /** `Math.floor((now - date) / 60000)`: whole minutes, rounded down, also for a time in
      the future (Dafny's division by a positive number rounds down as well). */
  function MinutesAgo(now: int, timestamp: int): int {
    (now - timestamp) / 60000
  }

  /** `formatTimeAgo(timestamp)` for the first day: "just now", then minutes, then whole
      hours. From 1440 minutes on the text comes from a date library: `None`. */
  function TimeAgo(now: int, timestamp: int): (r: Option<string>)
    ensures r == Some("just now") <==> MinutesAgo(now, timestamp) < 1
    ensures r.None? <==> MinutesAgo(now, timestamp) >= 1440
    ensures 1 <= MinutesAgo(now, timestamp) < 60 ==> r == Some(Decimal(MinutesAgo(now, timestamp)) + "m ago")
    ensures 60 <= MinutesAgo(now, timestamp) < 1440 ==>
      exists h: nat :: 1 <= h < 24 && h * 60 <= MinutesAgo(now, timestamp) < h * 60 + 60 && r == Some(Decimal(h) + "h ago")
  {
    var m := MinutesAgo(now, timestamp);
    if m < 1 then Some("just now")
    else if m < 60 then
      assert (Decimal(m) + "m ago")[|Decimal(m)|] == 'm';
      Some(Decimal(m) + "m ago")
    else if m < 1440 then
      var h := m / 60;
      assert (Decimal(h) + "h ago")[|Decimal(h)|] == 'h';
      Some(Decimal(h) + "h ago")
    else None
  }

  /** The number in a relative time reads back as the minutes, or the whole hours, that
      have passed. */
  lemma TimeAgoReadsBack(now: int, timestamp: int)
    requires 1 <= MinutesAgo(now, timestamp) < 1440
    ensures var m, s := MinutesAgo(now, timestamp), TimeAgo(now, timestamp).value;
      |s| > 5 && ParseDecimal(s[..|s| - 5]) == Some(if m < 60 then m else m / 60)
      && s[|s| - 5..] == (if m < 60 then "m ago" else "h ago")
  {
    var m := MinutesAgo(now, timestamp);
    var n: nat := if m < 60 then m else m / 60;
    var tail := if m < 60 then "m ago" else "h ago";
    var s := Decimal(n) + tail;
    assert TimeAgo(now, timestamp).value == s;
    assert s[..|s| - 5] == Decimal(n);
    assert s[|s| - 5..] == tail;
    ParseDecimalRoundTrip(n);
  }

  // ---------------------------------------------------------------- formatNumber

  /** `x.toFixed(1)` of `num / unit`, as a count of tenths: the nearest tenth, a tie
      going up. */
  function Tenths(num: nat, unit: nat): (t: nat)
    requires unit > 0
    ensures t * unit <= 10 * num + unit / 2 < t * unit + unit
  {
    (10 * num + unit / 2) / unit
  }

  /** `toFixed(1).replace(/\.0$/, "")` of `t` tenths: the whole part, then a point and the
      tenth unless it is zero. */
  function FixedOne(t: nat): (s: string)
    ensures |s| >= 1
    ensures s[|s| - 1] != '.'
    ensures t % 10 == 0 <==> '.' !in s
    ensures t % 10 == 0 ==> ParseDecimal(s) == Some(t / 10)
    ensures t % 10 != 0 ==>
      |s| >= 3 && s[|s| - 2] == '.' && s[|s| - 1] == Digit(t % 10) && ParseDecimal(s[..|s| - 2]) == Some(t / 10)
    ensures var whole := if t % 10 == 0 then s else s[..|s| - 2]; |whole| > 1 ==> whole[0] != '0'
  {
    ParseDecimalRoundTrip(t / 10);
    var w := Decimal(t / 10);
    if t % 10 == 0 then w
    else
      var s := w + ['.', Digit(t % 10)];
      assert s[..|s| - 2] == w && s[|s| - 2] == '.';
      s
  }

  /** Reads a rendering of tenths back: digits, optionally followed by a point and one
      digit. */
  function ParseFixed(s: string): Option<nat> {
    if |s| >= 2 && s[|s| - 2] == '.' && '0' <= s[|s| - 1] <= '9' then
      var whole := ParseDecimal(s[..|s| - 2]);
      if whole.None? then None else Some(10 * whole.value + (s[|s| - 1] as int - '0' as int))
    else
      var whole := ParseDecimal(s);
      if whole.None? then None else Some(10 * whole.value)
  }

  /** Rendering tenths and reading them back gives the tenths. */
  lemma {:induction false} ParseFixedRoundTrip(t: nat)
    ensures ParseFixed(FixedOne(t)) == Some(t)
  {
    var w := Decimal(t / 10);
    ParseDecimalRoundTrip(t / 10);
    if t % 10 == 0 {
      assert FixedOne(t) == w;
      assert |w| >= 2 ==> '0' <= w[|w| - 2] <= '9';
    } else {
      var s := w + ['.', Digit(t % 10)];
      assert FixedOne(t) == s;
      assert s[..|s| - 2] == w;
    }
  }

  /** `formatNumber(num)`: the plain number below 1000, thousands with "k" below a
      million, millions with "M" from a million on. */
  function FormatNumber(num: int): (r: string)
    ensures num < 1000 ==> r == IntString(num)
    ensures 1000 <= num < 1000000 ==> |r| >= 2 && r[|r| - 1] == 'k' && r[..|r| - 1] == FixedOne(Tenths(num, 1000))
    ensures 1000000 <= num ==> |r| >= 2 && r[|r| - 1] == 'M' && r[..|r| - 1] == FixedOne(Tenths(num, 1000000))
  {
    if num >= 1000000 then
      var r := FixedOne(Tenths(num, 1000000)) + "M";
      assert r[..|r| - 1] == FixedOne(Tenths(num, 1000000));
      r
    else if num >= 1000 then
      var r := FixedOne(Tenths(num, 1000)) + "k";
      assert r[..|r| - 1] == FixedOne(Tenths(num, 1000));
      r
    else IntString(num)
  }

  /** `formatKarma(karma)`: the same rendering as `formatNumber`: a karma below 1000 as
      it is, reading back as itself when not negative, a larger one as its tenths of a
      thousand with "k" below a million and its tenths of a million with "M" from a
      million on, each reading back as those tenths. */
  function FormatKarma(karma: int): (r: string)
    ensures karma < 1000 ==> r == IntString(karma)
    ensures 0 <= karma < 1000 ==> ParseDecimal(r) == Some(karma)
    ensures karma >= 1000 ==>
      |r| >= 2 && (r[|r| - 1] == 'k' <==> karma < 1000000) && (r[|r| - 1] == 'M' <==> karma >= 1000000)
    ensures 1000 <= karma < 1000000 ==>
      r[..|r| - 1] == FixedOne(Tenths(karma, 1000)) && ParseFixed(r[..|r| - 1]) == Some(Tenths(karma, 1000))
    ensures 1000000 <= karma ==>
      r[..|r| - 1] == FixedOne(Tenths(karma, 1000000)) && ParseFixed(r[..|r| - 1]) == Some(Tenths(karma, 1000000))
  {
    if karma >= 1000000 then
      ParseFixedRoundTrip(Tenths(karma, 1000000));
      FormatNumber(karma)
    else if karma >= 1000 then
      ParseFixedRoundTrip(Tenths(karma, 1000));
      FormatNumber(karma)
    else
      FormatNumberReadsBack(karma);
      FormatNumber(karma)
  }

  /** What a rendering means: below 1000 the number itself; above, the number of tenths of
      the unit the suffix names, within half a tenth of `num`. */
  lemma {:induction false} FormatNumberReadsBack(num: int)
    ensures 0 <= num < 1000 ==> ParseDecimal(FormatNumber(num)) == Some(num)
    ensures num >= 1000 ==> var r := FormatNumber(num);
      var unit := if r[|r| - 1] == 'k' then 1000 else 1000000;
      ParseFixed(r[..|r| - 1]).Some?
      && var t := ParseFixed(r[..|r| - 1]).value;
      t * unit <= 10 * num + unit / 2 < t * unit + unit
  {
    if 0 <= num < 1000 {
      ParseDecimalRoundTrip(num);
    } else if num >= 1000000 {
      ParseFixedRoundTrip(Tenths(num, 1000000));
    } else if num >= 1000 {
      ParseFixedRoundTrip(Tenths(num, 1000));
    }
  }

  /** Just under a million, the thousands round up to 1000: "1000k", not "1M". */
  lemma FormatNumberJustUnderMillion()
    ensures FormatNumber(999950) == "1000k"
  {
    assert Tenths(999950, 1000) == 10000;
    assert Decimal(1000) == "1000" by {
      assert Decimal(1) == "1";
      assert Decimal(10) == "10";
      assert Decimal(100) == "100";
    }
  }

  // ---------------------------------------------------------------- truncateText

  /** The default `maxLength` of `truncateText`. */
  const DefaultMaxLength := 150

  /** `truncateText(text, maxLength)`: short or empty text unchanged, anything longer cut
      to `maxLength` characters, trimmed, and marked with "...". A negative `maxLength`
      cuts everything, as `substring` does. (A missing text is the empty string.) */
  function TruncateText(text: string, maxLength: int := DefaultMaxLength): (r: string)
    ensures text == [] || |text| <= maxLength ==> r == text
    ensures text != [] && |text| > maxLength ==>
      |r| >= 3 && r[|r| - 3..] == "..."
      && |r| <= Clamp(maxLength, |text|) + 3
      && Includes(text[..Clamp(maxLength, |text|)], r[..|r| - 3])
      && (r[..|r| - 3] == [] <==> IsBlank(text[..Clamp(maxLength, |text|)]))
    ensures text != [] && |text| > maxLength ==>
      var cut, e := text[..Clamp(maxLength, |text|)], r[..|r| - 3];
      (exists i :: OccursAt(cut, e, i) && IsBlank(cut[..i]) && IsBlank(cut[i + |e|..]))
      && (e == [] || (!IsWhitespace(e[0]) && !IsWhitespace(e[|e| - 1])))
  {
    if text == [] || |text| <= maxLength then text
    else
      var cut := text[..Clamp(maxLength, |text|)];
      var e := Trim(cut);
      var r := e + "...";
      assert r[..|r| - 3] == e && r[|r| - 3..] == "...";
      r
  }

  /** Text of more than `maxLength` characters always comes back marked, and never longer
      than `maxLength + 3`: the excerpt is a piece of the text, without white space at
      either end. */
  lemma TruncatedExcerpt(text: string, maxLength: nat)
    requires |text| > maxLength
    ensures var r := TruncateText(text, maxLength);
      |r| <= maxLength + 3 && r[|r| - 3..] == "..."
      && Includes(text, r[..|r| - 3])
      && (r[..|r| - 3] == [] || (!IsWhitespace(r[0]) && !IsWhitespace(r[|r| - 4])))
  {
    var r := TruncateText(text, maxLength);
    assert Clamp(maxLength, |text|) == maxLength;
    PrefixIncludes(text, maxLength, r[..|r| - 3]);
    var cut := Trim(text[..maxLength]);
    assert r == cut + "...";
    if cut != [] {
      assert r[0] == cut[0] && r[|r| - 4] == cut[|cut| - 1];
    }
  }

  /** What occurs in the first `n` characters of a text occurs in the text. */
  lemma PrefixIncludes(text: string, n: nat, q: string)
    requires n <= |text| && Includes(text[..n], q)
    ensures Includes(text, q)
  {
    var i :| 0 <= i <= n - |q| && OccursAt(text[..n], q, i);
    assert text[i..i + |q|] == text[..n][i..i + |q|];
    assert OccursAt(text, q, i);
  }

}

=== FILE: ids.dfy ===
/** Id assignment in the stores: `String(Math.max(...ids) + 1)`, with comment ids
    prefixed by "c". Ids are kept as the numbers they spell; `Text.ParseDecimalRoundTrip`
    is why that loses nothing. */
module Ids {
  import opened Common

  /** `Math.max(...ids)` for a non-empty list. */
  function MaxId(ids: seq<nat>): (m: nat)
    requires |ids| > 0
    ensures m in ids
    ensures forall k :: k in ids ==> k <= m
  {
    if |ids| == 1 then ids[0]
    else
      var m := MaxId(ids[1..]);
      assert ids == [ids[0]] + ids[1..];
      if ids[0] > m then ids[0] else m
  }

  /** The id the services compute: one more than the largest id, and no number at all
      for an empty store, where `Math.max()` is `-Infinity` and the new id is the string
      "-Infinity". */
  function NextIdAsWritten(ids: seq<nat>): (r: Option<nat>)
    ensures r.None? <==> ids == []
  {
    if ids == [] then None else Some(MaxId(ids) + 1)
  }

  /** An empty store gets no numeric id. */
  lemma NextIdAsWrittenEmpty()
    ensures NextIdAsWritten([]) == None
  {
  }

  /** Id assignment with the empty store handled: 1 for the first record, one more than
      the largest id otherwise. */
  function NextId(ids: seq<nat>): (n: nat)
    ensures n >= 1
    ensures n !in ids
    ensures forall k :: k in ids ==> k < n
  {
    if ids == [] then 1 else MaxId(ids) + 1
  }

  /** Wherever the services' computation gives a number, it gives this one. */
  lemma NextIdAgrees(ids: seq<nat>)
    requires ids != []
    ensures NextIdAsWritten(ids) == Some(NextId(ids))
  {
  }

  /** No id occurs twice. */
  predicate Distinct(ids: seq<nat>) {
    forall i, j :: 0 <= i < j < |ids| ==> ids[i] != ids[j]
  }

  /** Adding the next id to either end keeps the ids distinct. */
  lemma {:induction false} NextIdKeepsDistinct(ids: seq<nat>)
    requires Distinct(ids)
    ensures Distinct([NextId(ids)] + ids)
    ensures Distinct(ids + [NextId(ids)])
  {
    var n := NextId(ids);
    var front, back := [n] + ids, ids + [n];
    forall i, j | 0 <= i < j < |front| ensures front[i] != front[j] {
      assert front[j] == ids[j - 1] && front[j] in ids;
      if i > 0 { assert front[i] == ids[i - 1]; }
    }
    forall i, j | 0 <= i < j < |back| ensures back[i] != back[j] {
      assert back[i] == ids[i] && back[i] in ids;
      if j < |ids| { assert back[j] == ids[j]; }
    }
  }
}

=== FILE: page_votes.dfy ===
/** The rewrite the feed and the profile page apply to the list they show once the
    service has accepted a vote: every record with the voted id takes the page rule
    `Revote`, every other record is left as it is; a vote the service turned down leaves
    the list alone. */
module PageVotes {
  import opened Common
  import opened Votes
  import Posts
  import Comments
  import Ids
  import Seqs

  /** `prevPosts.map(post => post.id === postId ? {...post, <recounted>} : post)`. */
  function RevotePosts(posts: seq<Posts.Post>, id: nat, v: Vote): (r: seq<Posts.Post>)
    ensures |r| == |posts|
    ensures forall i :: 0 <= i < |posts| && posts[i].id != id ==> r[i] == posts[i]
    ensures forall i :: 0 <= i < |posts| && posts[i].id == id ==>
      r[i] == posts[i].(tally := r[i].tally)
      && Others(r[i].tally) == Others(posts[i].tally) && r[i].tally.userVote == v
    ensures forall i :: 0 <= i < |posts| && Consistent(posts[i].tally) ==> Consistent(r[i].tally)
  {
    seq(|posts|, i requires 0 <= i < |posts| =>
      if posts[i].id == id then posts[i].(tally := Revote(posts[i].tally, v)) else posts[i])
  }

  /** The same rewrite over the profile's comments, which carry the title of their post. */
  function RevoteComments(cs: seq<Comments.UserComment>, id: nat, v: Vote): (r: seq<Comments.UserComment>)
    ensures |r| == |cs|
    ensures forall i :: 0 <= i < |cs| && cs[i].comment.id != id ==> r[i] == cs[i]
    ensures forall i :: 0 <= i < |cs| && cs[i].comment.id == id ==>
      r[i] == cs[i].(comment := cs[i].comment.(tally := r[i].comment.tally))
      && Others(r[i].comment.tally) == Others(cs[i].comment.tally) && r[i].comment.tally.userVote == v
  {
    seq(|cs|, i requires 0 <= i < |cs| =>
      if cs[i].comment.id == id
      then cs[i].(comment := cs[i].comment.(tally := Revote(cs[i].comment.tally, v)))
      else cs[i])
  }

  /** `handleVote(postId, voteType)` given the outcome of the service's `vote`: the list is
      rewritten only after the service agreed. */
  function AfterPostsVote(posts: seq<Posts.Post>, id: nat, v: Vote, outcome: Outcome): (r: seq<Posts.Post>)
    ensures outcome.Failed? ==> r == posts
    ensures outcome.Done? ==> r == RevotePosts(posts, id, v)
  {
    if outcome.Done? then RevotePosts(posts, id, v) else posts
  }

  /** `handleCommentVote(commentId, voteType)` given the outcome of the service's `vote`. */
  function AfterCommentsVote(cs: seq<Comments.UserComment>, id: nat, v: Vote, outcome: Outcome)
    : (r: seq<Comments.UserComment>)
    ensures outcome.Failed? ==> r == cs
    ensures outcome.Done? ==> r == RevoteComments(cs, id, v)
  {
    if outcome.Done? then RevoteComments(cs, id, v) else cs
  }

  /** Repeating the rewrite with the same vote changes nothing more. */
  lemma RevotePostsIdempotent(posts: seq<Posts.Post>, id: nat, v: Vote)
    ensures RevotePosts(RevotePosts(posts, id, v), id, v) == RevotePosts(posts, id, v)
  {
    var once := RevotePosts(posts, id, v);
    var twice := RevotePosts(once, id, v);
    forall i | 0 <= i < |posts| && posts[i].id == id
      ensures twice[i] == once[i]
    {
      TallyDetermined(twice[i].tally, once[i].tally);
    }
  }

  /** A copy of a stored post, shown anywhere in a page's list, becomes the store's new
      record when the vote a click settles on is accepted: the page's rewrite and the
      store's toggle agree. */
  lemma PostCopyMatchesStore(shown: seq<Posts.Post>, store: seq<Posts.Post>, i: nat, j: nat, button: Vote)
    requires i < |shown| && j < |store| && shown[i] == store[j]
    requires Ids.Distinct(Posts.IdsOf(store)) && button != NoVote
    ensures var sent := Clicked(store[j].tally.userVote, button);
      Posts.AfterVote(store, store[j].id, sent).Ok?
      && RevotePosts(shown, store[j].id, sent)[i] == Posts.AfterVote(store, store[j].id, sent).value[j]
  {
    var t := store[j].tally;
    var sent := Clicked(t.userVote, button);
    Posts.VoteTargetsOne(store, store[j].id, sent, j);
    ClickThenConfirm(t, button);
    var q := Posts.AfterVote(store, store[j].id, sent).value[j];
    TallyDetermined(q.tally, Cast(t, button));
  }

  /** The same agreement for a comment shown on the profile. */
  lemma CommentCopyMatchesStore(shown: seq<Comments.UserComment>, store: seq<Comments.Comment>, i: nat, j: nat, button: Vote)
    requires i < |shown| && j < |store| && shown[i].comment == store[j]
    requires Ids.Distinct(Comments.IdsOf(store)) && button != NoVote
    ensures var sent := Clicked(store[j].tally.userVote, button);
      Comments.AfterVote(store, store[j].id, sent).Ok?
      && RevoteComments(shown, store[j].id, sent)[i].comment == Comments.AfterVote(store, store[j].id, sent).value[j]
  {
    var t := store[j].tally;
    var id := store[j].id;
    var sent := Clicked(t.userVote, button);
    var k := Seqs.FirstIndex(store, Comments.HasId(id));
    assert Comments.HasId(id)(store[j]);
    assert Comments.IdsOf(store)[k] == id == Comments.IdsOf(store)[j];
    ClickThenConfirm(t, button);
  }
}

=== FILE: post_detail.dfy ===
/** The post page: it holds the post and its reply tree, and rewrites them once a call
    to the services has gone through. A vote rewrites the post or one comment of the
    tree; a new comment goes in front of the top level or at the end of its parent's
    replies, and the post counts one more comment. */
module PostDetail {
  import opened Common
  import opened Seqs
  import opened Votes
  import opened Comments
  import Posts
  import Ids

  // ---------------------------------------------------------------- the tree, flattened

  /** Every comment of a tree, each followed by its replies (depth first, in order). */
  function Flatten(ts: seq<Thread>): seq<Comment>
    decreases ts
  {
    if ts == [] then [] else [ts[0].comment] + Flatten(ts[0].replies) + Flatten(ts[1..])
  }

  /** Flattening distributes over the concatenation of two forests. */
  lemma {:induction false} FlattenConcat(a: seq<Thread>, b: seq<Thread>)
    ensures Flatten(a + b) == Flatten(a) + Flatten(b)
    decreases a
  {
    if a != [] {
      var ab := a + b;
      assert ab[0] == a[0] && ab[1..] == a[1..] + b;
      FlattenConcat(a[1..], b);
      calc {
        Flatten(ab);
        [a[0].comment] + Flatten(a[0].replies) + Flatten(a[1..] + b);
        [a[0].comment] + Flatten(a[0].replies) + (Flatten(a[1..]) + Flatten(b));
        Flatten(a) + Flatten(b);
      }
    } else {
      assert a + b == b;
    }
  }

  /** No two comments of the sequence share an id. */
  ghost predicate UniqueIds(cs: seq<Comment>) {
    forall i, j :: 0 <= i < j < |cs| ==> cs[i].id != cs[j].id
  }

  /** The parts of a flattened tree with unique ids have unique ids, and the id at its
      head occurs nowhere else. */
  lemma UniqueParts(c: Comment, kids: seq<Comment>, rest: seq<Comment>)
    requires UniqueIds([c] + kids + rest)
    ensures UniqueIds(kids) && UniqueIds(rest)
    ensures forall x :: x in kids + rest ==> x.id != c.id
    ensures forall x, y :: x in kids && y in rest ==> x.id != y.id
  {
    var s := [c] + kids + rest;
    forall i, j | 0 <= i < j < |kids| ensures kids[i].id != kids[j].id {
      assert s[i + 1] == kids[i] && s[j + 1] == kids[j];
    }
    forall i, j | 0 <= i < j < |rest| ensures rest[i].id != rest[j].id {
      assert s[i + 1 + |kids|] == rest[i] && s[j + 1 + |kids|] == rest[j];
    }
    forall x | x in kids + rest ensures x.id != c.id {
      var t := kids + rest;
      var k :| 0 <= k < |t| && t[k] == x;
      assert s == [c] + t;
      assert s[0] == c && s[k + 1] == x;
    }
    forall x, y | x in kids && y in rest ensures x.id != y.id {
      var i :| 0 <= i < |kids| && kids[i] == x;
      var j :| 0 <= j < |rest| && rest[j] == y;
      assert s[i + 1] == x && s[j + 1 + |kids|] == y;
    }
  }

  // ---------------------------------------------------------------- updateCommentVote

  /** The page's rule for one comment after a vote went through: `Revote` on the comment
      with the id, every other comment as it was. */
  function RevoteAll(cs: seq<Comment>, id: nat, v: Vote): (r: seq<Comment>)
    ensures |r| == |cs|
    ensures forall k :: 0 <= k < |cs| ==>
      r[k] == if cs[k].id == id then cs[k].(tally := Revote(cs[k].tally, v)) else cs[k]
  {
    seq(|cs|, k requires 0 <= k < |cs| => if cs[k].id == id then cs[k].(tally := Revote(cs[k].tally, v)) else cs[k])
  }

  lemma RevoteAllConcat(a: seq<Comment>, b: seq<Comment>, id: nat, v: Vote)
    ensures RevoteAll(a + b, id, v) == RevoteAll(a, id, v) + RevoteAll(b, id, v)
  {
  }

  /** `updateCommentVote(comments)`: the comment with the id takes the vote, and the
      search goes on below every other comment. */
  function UpdateCommentVote(ts: seq<Thread>, id: nat, v: Vote): (r: seq<Thread>)
    ensures |r| == |ts|
    decreases ts
  {
    if ts == [] then [] else [RevoteNode(ts[0], id, v)] + UpdateCommentVote(ts[1..], id, v)
  }

  function RevoteNode(t: Thread, id: nat, v: Vote): (r: Thread)
    ensures r.comment.id == t.comment.id
    decreases t
  {
    if t.comment.id == id then Thread(t.comment.(tally := Revote(t.comment.tally, v)), t.replies)
    else Thread(t.comment, UpdateCommentVote(t.replies, id, v))
  }

  /** A tree with the tallies blanked out: what a vote must leave alone. */
  function Shape(ts: seq<Thread>): seq<Thread>
    decreases ts
  {
    if ts == [] then []
    else [Thread(ts[0].comment.(tally := Tally(0, 0, NoVote)), Shape(ts[0].replies))] + Shape(ts[1..])
  }

  /** A vote changes tallies only: every comment keeps its place, its fields and its
      replies. */
  lemma {:induction false} UpdateCommentVoteShape(ts: seq<Thread>, id: nat, v: Vote)
    ensures Shape(UpdateCommentVote(ts, id, v)) == Shape(ts)
    decreases ts
  {
    if ts != [] {
      var r := UpdateCommentVote(ts, id, v);
      assert r[0] == RevoteNode(ts[0], id, v) && r[1..] == UpdateCommentVote(ts[1..], id, v);
      UpdateCommentVoteShape(ts[1..], id, v);
      if ts[0].comment.id != id {
        UpdateCommentVoteShape(ts[0].replies, id, v);
      }
    }
  }

  /** A tree in which no comment has the id is left as it is. */
  lemma {:induction false} UpdateCommentVoteAbsent(ts: seq<Thread>, id: nat, v: Vote)
    requires forall c :: c in Flatten(ts) ==> c.id != id
    ensures UpdateCommentVote(ts, id, v) == ts
    decreases ts
  {
    if ts != [] {
      var f := Flatten(ts);
      assert f == [ts[0].comment] + Flatten(ts[0].replies) + Flatten(ts[1..]);
      assert f[0] == ts[0].comment;
      UpdateCommentVoteAbsent(ts[0].replies, id, v);
      UpdateCommentVoteAbsent(ts[1..], id, v);
      assert ts == [ts[0]] + ts[1..];
    }
  }

  /** Where no comment has the id, the page's rule changes nothing. */
  lemma RevoteAllAbsent(cs: seq<Comment>, id: nat, v: Vote)
    requires forall x :: x in cs ==> x.id != id
    ensures RevoteAll(cs, id, v) == cs
  {
    assert forall k :: 0 <= k < |cs| ==> cs[k] in cs;
  }

  /** With unique ids, the vote reaches the comment with the id wherever it sits in the
      tree, and no other: read depth first, the new tree is the old one with `Revote` on
      that comment. */
  lemma {:induction false} UpdateCommentVoteExact(ts: seq<Thread>, id: nat, v: Vote)
    requires UniqueIds(Flatten(ts))
    ensures Flatten(UpdateCommentVote(ts, id, v)) == RevoteAll(Flatten(ts), id, v)
    decreases ts
  {
    if ts != [] {
      var c, kids, rest := ts[0].comment, ts[0].replies, ts[1..];
      var fk, fr := Flatten(kids), Flatten(rest);
      assert Flatten(ts) == [c] + fk + fr;
      UniqueParts(c, fk, fr);
      var r := UpdateCommentVote(ts, id, v);
      var node := RevoteNode(ts[0], id, v);
      assert Flatten(r) == [node.comment] + Flatten(node.replies) + Flatten(UpdateCommentVote(rest, id, v)) by {
        assert r[0] == node && r[1..] == UpdateCommentVote(rest, id, v);
      }
      assert [node.comment] == RevoteAll([c], id, v);
      assert Flatten(node.replies) == RevoteAll(fk, id, v) by {
        if c.id == id {
          assert forall x :: x in fk ==> x in fk + fr;
          RevoteAllAbsent(fk, id, v);
        } else {
          UpdateCommentVoteExact(kids, id, v);
        }
      }
      UpdateCommentVoteExact(rest, id, v);
      RevoteAllConcat([c] + fk, fr, id, v);
      RevoteAllConcat([c], fk, id, v);
    }
  }

  // ---------------------------------------------------------------- updateReplies

  /** The first comment with the id, depth first, with its replies. */
  function Find(ts: seq<Thread>, id: nat): (r: Option<Thread>)
    ensures r.Some? ==> r.value.comment.id == id
    decreases ts
  {
    if ts == [] then None
    else if ts[0].comment.id == id then Some(ts[0])
    else
      var below := Find(ts[0].replies, id);
      if below.Some? then below else Find(ts[1..], id)
  }

  /** A comment with the id is found exactly when the tree shows one. */
  lemma {:induction false} FindNone(ts: seq<Thread>, id: nat)
    ensures Find(ts, id).None? <==> forall c :: c in Flatten(ts) ==> c.id != id
    decreases ts
  {
    if ts != [] {
      assert Flatten(ts) == [ts[0].comment] + Flatten(ts[0].replies) + Flatten(ts[1..]);
      FindNone(ts[0].replies, id);
      FindNone(ts[1..], id);
    }
  }

  /** `updateReplies(comments)`: `leaf` is added after the replies of the comment with
      the parent's id, and the search goes on below every other comment. */
  function AddReply(ts: seq<Thread>, pid: nat, leaf: Thread): (r: seq<Thread>)
    ensures |r| == |ts|
    decreases ts
  {
    if ts == [] then [] else [AddReplyNode(ts[0], pid, leaf)] + AddReply(ts[1..], pid, leaf)
  }

  function AddReplyNode(t: Thread, pid: nat, leaf: Thread): (r: Thread)
    ensures r.comment == t.comment
    decreases t
  {
    if t.comment.id == pid then Thread(t.comment, t.replies + [leaf])
    else Thread(t.comment, AddReply(t.replies, pid, leaf))
  }

  /** A tree without the parent is left as it is. */
  lemma {:induction false} AddReplyAbsent(ts: seq<Thread>, pid: nat, leaf: Thread)
    ensures Find(ts, pid).None? ==> AddReply(ts, pid, leaf) == ts
    decreases ts
  {
    if ts != [] && Find(ts, pid).None? {
      AddReplyAbsent(ts[0].replies, pid, leaf);
      AddReplyAbsent(ts[1..], pid, leaf);
      assert ts == [ts[0]] + ts[1..];
    }
  }

  /** The parent, as the page finds it afterwards, has the new reply last and its other
      replies as before. */
  lemma {:induction false} AddReplyAppends(ts: seq<Thread>, pid: nat, leaf: Thread)
    ensures Find(ts, pid).Some? ==> var p := Find(ts, pid).value;
      Find(AddReply(ts, pid, leaf), pid) == Some(Thread(p.comment, p.replies + [leaf]))
    decreases ts
  {
    if Find(ts, pid).None? {
      return;
    }
    var r := AddReply(ts, pid, leaf);
    assert r[0] == AddReplyNode(ts[0], pid, leaf) && r[1..] == AddReply(ts[1..], pid, leaf);
    if ts[0].comment.id != pid {
      if Find(ts[0].replies, pid).Some? {
        AddReplyAppends(ts[0].replies, pid, leaf);
      } else {
        AddReplyAbsent(ts[0].replies, pid, leaf);
        AddReplyAppends(ts[1..], pid, leaf);
      }
    }
  }

  /** With unique ids and the parent in the tree, the page shows one comment more: the
      new one. */
  lemma {:induction false} AddReplyAddsOne(ts: seq<Thread>, pid: nat, c: Comment)
    requires UniqueIds(Flatten(ts))
    requires Find(ts, pid).Some?
    ensures multiset(Flatten(AddReply(ts, pid, Thread(c, [])))) == multiset(Flatten(ts)) + multiset{c}
    decreases ts, 1
  {
    var leaf := Thread(c, []);
    var r := AddReply(ts, pid, leaf);
    var node := AddReplyNode(ts[0], pid, leaf);
    var nk, nr := Flatten(node.replies), Flatten(AddReply(ts[1..], pid, leaf));
    var fk, fr := Flatten(ts[0].replies), Flatten(ts[1..]);
    assert Flatten(r) == [ts[0].comment] + nk + nr by {
      assert r[0] == node && r[1..] == AddReply(ts[1..], pid, leaf);
    }
    assert Flatten(ts) == [ts[0].comment] + fk + fr;
    AddReplyParts(ts, pid, c);
    OneMoreBelow(ts[0].comment, nk, nr, fk, fr, c);
  }

  lemma OneMoreBelow(h: Comment, nk: seq<Comment>, nr: seq<Comment>, fk: seq<Comment>, fr: seq<Comment>, c: Comment)
    requires multiset(nk) + multiset(nr) == multiset(fk) + multiset(fr) + multiset{c}
    ensures multiset([h] + nk + nr) == multiset([h] + fk + fr) + multiset{c}
  {
    assert [h] + nk + nr == [h] + (nk + nr);
    assert [h] + fk + fr == [h] + (fk + fr);
    assert multiset(nk + nr) == multiset(nk) + multiset(nr);
    assert multiset(fk + fr) == multiset(fk) + multiset(fr);
  }

  /** A new comment without replies flattens to itself. */
  lemma FlattenLeaf(c: Comment)
    ensures Flatten([Thread(c, [])]) == [c]
  {
    assert [Thread(c, [])][1..] == [];
  }

  /** Below the parent, the new comment comes last. */
  lemma ReplyBelowParent(t: Thread, pid: nat, c: Comment)
    requires t.comment.id == pid
    ensures Flatten(AddReplyNode(t, pid, Thread(c, [])).replies) == Flatten(t.replies) + [c]
  {
    assert AddReplyNode(t, pid, Thread(c, [])).replies == t.replies + [Thread(c, [])];
    FlattenConcat(t.replies, [Thread(c, [])]);
    FlattenLeaf(c);
  }

  /** The step of `AddReplyAddsOne`: below the first comment and in the rest of the
      forest, together, one comment more. */
  lemma {:induction false} AddReplyParts(ts: seq<Thread>, pid: nat, c: Comment)
    requires UniqueIds(Flatten(ts))
    requires Find(ts, pid).Some?
    ensures ts != []
    ensures multiset(Flatten(AddReplyNode(ts[0], pid, Thread(c, [])).replies)) + multiset(Flatten(AddReply(ts[1..], pid, Thread(c, []))))
      == multiset(Flatten(ts[0].replies)) + multiset(Flatten(ts[1..])) + multiset{c}
    decreases ts, 0
  {
    var head, kids, rest := ts[0].comment, ts[0].replies, ts[1..];
    assert Flatten(ts) == [head] + Flatten(kids) + Flatten(rest);
    UniqueParts(head, Flatten(kids), Flatten(rest));
    if head.id == pid {
      forall x | x in Flatten(rest) ensures x.id != pid {
        assert x in Flatten(kids) + Flatten(rest);
      }
      FindNone(rest, pid);
      AddedHere(ts, pid, c);
    } else if Find(kids, pid).Some? {
      FindNone(kids, pid);
      FindNone(rest, pid);
      AddReplyAddsOne(kids, pid, c);
      AddedBelow(ts, pid, c);
    } else {
      AddReplyAbsent(kids, pid, Thread(c, []));
      AddReplyAddsOne(rest, pid, c);
      AddedAfter(ts, pid, c);
    }
  }

  /** With unique ids and the parent in the tree, read depth first, the new comment comes
      right after the parent's last descendant, and every other comment keeps its place. */
  lemma {:induction false} AddReplyPlaces(ts: seq<Thread>, pid: nat, c: Comment)
    requires UniqueIds(Flatten(ts))
    requires Find(ts, pid).Some?
    ensures Placed(Flatten(ts), Flatten(AddReply(ts, pid, Thread(c, []))), Find(ts, pid).value, c)
    decreases ts
  {
    var leaf := Thread(c, []);
    var head, kids, rest := ts[0].comment, ts[0].replies, ts[1..];
    var fk, fr := Flatten(kids), Flatten(rest);
    var r := AddReply(ts, pid, leaf);
    var node := AddReplyNode(ts[0], pid, leaf);
    assert Flatten(ts) == [head] + fk + fr;
    assert Flatten(r) == [head] + Flatten(node.replies) + Flatten(AddReply(rest, pid, leaf)) by {
      assert r[0] == node && r[1..] == AddReply(rest, pid, leaf);
    }
    UniqueParts(head, fk, fr);
    FindNone(kids, pid);
    FindNone(rest, pid);
    if head.id == pid {
      assert forall x :: x in fr ==> x in fk + fr;
      AddReplyAbsent(rest, pid, leaf);
      ReplyBelowParent(ts[0], pid, c);
      PlacedHere(ts[0], fr, c);
    } else if Find(kids, pid).Some? {
      AddReplyAbsent(rest, pid, leaf);
      AddReplyPlaces(kids, pid, c);
      PlacedAround([head], fk, Flatten(AddReply(kids, pid, leaf)), fr, Find(kids, pid).value, c);
    } else {
      AddReplyAbsent(kids, pid, leaf);
      AddReplyPlaces(rest, pid, c);
      PlacedAround([head] + fk, fr, Flatten(AddReply(rest, pid, leaf)), [], Find(rest, pid).value, c);
      assert [head] + fk + fr + [] == [head] + fk + fr;
      assert [head] + fk + Flatten(AddReply(rest, pid, leaf)) + [] == [head] + fk + Flatten(AddReply(rest, pid, leaf));
    }
  }

  /** A comment and everything below it, depth first. */
  function Subtree(p: Thread): seq<Comment> {
    [p.comment] + Flatten(p.replies)
  }

  /** `g` is `f` with `c` inserted right after the comment of `p` and all its descendants,
      and nothing else changed. */
  ghost predicate Placed(f: seq<Comment>, g: seq<Comment>, p: Thread, c: Comment) {
    exists before, after :: f == before + Subtree(p) + after && g == before + (Subtree(p) + [c]) + after
  }

  lemma PlacedHere(p: Thread, rest: seq<Comment>, c: Comment)
    ensures Placed([p.comment] + Flatten(p.replies) + rest, [p.comment] + (Flatten(p.replies) + [c]) + rest, p, c)
  {
    var before: seq<Comment> := [];
    assert [p.comment] + Flatten(p.replies) + rest == before + Subtree(p) + rest;
    assert [p.comment] + (Flatten(p.replies) + [c]) + rest == before + (Subtree(p) + [c]) + rest;
  }

  lemma PlacedAround(pre: seq<Comment>, f: seq<Comment>, g: seq<Comment>, post: seq<Comment>, p: Thread, c: Comment)
    requires Placed(f, g, p, c)
    ensures Placed(pre + f + post, pre + g + post, p, c)
  {
    var b, a :| f == b + Subtree(p) + a && g == b + (Subtree(p) + [c]) + a;
    Regroup(pre, b, Subtree(p), a, post);
    Regroup(pre, b, Subtree(p) + [c], a, post);
  }

  /** The first comment is the parent: the new comment goes last among its replies. */
  lemma AddedHere(ts: seq<Thread>, pid: nat, c: Comment)
    requires ts != [] && ts[0].comment.id == pid && Find(ts[1..], pid).None?
    ensures multiset(Flatten(AddReplyNode(ts[0], pid, Thread(c, [])).replies)) + multiset(Flatten(AddReply(ts[1..], pid, Thread(c, []))))
      == multiset(Flatten(ts[0].replies)) + multiset(Flatten(ts[1..])) + multiset{c}
  {
    AddReplyAbsent(ts[1..], pid, Thread(c, []));
    ReplyBelowParent(ts[0], pid, c);
  }

  /** The parent is below the first comment: its replies take the new comment. */
  lemma AddedBelow(ts: seq<Thread>, pid: nat, c: Comment)
    requires ts != [] && ts[0].comment.id != pid && Find(ts[1..], pid).None?
    requires multiset(Flatten(AddReply(ts[0].replies, pid, Thread(c, [])))) == multiset(Flatten(ts[0].replies)) + multiset{c}
    ensures multiset(Flatten(AddReplyNode(ts[0], pid, Thread(c, [])).replies)) + multiset(Flatten(AddReply(ts[1..], pid, Thread(c, []))))
      == multiset(Flatten(ts[0].replies)) + multiset(Flatten(ts[1..])) + multiset{c}
  {
    AddReplyAbsent(ts[1..], pid, Thread(c, []));
  }

  /** The parent comes after the first tree: the rest of the forest takes the new comment. */
  lemma AddedAfter(ts: seq<Thread>, pid: nat, c: Comment)
    requires ts != [] && ts[0].comment.id != pid && AddReply(ts[0].replies, pid, Thread(c, [])) == ts[0].replies
    requires multiset(Flatten(AddReply(ts[1..], pid, Thread(c, [])))) == multiset(Flatten(ts[1..])) + multiset{c}
    ensures multiset(Flatten(AddReplyNode(ts[0], pid, Thread(c, [])).replies)) + multiset(Flatten(AddReply(ts[1..], pid, Thread(c, []))))
      == multiset(Flatten(ts[0].replies)) + multiset(Flatten(ts[1..])) + multiset{c}
  {
  }

  // ---------------------------------------------------------------- the page's handlers

  /** `handleVote(postId, voteType)`: once the service has agreed, the loaded post takes
      `Revote`; a failed call, or no post loaded, changes nothing. */
  function AfterPostVote(post: Option<Posts.Post>, v: Vote, succeeded: bool): (r: Option<Posts.Post>)
    ensures !succeeded || post.None? ==> r == post
    ensures succeeded && post.Some? ==>
      r.Some? && r.value == post.value.(tally := r.value.tally)
      && Others(r.value.tally) == Others(post.value.tally)
      && r.value.tally.userVote == v
  {
    if succeeded && post.Some? then Some(post.value.(tally := Revote(post.value.tally, v))) else post
  }

  /** The page and the store stay in step: when the buttons send the vote a click settles
      on and the service agrees, the page's copy of the post is the store's new record. */
  lemma PostVoteMatchesStore(posts: seq<Posts.Post>, j: nat, button: Vote)
    requires j < |posts| && Ids.Distinct(Posts.IdsOf(posts))
    requires button != NoVote
    ensures var sent := Clicked(posts[j].tally.userVote, button);
      Posts.AfterVote(posts, posts[j].id, sent).Ok?
      && AfterPostVote(Some(posts[j]), sent, true) == Some(Posts.AfterVote(posts, posts[j].id, sent).value[j])
  {
    var t := posts[j].tally;
    var sent := Clicked(t.userVote, button);
    Posts.VoteTargetsOne(posts, posts[j].id, sent, j);
    ClickThenConfirm(t, button);
    var q := Posts.AfterVote(posts, posts[j].id, sent).value[j];
    TallyDetermined(q.tally, Cast(t, button));
    RecountedCopy(posts[j], q, sent);
  }

  /** A copy recounted by the page rule is the record whose tally is the recount. */
  lemma RecountedCopy(p: Posts.Post, q: Posts.Post, v: Vote)
    requires q == p.(tally := q.tally) && q.tally == Revote(p.tally, v)
    ensures AfterPostVote(Some(p), v, true) == Some(q)
  {
  }

  /** `handleAddComment(content, parentId)` given the outcome of `create`: a failure is
      passed on and changes nothing; otherwise a reply is added under its parent, a
      top-level comment goes in front, and the post counts one comment more. */
  function AfterAddComment(post: Posts.Post, ts: seq<Thread>, parentId: Option<nat>, created: Result<Comment>)
    : (r: Result<(Posts.Post, seq<Thread>)>)
    ensures created.Err? ==> r == Err(created.message)
    ensures created.Ok? ==> r.Ok? && r.value.0 == post.(commentCount := post.commentCount + 1)
    ensures created.Ok? && parentId.None? ==> r.value.1 == [Thread(created.value, [])] + ts
    ensures created.Ok? && parentId.Some? && Find(ts, parentId.value).Some? ==>
      var p := Find(ts, parentId.value).value;
      Find(r.value.1, parentId.value) == Some(Thread(p.comment, p.replies + [Thread(created.value, [])]))
    ensures created.Ok? && parentId.Some? && Find(ts, parentId.value).None? ==> r.value.1 == ts
  {
    if created.Err? then Err(created.message)
    else
      var leaf := Thread(created.value, []);
      var tree := if parentId.Some? then AddReply(ts, parentId.value, leaf) else [leaf] + ts;
      var pid := if parentId.Some? then parentId.value else 0;
      AddReplyAppends(ts, pid, leaf);
      AddReplyAbsent(ts, pid, leaf);
      Ok((post.(commentCount := post.commentCount + 1), tree))
  }

  /** After a comment is added under a parent the page shows, the post's count and the
      number of comments shown both grow by one. */
  lemma AddCommentCounts(post: Posts.Post, ts: seq<Thread>, parentId: Option<nat>, c: Comment)
    requires UniqueIds(Flatten(ts))
    requires parentId.Some? ==> Find(ts, parentId.value).Some?
    ensures var r := AfterAddComment(post, ts, parentId, Ok(c));
      r.Ok?
      && r.value.0.commentCount == post.commentCount + 1
      && multiset(Flatten(r.value.1)) == multiset(Flatten(ts)) + multiset{c}
  {
    var leaf := Thread(c, []);
    var tree := AfterAddComment(post, ts, parentId, Ok(c)).value.1;
    if parentId.Some? {
      assert tree == AddReply(ts, parentId.value, leaf);
      AddReplyAddsOne(ts, parentId.value, c);
    } else {
      assert tree == [leaf] + ts;
      FlattenConcat([leaf], ts);
      assert Flatten([leaf]) == [c];
    }
  }
}

=== FILE: post_feed.dfy ===
/** The post feed: the posts loaded so far, the page last asked for and whether the
    service may have more. The first page replaces what was shown, each later page is
    appended when the reader nears the bottom, and the list is rewritten in place after
    a vote the service accepted. */
module PostFeed {
  import opened Common
  import opened Votes
  import opened Seqs
  import opened Text
  import Posts
  import PageVotes

  /** The number of posts asked for at a time. */
  const PageSize := 10

  /** The query `loadPosts(filterType, pageNum)` sends to `getAll`: the feed's community
      (no community is ""), its post type, where "all" stands for no type at all, the
      page, and ten posts. */
  function Request(community: string, postType: string, filterType: string, pageNum: int): (opts: Posts.FeedOptions)
    ensures opts.filter == filterType && opts.community == community
    ensures opts.page == pageNum && opts.limit == PageSize
    ensures opts.postType == "" <==> postType == "all" || postType == ""
    ensures postType != "all" ==> opts.postType == postType
  {
    Posts.FeedOptions(filterType, community, if postType != "all" then postType else "", pageNum, PageSize)
  }

  /** A feed of "all" types keeps every post of its community, whatever its type. */
  lemma AllTypes(store: seq<Posts.Post>, community: string, filterType: string, pageNum: int)
    ensures forall p :: p in Posts.Selected(store, Request(community, "all", filterType, pageNum)) <==>
      p in store && (community == "" || Lower(p.communityName) == Lower(community))
  {
    forall p ensures p in Posts.Selected(store, Request(community, "all", filterType, pageNum)) <==>
      p in store && (community == "" || Lower(p.communityName) == Lower(community))
    {
      Posts.SelectedMembers(store, Request(community, "all", filterType, pageNum), p);
    }
  }

  /** Asking for page `k` of a feed gets page `k` of one and the same arrangement: the one
      of page 1. */
  lemma RequestPage(store: seq<Posts.Post>, community: string, postType: string, filterType: string, k: int, rank: Posts.Post -> int)
    requires k >= 1
    ensures Posts.Feed(store, Request(community, postType, filterType, k), rank)
      == Page(Posts.Arranged(store, Request(community, postType, filterType, 1), rank), k, PageSize)
  {
    var first := Request(community, postType, filterType, 1);
    Posts.ArrangedIgnoresPage(store, first, rank, k);
    assert first.(page := k) == Request(community, postType, filterType, k);
  }

  /** A page shorter than ten is the last one: pages 1 to `k` then hold every post. */
  lemma ShortPageIsLast<T>(a: seq<T>, k: int)
    requires k >= 1 && |Page(a, k, PageSize)| < PageSize
    ensures PagesUpTo(a, PageSize, k) == a
  {
    PagesArePrefix(a, PageSize, k);
    PageStartNext(k, PageSize);
  }

  /** A full page leaves the pages so far exactly `k` pages long. */
  lemma FullPageCount<T>(a: seq<T>, k: int)
    requires k >= 1 && |Page(a, k, PageSize)| == PageSize
    ensures |PagesUpTo(a, PageSize, k)| == k * PageSize
  {
    PagesArePrefix(a, PageSize, k);
    PageStartNext(k, PageSize);
  }

  /** Pages 1 to `k` are pages 1 to `k - 1` and then page `k`. */
  lemma NextPage<T>(a: seq<T>, k: int)
    requires k >= 2
    ensures PagesUpTo(a, PageSize, k) == PagesUpTo(a, PageSize, k - 1) + Page(a, k, PageSize)
  {
  }

  class Feed {
    /** The props: the community shown ("" for none) and the post type ("all" for any). */
    const community: string
    const postType: string
    var posts: seq<Posts.Post>
    var loading: bool
    var error: string
    var activeFilter: string
    var loadingMore: bool
    var hasMore: bool
    var page: int

    /** The first render: nothing loaded yet, the "hot" filter, page 1. */
    constructor(community: string, postType: string)
      ensures this.community == community && this.postType == postType
      ensures posts == [] && loading && error == "" && activeFilter == "hot"
      ensures !loadingMore && hasMore && page == 1
    {
      this.community := community;
      this.postType := postType;
      posts := [];
      loading := true;
      error := "";
      activeFilter := "hot";
      loadingMore := false;
      hasMore := true;
      page := 1;
    }

    /** The scroll handler's guard: no page on its way, more may follow, and something is
        shown already. */
    predicate CanLoadMore()
      reads this
    {
      !loadingMore && hasMore && |posts| > 0
    }

    /** The feed shows pages 1 to `page` of the arrangement `a`, one after the other. */
    predicate Shows(a: seq<Posts.Post>)
      reads this
    {
      page >= 1 && posts == PagesUpTo(a, PageSize, page)
    }

    /** `loadPosts(filterType, pageNum, append)` up to the call of `getAll`: a first page
        shows the spinner and clears the error, a further page shows the small spinner. */
    method BeginLoad(filterType: string, pageNum: int, append: bool) returns (opts: Posts.FeedOptions)
      modifies this
      ensures opts == Request(community, postType, filterType, pageNum)
      ensures !append ==> loading && error == "" && loadingMore == old(loadingMore)
      ensures append ==> loadingMore && loading == old(loading) && error == old(error)
      ensures posts == old(posts) && page == old(page) && hasMore == old(hasMore) && activeFilter == old(activeFilter)
    {
      if !append {
        loading := true;
        error := "";
      } else {
        loadingMore := true;
      }
      opts := Request(community, postType, filterType, pageNum);
    }

    /** The rest of `loadPosts` once `getAll` has answered: a first page replaces the posts
        and sets the page back to 1, a further page is appended; more may follow exactly
        when ten came back. A failure keeps what is shown and sets the message. Either way
        both spinners stop. */
    method EndLoad(append: bool, response: Result<seq<Posts.Post>>)
      modifies this
      ensures !loading && !loadingMore && activeFilter == old(activeFilter)
      ensures response.Ok? && !append ==> posts == response.value && page == 1
      ensures response.Ok? && append ==> posts == old(posts) + response.value && page == old(page)
      ensures response.Ok? ==> hasMore == (|response.value| == PageSize) && error == old(error)
      ensures response.Err? ==> posts == old(posts) && page == old(page) && hasMore == old(hasMore)
      ensures response.Err? ==> error == if response.message == "" then "Failed to load posts" else response.message
    {
      if response.Ok? {
        if !append {
          posts := response.value;
          page := 1;
        } else {
          posts := posts + response.value;
        }
        hasMore := |response.value| == PageSize;
      } else {
        error := if response.message == "" then "Failed to load posts" else response.message;
      }
      loading := false;
      loadingMore := false;
    }

    /** The load of the first page for the current filter: on mount, after a change of
        filter, and on `handleRetry`. */
    method Reload() returns (opts: Posts.FeedOptions)
      modifies this
      ensures opts == Request(community, postType, activeFilter, 1)
      ensures loading && error == "" && loadingMore == old(loadingMore)
      ensures posts == old(posts) && page == old(page) && hasMore == old(hasMore) && activeFilter == old(activeFilter)
    {
      opts := BeginLoad(activeFilter, 1, false);
    }

    /** The scroll handler: near the bottom, and only when the guard lets it, the next page
        is asked for and appended when it comes. Otherwise nothing happens. */
    method Scroll(nearBottom: bool) returns (opts: Option<Posts.FeedOptions>)
      modifies this
      ensures opts.Some? <==> nearBottom && old(CanLoadMore())
      ensures opts.Some? ==>
        page == old(page) + 1 && loadingMore && opts.value == Request(community, postType, activeFilter, page)
      ensures opts.None? ==> page == old(page) && loadingMore == old(loadingMore)
      ensures posts == old(posts) && hasMore == old(hasMore) && activeFilter == old(activeFilter)
      ensures loading == old(loading) && error == old(error)
    {
      if nearBottom && CanLoadMore() {
        var nextPage := page + 1;
        page := nextPage;
        var request := BeginLoad(activeFilter, nextPage, true);
        return Some(request);
      }
      return None;
    }

    /** `handleFilterChange(filter)`: the filter is taken and the page set back to 1; a
        filter other than the current one reloads the first page. */
    method FilterChange(filter: string) returns (opts: Option<Posts.FeedOptions>)
      modifies this
      ensures activeFilter == filter && page == 1
      ensures opts.Some? <==> filter != old(activeFilter)
      ensures opts.Some? ==> opts.value == Request(community, postType, filter, 1) && loading && error == ""
      ensures opts.None? ==> loading == old(loading) && error == old(error)
      ensures posts == old(posts) && hasMore == old(hasMore) && loadingMore == old(loadingMore)
    {
      var changed := filter != activeFilter;
      activeFilter := filter;
      page := 1;
      if changed {
        var request := Reload();
        return Some(request);
      }
      return None;
    }

    /** `handleVote(postId, voteType)` given the outcome of the service's `vote`. */
    method HandleVote(postId: nat, voteType: Vote, outcome: Outcome)
      modifies this
      ensures posts == PageVotes.AfterPostsVote(old(posts), postId, voteType, outcome)
      ensures page == old(page) && hasMore == old(hasMore) && activeFilter == old(activeFilter)
      ensures loading == old(loading) && loadingMore == old(loadingMore) && error == old(error)
    {
      if outcome.Done? {
        posts := PageVotes.RevotePosts(posts, postId, voteType);
      }
    }
  }

  /** The arrangement a feed pages through: the store's posts for its community, type and
      filter, in the filter's order with the pinned ones first. */
  ghost function Arrangement(store: seq<Posts.Post>, f: Feed, filter: string, rank: Posts.Post -> int): seq<Posts.Post> {
    Posts.Arranged(store, Request(f.community, f.postType, filter, 1), rank)
  }

  /** A reload that the store answers shows the first page of the arrangement. */
  method ReloadFromStore(f: Feed, store: seq<Posts.Post>, rank: Posts.Post -> int)
    modifies f
    ensures f.Shows(Arrangement(store, f, f.activeFilter, rank)) && f.page == 1 && !f.loading
  {
    var filter := f.activeFilter;
    var a := Arrangement(store, f, filter, rank);
    var opts := f.Reload();
    RequestPage(store, f.community, f.postType, filter, 1, rank);
    f.EndLoad(false, Ok(Posts.Feed(store, opts, rank)));
    assert PagesUpTo(a, PageSize, 1) == Page(a, 1, PageSize);
  }

  /** A scroll answered with the next page of the arrangement `a` (what `getAll` returns,
      by `RequestPage`) shows one page more; once a page comes back short, more is not
      asked for and every post of the arrangement is shown. */
  method ScrollAnswered(f: Feed, a: seq<Posts.Post>)
    requires f.Shows(a) && f.CanLoadMore()
    modifies f
    ensures f.Shows(a) && f.page == old(f.page) + 1 && f.activeFilter == old(f.activeFilter)
    ensures !f.hasMore ==> f.posts == a
    ensures f.hasMore ==> |f.posts| == f.page * PageSize
  {
    var opts := f.Scroll(true);
    var response := Page(a, f.page, PageSize);
    f.EndLoad(true, Ok(response));
    NextPage(a, f.page);
    if |response| < PageSize {
      ShortPageIsLast(a, f.page);
    } else {
      FullPageCount(a, f.page);
    }
  }

  /** A scroll whose load fails still counts its page: the feed shows one page fewer than
      `page` says, and the next scroll asks for the page after the one that failed. */
  method ScrollFails(f: Feed, a: seq<Posts.Post>, message: string)
    requires f.Shows(a) && f.CanLoadMore()
    modifies f
    ensures f.page == old(f.page) + 1 && f.posts == old(f.posts) && f.CanLoadMore()
    ensures f.posts == PagesUpTo(a, PageSize, f.page - 1)
  {
    var opts := f.Scroll(true);
    f.EndLoad(true, Err(message));
  }
}

=== FILE: posts.dfy ===
/** The posts store: an array of post records kept by `PostsService` and mutated in
    place, with the feed query `getAll` (filter, sort, pinned first, page) and the
    lookups that copy out of it. */
module Posts {
  import opened Common
  import opened Seqs
  import opened Text
  import opened Votes
  import Ids

  /** The message of every lookup of a post that is not there. */
  const NotFound := "Post not found"

  /** A post record. `kind` is the record's `type` ("text", "image", "video", "link",
      "media", "poll"); an absent `imageUrl`/`linkUrl` (null) is "". `createdAt` is the
      timestamp in milliseconds. */
  datatype Post = Post(
    id: nat, title: string, content: string, kind: string,
    imageUrl: string, linkUrl: string, author: string, communityName: string,
    tally: Tally, commentCount: int, createdAt: int, isPinned: bool)

  function IdsOf(posts: seq<Post>): (ids: seq<nat>)
    ensures |ids| == |posts|
    ensures forall i :: 0 <= i < |posts| ==> ids[i] == posts[i].id
  {
    if |posts| == 0 then [] else [posts[0].id] + IdsOf(posts[1..])
  }

  function HasId(id: nat): Post -> bool {
    (p: Post) => p.id == id
  }

  // ---------------------------------------------------------------- getAll

  /** The options of `getAll`. An empty `community`/`postType` is an absent option, and a
      `page`/`limit` of 0 is an absent one (both falsy). `filter` is "new", "top",
      "rising", "controversial" or anything else for "hot". */
  datatype FeedOptions = FeedOptions(filter: string, community: string, postType: string, page: int, limit: int)

  function InCommunity(c: string): Post -> bool {
    (p: Post) => Lower(p.communityName) == Lower(c)
  }

  /** The post-type filter: an image post is one of type "image" or one with an image,
      a link post likewise, a text post has neither; any other type keeps every post. */
  function OfType(t: string): Post -> bool {
    (p: Post) =>
      if t == "image" then p.kind == "image" || p.imageUrl != ""
      else if t == "video" then p.kind == "video"
      else if t == "link" then p.kind == "link" || p.linkUrl != ""
      else if t == "text" then p.kind == "text" && p.imageUrl == "" && p.linkUrl == ""
      else true
  }

  function Pinned(): Post -> bool {
    (p: Post) => p.isPinned
  }

  /** The posts that pass the community and the type filters, in store order. */
  function Selected(posts: seq<Post>, opts: FeedOptions): (r: seq<Post>)
    ensures |r| <= |posts|
    ensures forall p :: p in r ==> p in posts
  {
    var inCommunity := if opts.community == "" then posts else Filter(posts, InCommunity(opts.community));
    FilterMembers(posts, InCommunity(opts.community));
    FilterMembers(inCommunity, OfType(opts.postType));
    if opts.postType == "" then inCommunity else Filter(inCommunity, OfType(opts.postType))
  }

  /** The community filter keeps exactly the posts of that community, compared without
      case; the type filter keeps exactly the posts of that type. */
  lemma SelectedMembers(posts: seq<Post>, opts: FeedOptions, p: Post)
    ensures p in Selected(posts, opts) <==>
      p in posts
      && (opts.community == "" || Lower(p.communityName) == Lower(opts.community))
      && (opts.postType == "" || OfType(opts.postType)(p))
  {
    var inCommunity := if opts.community == "" then posts else Filter(posts, InCommunity(opts.community));
    if opts.community != "" { FilterMembers(posts, InCommunity(opts.community)); }
    if opts.postType != "" { FilterMembers(inCommunity, OfType(opts.postType)); }
  }

  /** The sort order of each filter: newest first for "new", highest score first for
      "top". The other three orders are computed in floating point from the clock;
      `rank` stands for the score they sort by. */
  function SortKey(filter: string, rank: Post -> int): Post -> int {
    if filter == "new" then (p: Post) => p.createdAt
    else if filter == "top" then (p: Post) => Score(p.tally)
    else rank
  }

  /** The selection sorted by the filter's order. */
  function Sorted(posts: seq<Post>, opts: FeedOptions, rank: Post -> int): seq<Post> {
    SortDesc(Selected(posts, opts), SortKey(opts.filter, rank))
  }

  /** The whole feed before paging: the selection, sorted, with the pinned posts first. */
  function Arranged(posts: seq<Post>, opts: FeedOptions, rank: Post -> int): (r: seq<Post>)
    ensures multiset(r) == multiset(Selected(posts, opts))
    ensures forall i, j :: 0 <= i < j < |r| && !r[i].isPinned ==> !r[j].isPinned
  {
    Partition(Sorted(posts, opts, rank), Pinned())
  }

  /** The pinned posts and the others each keep the sorted order, including the relative
      order of posts that tie. */
  lemma ArrangedGroups(posts: seq<Post>, opts: FeedOptions, rank: Post -> int)
    ensures Filter(Arranged(posts, opts, rank), Pinned()) == Filter(Sorted(posts, opts, rank), Pinned())
    ensures Filter(Arranged(posts, opts, rank), Not(Pinned())) == Filter(Sorted(posts, opts, rank), Not(Pinned()))
    ensures SortedDesc(Filter(Arranged(posts, opts, rank), Pinned()), SortKey(opts.filter, rank))
    ensures SortedDesc(Filter(Arranged(posts, opts, rank), Not(Pinned())), SortKey(opts.filter, rank))
  {
    var s := Sorted(posts, opts, rank);
    PartitionKeepsGroups(s, Pinned());
    FilterSorted(s, Pinned(), SortKey(opts.filter, rank));
    FilterSorted(s, Not(Pinned()), SortKey(opts.filter, rank));
  }

  /** "top" lists the highest score first and "new" the newest first, among the pinned
      posts and among the others alike. */
  lemma {:induction false} FilterOrders(posts: seq<Post>, opts: FeedOptions, rank: Post -> int)
    ensures var pinned, rest := Filter(Arranged(posts, opts, rank), Pinned()), Filter(Arranged(posts, opts, rank), Not(Pinned()));
      opts.filter == "top" ==>
        (forall i, j :: 0 <= i < j < |pinned| ==> Score(pinned[i].tally) >= Score(pinned[j].tally))
        && (forall i, j :: 0 <= i < j < |rest| ==> Score(rest[i].tally) >= Score(rest[j].tally))
    ensures var pinned, rest := Filter(Arranged(posts, opts, rank), Pinned()), Filter(Arranged(posts, opts, rank), Not(Pinned()));
      opts.filter == "new" ==>
        (forall i, j :: 0 <= i < j < |pinned| ==> pinned[i].createdAt >= pinned[j].createdAt)
        && (forall i, j :: 0 <= i < j < |rest| ==> rest[i].createdAt >= rest[j].createdAt)
  {
    ArrangedGroups(posts, opts, rank);
  }

  function PageOf(opts: FeedOptions): int {
    if opts.page == 0 then 1 else opts.page
  }

  function LimitOf(opts: FeedOptions): int {
    if opts.limit == 0 then 10 else opts.limit
  }

  /** `getAll(options)`: the page `(page - 1) * limit` up to `(page - 1) * limit + limit`
      of the arranged feed, with page 1 and limit 10 by default. */
  function Feed(posts: seq<Post>, opts: FeedOptions, rank: Post -> int): (r: seq<Post>)
    ensures PageOf(opts) >= 1 && LimitOf(opts) >= 0 ==> |r| <= LimitOf(opts)
    ensures PageOf(opts) >= 1 && LimitOf(opts) >= 0 ==>
      var a, start := Arranged(posts, opts, rank), PageStart(PageOf(opts), LimitOf(opts));
      r == a[Min(start, |a|)..Min(start + LimitOf(opts), |a|)]
    ensures forall p :: p in r ==> p in Selected(posts, opts)
  {
    var a := Arranged(posts, opts, rank);
    var r := Page(a, PageOf(opts), LimitOf(opts));
    SameMembers(a, Selected(posts, opts));
    r
  }

  /** Loading pages 1 to `n` of one query against an unchanged store shows the first
      `n * limit` posts of the arranged feed, each exactly once and in order. */
  lemma {:induction false} FeedPagesArePrefix(posts: seq<Post>, opts: FeedOptions, rank: Post -> int, n: nat)
    requires LimitOf(opts) >= 1
    ensures var a := Arranged(posts, opts, rank);
      PagesUpTo(a, LimitOf(opts), n) == a[..Min(PageStart(n + 1, LimitOf(opts)), |a|)]
    ensures forall k :: 1 <= k <= n ==>
      Feed(posts, opts.(page := k), rank) == Page(Arranged(posts, opts, rank), k, LimitOf(opts))
  {
    PagesArePrefix(Arranged(posts, opts, rank), LimitOf(opts), n);
    forall k | 1 <= k <= n
      ensures Feed(posts, opts.(page := k), rank) == Page(Arranged(posts, opts, rank), k, LimitOf(opts))
    {
      ArrangedIgnoresPage(posts, opts, rank, k);
    }
  }

  /** The page changes nothing but the position of the slice. */
  lemma ArrangedIgnoresPage(posts: seq<Post>, opts: FeedOptions, rank: Post -> int, n: int)
    ensures Arranged(posts, opts.(page := n), rank) == Arranged(posts, opts, rank)
  {
    assert Selected(posts, opts.(page := n)) == Selected(posts, opts);
  }

  // ------------------------------------------------------- getById, getByUser

  /** `getById(id)`: a copy of the first post with that id, or "Post not found". */
  function FindPost(posts: seq<Post>, id: nat): (r: Result<Post>)
    ensures r.Err? <==> forall p :: p in posts ==> p.id != id
    ensures r.Err? ==> r.message == NotFound
    ensures r.Ok? ==> r.value in posts && r.value.id == id
    ensures r.Ok? ==> exists i :: (0 <= i < |posts| && r.value == posts[i]
      && forall j :: 0 <= j < i ==> posts[j].id != id)
  {
    var i := FirstIndex(posts, HasId(id));
    if i == -1 then Err(NotFound) else Ok(posts[i])
  }

  function ByAuthor(username: string): Post -> bool {
    (p: Post) => p.author == username
  }

  function CreatedAt(): Post -> int {
    (p: Post) => p.createdAt
  }

  /** `getByUser(username)`: that author's posts, newest first. */
  function PostsByUser(posts: seq<Post>, username: string): (r: seq<Post>)
    ensures forall p :: p in r <==> p in posts && p.author == username
    ensures forall p :: multiset(r)[p] == if p.author == username then multiset(posts)[p] else 0
    ensures SortedDesc(r, CreatedAt())
    ensures forall k :: Filter(r, KeyIs(CreatedAt(), k)) == Filter(Filter(posts, ByAuthor(username)), KeyIs(CreatedAt(), k))
  {
    var mine := Filter(posts, ByAuthor(username));
    FilterMembers(posts, ByAuthor(username));
    FilterCounts(posts, ByAuthor(username));
    SameMembers(mine, SortDesc(mine, CreatedAt()));
    forall k ensures Filter(SortDesc(mine, CreatedAt()), KeyIs(CreatedAt(), k)) == Filter(mine, KeyIs(CreatedAt(), k)) {
      SortDescStable(mine, CreatedAt(), k);
    }
    SortDesc(mine, CreatedAt())
  }

  // ---------------------------------------------------------------- create

  /** What the create-post page submits. A missing content or URL is "". */
  datatype Draft = Draft(title: string, content: string, kind: string, imageUrl: string, linkUrl: string, communityName: string)

  /** The record `create` builds: authored by "demo_user", upvoted by its author, no
      comments, not pinned. */
  function NewPost(id: nat, d: Draft, now: int): (p: Post)
    ensures p.id == id && p.title == d.title && p.content == d.content && p.kind == d.kind
    ensures p.imageUrl == d.imageUrl && p.linkUrl == d.linkUrl && p.communityName == d.communityName
    ensures p.author == "demo_user" && p.createdAt == now && !p.isPinned
    ensures p.tally == Tally(1, 0, Up) && p.commentCount == 0
  {
    Post(id, d.title, d.content, d.kind, d.imageUrl, d.linkUrl, "demo_user", d.communityName,
         Tally(1, 0, Up), 0, now, false)
  }

  /** A new post's only vote is its author's: nobody else has voted, and taking the
      author's vote back leaves a score of 0. */
  lemma NewPostOwnVote(id: nat, d: Draft, now: int)
    ensures Others(NewPost(id, d, now).tally) == (0, 0)
    ensures Score(Cast(NewPost(id, d, now).tally, Up)) == 0
  {
    assert NewPost(id, d, now).tally == Tally(1, 0, Up);
  }

  // ---------------------------------------------------------------- update

  /** The fields of `data` in `update(id, data)`; `None` for a field `data` leaves out. */
  datatype Patch = Patch(
    id: Option<nat>, title: Option<string>, content: Option<string>, kind: Option<string>,
    imageUrl: Option<string>, linkUrl: Option<string>, author: Option<string>,
    communityName: Option<string>, upvotes: Option<int>, downvotes: Option<int>,
    userVote: Option<Vote>, commentCount: Option<int>, createdAt: Option<int>, isPinned: Option<bool>)

  const NoChange := Patch(None, None, None, None, None, None, None, None, None, None, None, None, None, None)

  function Pick<T>(o: Option<T>, old_: T): T {
    if o.Some? then o.value else old_
  }

  /** `{ ...post, ...data }`: every field `data` supplies overwrites, the others stay. */
  function Merge(p: Post, d: Patch): (r: Post)
    ensures d.id.Some? ==> r.id == d.id.value
    ensures d.id.None? ==> r.id == p.id
    ensures d.title.Some? ==> r.title == d.title.value
    ensures d.title.None? ==> r.title == p.title
    ensures d.content.Some? ==> r.content == d.content.value
    ensures d.content.None? ==> r.content == p.content
    ensures d.kind.Some? ==> r.kind == d.kind.value
    ensures d.kind.None? ==> r.kind == p.kind
    ensures d.imageUrl.Some? ==> r.imageUrl == d.imageUrl.value
    ensures d.imageUrl.None? ==> r.imageUrl == p.imageUrl
    ensures d.linkUrl.Some? ==> r.linkUrl == d.linkUrl.value
    ensures d.linkUrl.None? ==> r.linkUrl == p.linkUrl
    ensures d.author.Some? ==> r.author == d.author.value
    ensures d.author.None? ==> r.author == p.author
    ensures d.communityName.Some? ==> r.communityName == d.communityName.value
    ensures d.communityName.None? ==> r.communityName == p.communityName
    ensures d.upvotes.Some? ==> r.tally.upvotes == d.upvotes.value
    ensures d.upvotes.None? ==> r.tally.upvotes == p.tally.upvotes
    ensures d.downvotes.Some? ==> r.tally.downvotes == d.downvotes.value
    ensures d.downvotes.None? ==> r.tally.downvotes == p.tally.downvotes
    ensures d.userVote.Some? ==> r.tally.userVote == d.userVote.value
    ensures d.userVote.None? ==> r.tally.userVote == p.tally.userVote
    ensures d.commentCount.Some? ==> r.commentCount == d.commentCount.value
    ensures d.commentCount.None? ==> r.commentCount == p.commentCount
    ensures d.createdAt.Some? ==> r.createdAt == d.createdAt.value
    ensures d.createdAt.None? ==> r.createdAt == p.createdAt
    ensures d.isPinned.Some? ==> r.isPinned == d.isPinned.value
    ensures d.isPinned.None? ==> r.isPinned == p.isPinned
  {
    Post(Pick(d.id, p.id), Pick(d.title, p.title), Pick(d.content, p.content), Pick(d.kind, p.kind),
         Pick(d.imageUrl, p.imageUrl), Pick(d.linkUrl, p.linkUrl), Pick(d.author, p.author),
         Pick(d.communityName, p.communityName),
         Tally(Pick(d.upvotes, p.tally.upvotes), Pick(d.downvotes, p.tally.downvotes), Pick(d.userVote, p.tally.userVote)),
         Pick(d.commentCount, p.commentCount), Pick(d.createdAt, p.createdAt), Pick(d.isPinned, p.isPinned))
  }

  /** Merging nothing changes nothing, and merging the same data twice is merging it once. */
  lemma MergeLaws(p: Post, d: Patch)
    ensures Merge(p, NoChange) == p
    ensures Merge(Merge(p, d), d) == Merge(p, d)
  {
  }

  // ------------------------------------------------------------- the store

  /** The store after `vote(id, v)`: the first post with the id gets the toggle, every
      other post is untouched; an unknown id rejects. */
  function AfterVote(posts: seq<Post>, id: nat, v: Vote): (r: Result<seq<Post>>)
    ensures r.Err? <==> forall p :: p in posts ==> p.id != id
    ensures r.Err? ==> r.message == NotFound
    ensures r.Ok? ==> |r.value| == |posts| && IdsOf(r.value) == IdsOf(posts)
    ensures r.Ok? ==> forall j :: 0 <= j < |posts| && posts[j].id != id ==> r.value[j] == posts[j]
    ensures r.Ok? ==> exists i :: (0 <= i < |posts| && posts[i].id == id
      && (forall j :: 0 <= j < i ==> posts[j].id != id)
      && r.value == posts[i := posts[i].(tally := Cast(posts[i].tally, v))])
  {
    var i := FirstIndex(posts, HasId(id));
    if i == -1 then Err(NotFound)
    else
      var q := posts[i].(tally := Cast(posts[i].tally, v));
      var r := posts[i := q];
      assert r[i] == q && posts[i].id == id && q.id == id;
      assert IdsOf(r) == IdsOf(posts);
      Ok(r)
  }

  /** With distinct ids, voting touches only the post with that id, and only its counters
      and `userVote`: its other votes stay, and the viewer's vote follows the toggle. */
  lemma {:induction false} VoteTargetsOne(posts: seq<Post>, id: nat, v: Vote, j: nat)
    requires j < |posts| && posts[j].id == id
    requires Ids.Distinct(IdsOf(posts))
    ensures AfterVote(posts, id, v).Ok?
    ensures var q := AfterVote(posts, id, v).value[j];
      q == posts[j].(tally := q.tally)
      && Others(q.tally) == Others(posts[j].tally)
      && q.tally.userVote == (if v == posts[j].tally.userVote then NoVote else v)
  {
    var i := FirstIndex(posts, HasId(id));
    assert HasId(id)(posts[j]);
    assert IdsOf(posts)[i] == id == IdsOf(posts)[j];
  }

  /** The store after `update(id, data)`: the first post with the id merged with `data`. */
  function AfterUpdate(posts: seq<Post>, id: nat, d: Patch): (r: Result<(seq<Post>, Post)>)
    ensures r.Err? <==> forall p :: p in posts ==> p.id != id
    ensures r.Err? ==> r.message == NotFound
    ensures r.Ok? ==> |r.value.0| == |posts| && r.value.1 in r.value.0
    ensures r.Ok? ==> forall j :: 0 <= j < |posts| && posts[j].id != id ==> r.value.0[j] == posts[j]
    ensures r.Ok? && d.id.None? ==> IdsOf(r.value.0) == IdsOf(posts)
    ensures r.Ok? ==> exists i :: (0 <= i < |posts| && posts[i].id == id
      && (forall j :: 0 <= j < i ==> posts[j].id != id)
      && r.value.0 == posts[i := Merge(posts[i], d)] && r.value.1 == Merge(posts[i], d))
  {
    var i := FirstIndex(posts, HasId(id));
    if i == -1 then Err(NotFound)
    else
      var q := Merge(posts[i], d);
      var r := posts[i := q];
      assert r[i] == q && posts[i].id == id;
      assert d.id.None? ==> IdsOf(r) == IdsOf(posts) by {
        if d.id.None? { IdsOfReplace(posts, i, q); }
      }
      Ok((r, q))
  }

  /** The store after `delete(id)`: the first post with the id removed, the others kept
      in order. */
  function AfterDelete(posts: seq<Post>, id: nat): (r: Result<seq<Post>>)
    ensures r.Err? <==> forall p :: p in posts ==> p.id != id
    ensures r.Err? ==> r.message == NotFound
    ensures r.Ok? ==> |r.value| == |posts| - 1
    ensures r.Ok? ==> exists i :: (0 <= i < |posts| && posts[i].id == id
      && (forall j :: 0 <= j < i ==> posts[j].id != id)
      && r.value == posts[..i] + posts[i + 1..])
  {
    var i := FirstIndex(posts, HasId(id));
    if i == -1 then Err(NotFound)
    else
      assert posts[i].id == id;
      Ok(posts[..i] + posts[i + 1..])
  }

  /** With distinct ids, deleting removes the post with that id and no other. */
  lemma {:induction false} DeleteRemovesOnlyTarget(posts: seq<Post>, id: nat)
    requires Ids.Distinct(IdsOf(posts))
    requires AfterDelete(posts, id).Ok?
    ensures forall p :: p in AfterDelete(posts, id).value <==> p in posts && p.id != id
  {
    var i := FirstIndex(posts, HasId(id));
    var r := posts[..i] + posts[i + 1..];
    assert AfterDelete(posts, id).value == r;
    forall p ensures p in r <==> p in posts && p.id != id {
      SpliceMembers(posts, i, p);
      if p in posts && p.id != id {
        var m :| 0 <= m < |posts| && posts[m] == p;
        assert m != i;
      }
      if p in r {
        var m :| 0 <= m < |posts| && m != i && posts[m] == p;
        assert IdsOf(posts)[m] != IdsOf(posts)[i];
      }
    }
  }

  /** The store after `updateCommentCount(postId, increment)`. */
  function AfterCommentCount(posts: seq<Post>, id: nat, increment: int): (r: Result<seq<Post>>)
    ensures r.Err? <==> forall p :: p in posts ==> p.id != id
    ensures r.Err? ==> r.message == NotFound
    ensures r.Ok? ==> |r.value| == |posts|
    ensures r.Ok? ==> forall j :: 0 <= j < |posts| && posts[j].id != id ==> r.value[j] == posts[j]
    ensures r.Ok? ==> var i := FirstIndex(posts, HasId(id));
      0 <= i && posts[i].id == id && r.value[i] == posts[i].(commentCount := posts[i].commentCount + increment)
  {
    var i := FirstIndex(posts, HasId(id));
    if i == -1 then Err(NotFound)
    else Ok(posts[i := posts[i].(commentCount := posts[i].commentCount + increment)])
  }

  /** Replacing a post by one with the same id keeps the ids. */
  lemma IdsOfReplace(posts: seq<Post>, i: nat, q: Post)
    requires i < |posts| && q.id == posts[i].id
    ensures IdsOf(posts[i := q]) == IdsOf(posts)
  {
  }

  /** `PostsService`: the array of posts and the operations that change it. */
  class PostsService {
    var posts: seq<Post>

    /** The store starts as a copy of the fixture data. */
    constructor(initial: seq<Post>)
      ensures posts == initial
    {
      posts := initial;
    }

    /** `create(postData)`: the new post goes in front, with the next id. */
    method Create(d: Draft, now: int) returns (p: Post)
      modifies this
      ensures p == NewPost(Ids.NextId(IdsOf(old(posts))), d, now)
      ensures posts == [p] + old(posts)
      ensures Ids.Distinct(IdsOf(old(posts))) ==> Ids.Distinct(IdsOf(posts))
    {
      var ids := IdsOf(posts);
      p := NewPost(Ids.NextId(ids), d, now);
      if Ids.Distinct(ids) {
        Ids.NextIdKeepsDistinct(ids);
      }
      assert IdsOf([p] + posts) == [p.id] + ids;
      posts := [p] + posts;
    }

    method Vote(id: nat, v: Vote) returns (o: Outcome)
      modifies this
      ensures AfterVote(old(posts), id, v).Err? ==> o == Failed(NotFound) && posts == old(posts)
      ensures AfterVote(old(posts), id, v).Ok? ==> o == Done && posts == AfterVote(old(posts), id, v).value
    {
      var i := FirstIndex(posts, HasId(id));
      if i == -1 {
        return Failed(NotFound);
      }
      var post := posts[i];
      posts := posts[i := post.(tally := Cast(post.tally, v))];
      o := Done;
    }

    method Update(id: nat, d: Patch) returns (r: Result<Post>)
      modifies this
      ensures AfterUpdate(old(posts), id, d).Err? ==> r == Err(NotFound) && posts == old(posts)
      ensures AfterUpdate(old(posts), id, d).Ok? ==>
        posts == AfterUpdate(old(posts), id, d).value.0 && r == Ok(AfterUpdate(old(posts), id, d).value.1)
    {
      var i := FirstIndex(posts, HasId(id));
      if i == -1 {
        return Err(NotFound);
      }
      var merged := Merge(posts[i], d);
      posts := posts[i := merged];
      r := Ok(merged);
    }

    method Delete(id: nat) returns (o: Outcome)
      modifies this
      ensures AfterDelete(old(posts), id).Err? ==> o == Failed(NotFound) && posts == old(posts)
      ensures AfterDelete(old(posts), id).Ok? ==> o == Done && posts == AfterDelete(old(posts), id).value
    {
      var i := FirstIndex(posts, HasId(id));
      if i == -1 {
        return Failed(NotFound);
      }
      assert Splice1(posts, i) == AfterDelete(posts, id).value;
      posts := Splice1(posts, i);
      o := Done;
    }

    method UpdateCommentCount(id: nat, increment: int := 1) returns (o: Outcome)
      modifies this
      ensures AfterCommentCount(old(posts), id, increment).Err? ==> o == Failed(NotFound) && posts == old(posts)
      ensures AfterCommentCount(old(posts), id, increment).Ok? ==>
        o == Done && posts == AfterCommentCount(old(posts), id, increment).value
    {
      var i := FirstIndex(posts, HasId(id));
      if i == -1 {
        return Failed(NotFound);
      }
      posts := posts[i := posts[i].(commentCount := posts[i].commentCount + increment)];
      o := Done;
    }
  }
}

=== FILE: seqs.dfy ===
/** The JavaScript array operations the services are built from: findIndex, filter,
    splice, a stable sort by an integer key, the pinned/regular partition and slice.
    Each is stated by what it returns, and the facts the services need about them
    (permutation, order, stability, adjacency of slices) are proved here once. */
module Seqs {

  /** Array.prototype.findIndex: the first index whose element satisfies `p`, or -1. */
  function FirstIndex<T(!new)>(s: seq<T>, p: T -> bool): (i: int)
    ensures -1 <= i < |s|
    ensures 0 <= i ==> p(s[i]) && forall j :: 0 <= j < i ==> !p(s[j])
    ensures i == -1 <==> forall j :: 0 <= j < |s| ==> !p(s[j])
  {
    if s == [] then -1
    else if p(s[0]) then 0
    else
      var k := FirstIndex(s[1..], p);
      if k == -1 then -1 else k + 1
  }

  /** Array.prototype.filter: the elements satisfying `p`, in their original order. */
  function Filter<T(!new)>(s: seq<T>, p: T -> bool): (r: seq<T>)
    ensures |r| <= |s|
  {
    if |s| == 0 then []
    else (if p(s[0]) then [s[0]] else []) + Filter(s[1..], p)
  }

  /** One step of filtering, stated on a sequence built by prepending. */
  lemma FilterCons<T(!new)>(x: T, s: seq<T>, p: T -> bool)
    ensures Filter([x] + s, p) == (if p(x) then [x] else []) + Filter(s, p)
  {
    var xs := [x] + s;
    assert xs[0] == x && xs[1..] == s;
  }

  /** What filtering keeps: exactly the elements of `s` that satisfy `p`. */
  lemma {:induction false} FilterMembers<T(!new)>(s: seq<T>, p: T -> bool)
    ensures forall x :: x in Filter(s, p) <==> x in s && p(x)
  {
    if |s| != 0 {
      assert s == [s[0]] + s[1..];
      FilterCons(s[0], s[1..], p);
      FilterMembers(s[1..], p);
    }
  }

  /** Filtering keeps every copy of each element that passes and none of the others. */
  lemma {:induction false} FilterCount<T(!new)>(s: seq<T>, p: T -> bool, x: T)
    ensures multiset(Filter(s, p))[x] == if p(x) then multiset(s)[x] else 0
  {
    if |s| != 0 {
      assert s == [s[0]] + s[1..];
      FilterCons(s[0], s[1..], p);
      FilterCount(s[1..], p, x);
    }
  }

  /** Concatenation regrouped around a middle part. */
  lemma Regroup<T>(p: seq<T>, b: seq<T>, m: seq<T>, a: seq<T>, q: seq<T>)
    ensures p + (b + m + a) + q == (p + b) + m + (a + q)
  {
  }

  /** Filtering, counted element by element. */
  lemma FilterCounts<T(!new)>(s: seq<T>, p: T -> bool)
    ensures forall x :: multiset(Filter(s, p))[x] == if p(x) then multiset(s)[x] else 0
  {
    forall x ensures multiset(Filter(s, p))[x] == if p(x) then multiset(s)[x] else 0 {
      FilterCount(s, p, x);
    }
  }

  /** Filtering out an element that is there shortens the sequence. */
  lemma {:induction false} FilterDrops<T(!new)>(s: seq<T>, p: T -> bool, x: T)
    requires x in s && !p(x)
    ensures |Filter(s, p)| < |s|
  {
    assert s == [s[0]] + s[1..];
    FilterCons(s[0], s[1..], p);
    if s[0] != x {
      FilterDrops(s[1..], p, x);
    }
  }

  function Not<T>(p: T -> bool): T -> bool {
    x => !p(x)
  }

  /** Filtering distributes over concatenation. */
  lemma {:induction false} FilterConcat<T(!new)>(a: seq<T>, b: seq<T>, p: T -> bool)
    ensures Filter(a + b, p) == Filter(a, p) + Filter(b, p)
  {
    if |a| == 0 {
      assert a + b == b;
    } else {
      var x, t := a[0], a[1..];
      assert a == [x] + t;
      assert a + b == [x] + (t + b);
      FilterCons(x, t, p);
      FilterCons(x, t + b, p);
      FilterConcat(t, b, p);
    }
  }

  /** Filtering keeps everything when every element passes, and nothing when none does. */
  lemma {:induction false} FilterUniform<T(!new)>(s: seq<T>, p: T -> bool)
    ensures (forall x :: x in s ==> p(x)) ==> Filter(s, p) == s
    ensures (forall x :: x in s ==> !p(x)) ==> Filter(s, p) == []
  {
    if s != [] {
      assert forall x :: x in s[1..] ==> x in s;
      FilterUniform(s[1..], p);
      assert s == [s[0]] + s[1..];
    }
  }

  /** Two sequences with the same elements, counted with multiplicity, have the same members. */
  lemma SameMembers<T>(a: seq<T>, b: seq<T>)
    requires multiset(a) == multiset(b)
    ensures forall x :: x in a <==> x in b
  {
    forall x ensures x in a <==> x in b {
      assert x in a <==> x in multiset(a);
      assert x in b <==> x in multiset(b);
    }
  }

  /** Whatever is kept from `s`, and is none of the elements `Filter(s, p)` picked out,
      fails `p`. */
  lemma FilteredOut<T(!new)>(s: seq<T>, kept: seq<T>, p: T -> bool)
    requires forall x :: x in kept ==> x in s && x !in Filter(s, p)
    ensures forall x :: x in kept ==> !p(x)
  {
    FilterMembers(s, p);
  }

  /** Array.prototype.splice(i, 1) for a non-negative `i`: removes the element at `i`;
      an index at or past the end removes nothing. */
  function Splice1<T>(s: seq<T>, i: nat): (r: seq<T>)
    ensures i < |s| ==> |r| == |s| - 1 && multiset(r) + multiset{s[i]} == multiset(s)
    ensures i < |s| ==> forall j :: 0 <= j < |r| ==> r[j] == if j < i then s[j] else s[j + 1]
    ensures |s| <= i ==> r == s
  {
    if i < |s| then
      assert s == s[..i] + [s[i]] + s[i + 1..];
      s[..i] + s[i + 1..]
    else s
  }

  /** What is left once the element at `i` is cut out: the elements at every other index. */
  lemma SpliceMembers<T>(s: seq<T>, i: nat, x: T)
    requires i < |s|
    ensures x in s[..i] + s[i + 1..] <==> exists m :: 0 <= m < |s| && m != i && s[m] == x
  {
    var r := s[..i] + s[i + 1..];
    if x in r {
      var k :| 0 <= k < |r| && r[k] == x;
      var m := if k < i then k else k + 1;
      assert s[m] == x;
    }
    if exists m :: 0 <= m < |s| && m != i && s[m] == x {
      var m :| 0 <= m < |s| && m != i && s[m] == x;
      if m < i { assert r[m] == x; } else { assert r[m - 1] == x; }
    }
  }

  /** Ordered by `key`, largest first. */
  predicate SortedDesc<T(!new)>(s: seq<T>, key: T -> int) {
    forall i, j :: 0 <= i < j < |s| ==> key(s[i]) >= key(s[j])
  }

  /** In a sequence sorted largest first, the head has the largest key. */
  lemma HeadIsLargest<T(!new)>(t: seq<T>, key: T -> int)
    requires SortedDesc(t, key) && t != []
    ensures forall y :: y in t ==> key(y) <= key(t[0])
  {
    forall y | y in t ensures key(y) <= key(t[0]) {
      var j :| 0 <= j < |t| && t[j] == y;
    }
  }

  /** Inserts `x` in front of the first element whose key does not exceed its own. */
  function InsertDesc<T(!new)>(x: T, t: seq<T>, key: T -> int): (r: seq<T>)
    ensures |r| == |t| + 1 && multiset(r) == multiset(t) + multiset{x}
  {
    if t == [] || key(t[0]) <= key(x) then [x] + t
    else
      assert t == [t[0]] + t[1..];
      [t[0]] + InsertDesc(x, t[1..], key)
  }

  lemma {:induction false} InsertDescSorted<T(!new)>(x: T, t: seq<T>, key: T -> int)
    requires SortedDesc(t, key)
    ensures SortedDesc(InsertDesc(x, t, key), key)
  {
    if t != [] && key(t[0]) <= key(x) {
      HeadIsLargest(t, key);
      ConsSorted(x, t, key);
    } else if t != [] {
      HeadIsLargest(t, key);
      InsertDescSorted(x, t[1..], key);
      var rest := InsertDesc(x, t[1..], key);
      assert InsertDesc(x, t, key) == [t[0]] + rest;
      forall z | z in rest ensures key(z) <= key(t[0]) {
        assert z in multiset(rest);
        assert z == x || z in multiset(t[1..]);
        assert z == x || z in t;
      }
      ConsSorted(t[0], rest, key);
    }
  }

  /** An element no smaller than any in a sorted sequence can go in front of it. */
  lemma ConsSorted<T(!new)>(y: T, s: seq<T>, key: T -> int)
    requires SortedDesc(s, key)
    requires forall z :: z in s ==> key(z) <= key(y)
    ensures SortedDesc([y] + s, key)
  {
    var r := [y] + s;
    forall i, j | 0 <= i < j < |r| ensures key(r[i]) >= key(r[j]) {
      assert r[j] == s[j - 1];
      if i > 0 { assert r[i] == s[i - 1]; } else { assert s[j - 1] in s; }
    }
  }

  /** Array.prototype.sort with the comparator `(a, b) => key(b) - key(a)`: a stable sort,
      largest key first. An ascending sort is this one on the negated key. */
  function SortDesc<T(!new)>(s: seq<T>, key: T -> int): (r: seq<T>)
    ensures |r| == |s| && multiset(r) == multiset(s)
    ensures SortedDesc(r, key)
  {
    if s == [] then []
    else
      assert s == [s[0]] + s[1..];
      InsertDescSorted(s[0], SortDesc(s[1..], key), key);
      InsertDesc(s[0], SortDesc(s[1..], key), key)
  }

  /** A sequence already in order is left as it is, so sorting twice is sorting once. */
  lemma {:induction false} SortDescOfSorted<T(!new)>(s: seq<T>, key: T -> int)
    requires SortedDesc(s, key)
    ensures SortDesc(s, key) == s
  {
    if s != [] {
      var t := s[1..];
      assert SortedDesc(t, key) by {
        forall i, j | 0 <= i < j < |t| ensures key(t[i]) >= key(t[j]) {
          assert t[i] == s[i + 1] && t[j] == s[j + 1];
        }
      }
      SortDescOfSorted(t, key);
      assert t == [] || key(t[0]) <= key(s[0]) by {
        if t != [] { assert t[0] == s[1]; }
      }
      assert [s[0]] + t == s;
    }
  }

  function KeyIs<T(!new)>(key: T -> int, k: int): T -> bool {
    x => key(x) == k
  }

  lemma {:induction false} InsertDescStable<T(!new)>(x: T, t: seq<T>, key: T -> int, k: int)
    ensures Filter(InsertDesc(x, t, key), KeyIs(key, k))
         == (if key(x) == k then [x] else []) + Filter(t, KeyIs(key, k))
  {
    var p := KeyIs(key, k);
    if t == [] || key(t[0]) <= key(x) {
      FilterCons(x, t, p);
    } else {
      var rest := InsertDesc(x, t[1..], key);
      assert InsertDesc(x, t, key) == [t[0]] + rest;
      InsertDescStable(x, t[1..], key, k);
      PassLarger(x, t, rest, key, k);
    }
  }

  /** One step of `InsertDescStable`: `x` goes past a head with a larger key, which can
      never share its key. */
  lemma PassLarger<T(!new)>(x: T, t: seq<T>, rest: seq<T>, key: T -> int, k: int)
    requires t != [] && key(t[0]) > key(x)
    requires Filter(rest, KeyIs(key, k)) == (if key(x) == k then [x] else []) + Filter(t[1..], KeyIs(key, k))
    ensures Filter([t[0]] + rest, KeyIs(key, k)) == (if key(x) == k then [x] else []) + Filter(t, KeyIs(key, k))
  {
    var p := KeyIs(key, k);
    FilterCons(t[0], rest, p);
    FilterCons(t[0], t[1..], p);
    assert [t[0]] + t[1..] == t;
    if key(x) == k {
      assert !p(t[0]);
    }
  }

  /** Stability: the elements sharing any one key keep their original relative order. */
  lemma {:induction false} SortDescStable<T(!new)>(s: seq<T>, key: T -> int, k: int)
    ensures Filter(SortDesc(s, key), KeyIs(key, k)) == Filter(s, KeyIs(key, k))
  {
    if s != [] {
      assert SortDesc(s, key) == InsertDesc(s[0], SortDesc(s[1..], key), key);
      InsertDescStable(s[0], SortDesc(s[1..], key), key, k);
      SortDescStable(s[1..], key, k);
      FilterConcat([s[0]], s[1..], KeyIs(key, k));
      assert s == [s[0]] + s[1..];
    }
  }

  /** Filtering a sorted sequence leaves it sorted. */
  lemma {:induction false} FilterSorted<T(!new)>(s: seq<T>, p: T -> bool, key: T -> int)
    requires SortedDesc(s, key)
    ensures SortedDesc(Filter(s, p), key)
  {
    if s != [] {
      FilterSorted(s[1..], p, key);
      var rest := Filter(s[1..], p);
      FilterMembers(s[1..], p);
      forall y | y in rest ensures key(s[0]) >= key(y) {
        var j :| 0 <= j < |s[1..]| && s[1..][j] == y;
        assert s[j + 1] == y;
      }
    }
  }

  /** `[...filter(p), ...filter(not p)]`: every element satisfying `p` first. */
  function Partition<T(!new)>(s: seq<T>, p: T -> bool): (r: seq<T>)
    ensures |r| == |s| && multiset(r) == multiset(s)
    ensures forall i, j :: 0 <= i < j < |r| && !p(r[i]) ==> !p(r[j])
  {
    var front, back := Filter(s, p), Filter(s, Not(p));
    FilterMembers(s, p);
    FilterMembers(s, Not(p));
    assert forall i :: 0 <= i < |front| ==> p(front[i]) by {
      forall i | 0 <= i < |front| ensures p(front[i]) { assert front[i] in front; }
    }
    assert forall i :: 0 <= i < |back| ==> !p(back[i]) by {
      forall i | 0 <= i < |back| ensures !p(back[i]) { assert back[i] in back; }
    }
    assert multiset(front + back) == multiset(s) by {
      forall x ensures multiset(front + back)[x] == multiset(s)[x] {
        FilterCount(s, p, x);
        FilterCount(s, Not(p), x);
      }
    }
    front + back
  }

  /** Each side of the partition keeps its order from the input. */
  lemma PartitionKeepsGroups<T(!new)>(s: seq<T>, p: T -> bool)
    ensures Filter(Partition(s, p), p) == Filter(s, p)
    ensures Filter(Partition(s, p), Not(p)) == Filter(s, Not(p))
  {
    var front, back := Filter(s, p), Filter(s, Not(p));
    assert Partition(s, p) == front + back;
    FilterMembers(s, p);
    FilterMembers(s, Not(p));
    assert forall x :: x in front ==> p(x);
    assert forall x :: x in back ==> !p(x);
    FilterConcat(front, back, p);
    FilterConcat(front, back, Not(p));
    FilterUniform(front, p);
    FilterUniform(front, Not(p));
    FilterUniform(back, p);
    FilterUniform(back, Not(p));
  }

  function Clamp(i: int, n: nat): (r: nat)
    ensures r <= n
    ensures 0 <= i <= n ==> r == i
  {
    if i < 0 then 0 else if i > n then n else i
  }

  function Min(a: int, b: int): int {
    if a < b then a else b
  }

  /** Array.prototype.slice(start, end): a negative position counts from the end, both
      positions are clamped to the sequence, and an empty range gives []. */
  function JsSlice<T>(s: seq<T>, start: int, end: int): (r: seq<T>)
    ensures |r| <= |s|
    ensures 0 <= start <= end ==> r == s[Min(start, |s|)..Min(end, |s|)]
    ensures 0 <= start <= end ==> |r| <= end - start
  {
    var from := Clamp(if start < 0 then |s| + start else start, |s|);
    var to := Clamp(if end < 0 then |s| + end else end, |s|);
    if from < to then s[from..to] else []
  }

  /** Two slices that meet at `b` make up the slice from `a` to `c`. */
  lemma SliceAdjacent<T>(s: seq<T>, a: nat, b: nat, c: nat)
    requires a <= b <= c
    ensures JsSlice(s, a, b) + JsSlice(s, b, c) == JsSlice(s, a, c)
  {
    var x, y, z := Min(a, |s|), Min(b, |s|), Min(c, |s|);
    assert s[x..y] + s[y..z] == s[x..z];
  }

  /** Where page `page` of `limit` items starts: `(page - 1) * limit`. */
  function PageStart(page: int, limit: int): (start: int)
    ensures page >= 1 && limit >= 0 ==> start >= 0
  {
    NonNegativeProduct(page - 1, limit);
    (page - 1) * limit
  }

  lemma NonNegativeProduct(a: int, b: int)
    ensures a >= 0 && b >= 0 ==> a * b >= 0
  {
  }

  /** Each page starts where the previous one ends. */
  lemma PageStartNext(page: int, limit: int)
    ensures PageStart(page + 1, limit) == PageStart(page, limit) + limit
  {
    assert page * limit == (page - 1) * limit + limit;
  }

  /** Page `page` of `limit` items: `slice((page - 1) * limit, (page - 1) * limit + limit)`. */
  function Page<T>(s: seq<T>, page: int, limit: int): (r: seq<T>)
    ensures page >= 1 && limit >= 0 ==>
      r == s[Min(PageStart(page, limit), |s|)..Min(PageStart(page, limit) + limit, |s|)] && |r| <= limit
    ensures forall x :: x in r ==> x in s
  {
    JsSlice(s, PageStart(page, limit), PageStart(page, limit) + limit)
  }

  /** Pages 1 to `n`, one after the other. */
  function PagesUpTo<T>(s: seq<T>, limit: int, n: nat): seq<T> {
    if n == 0 then [] else PagesUpTo(s, limit, n - 1) + Page(s, n, limit)
  }

  /** Pages 1 to `n` are the first `n * limit` items, each exactly once. */
  lemma {:induction false} PagesArePrefix<T>(s: seq<T>, limit: nat, n: nat)
    ensures PagesUpTo(s, limit, n) == s[..Min(PageStart(n + 1, limit), |s|)]
  {
    if n == 0 {
      assert PageStart(1, limit) == 0;
    } else {
      PagesArePrefix(s, limit, n - 1);
      PageStartNext(n, limit);
      var x, y := Min(PageStart(n, limit), |s|), Min(PageStart(n + 1, limit), |s|);
      assert Page(s, n, limit) == s[x..y];
      JoinSlices(s, x, y);
    }
  }

  lemma JoinSlices<T>(s: seq<T>, x: nat, y: nat)
    requires x <= y <= |s|
    ensures s[..x] + s[x..y] == s[..y]
  {
  }

  /** `a` is `b` with some elements taken out: what remains keeps its order. */
  ghost predicate Sub<T>(a: seq<T>, b: seq<T>)
    decreases |b|
  {
    a == [] || (b != [] && ((a[0] == b[0] && Sub(a[1..], b[1..])) || Sub(a, b[1..])))
  }

  lemma {:induction false} SubMembers<T>(a: seq<T>, b: seq<T>)
    requires Sub(a, b)
    ensures |a| <= |b|
    ensures forall x :: x in a ==> x in b
    decreases |b|
  {
    if a != [] {
      if a[0] == b[0] && Sub(a[1..], b[1..]) {
        SubMembers(a[1..], b[1..]);
        assert a == [a[0]] + a[1..];
      } else {
        SubMembers(a, b[1..]);
      }
    }
  }

  lemma {:induction false} SubRefl<T>(a: seq<T>)
    ensures Sub(a, a)
  {
    if a != [] { SubRefl(a[1..]); }
  }

  lemma {:induction false} SubTrans<T>(a: seq<T>, b: seq<T>, c: seq<T>)
    requires Sub(a, b) && Sub(b, c)
    ensures Sub(a, c)
    decreases |c|
  {
    if a != [] {
      if b[0] == c[0] && Sub(b[1..], c[1..]) {
        if a[0] == b[0] && Sub(a[1..], b[1..]) {
          SubTrans(a[1..], b[1..], c[1..]);
        } else {
          SubTrans(a, b[1..], c[1..]);
        }
      } else {
        SubTrans(a, b, c[1..]);
      }
    }
  }

  /** Removing one element leaves a subsequence. */
  lemma {:induction false} SpliceSub<T>(s: seq<T>, i: nat)
    ensures Sub(Splice1(s, i), s)
  {
    if i >= |s| {
      SubRefl(s);
    } else {
      SubRefl(s[i + 1..]);
      SkipPrefixSub(s[..i], s[i + 1..], s[i]);
      assert s == s[..i] + [s[i]] + s[i + 1..];
    }
  }

  lemma {:induction false} SkipPrefixSub<T>(p: seq<T>, t: seq<T>, x: T)
    requires Sub(t, t)
    ensures Sub(p + t, p + [x] + t)
    decreases |p|
  {
    if p == [] {
      assert ([x] + t)[1..] == t;
      assert Sub(t, ([x] + t)[1..]);
      assert p + t == t && p + [x] + t == [x] + t;
    } else {
      SkipPrefixSub(p[1..], t, x);
      assert (p + t)[0] == p[0] && (p + t)[1..] == p[1..] + t;
      assert (p + [x] + t)[0] == p[0] && (p + [x] + t)[1..] == p[1..] + [x] + t;
    }
  }
}

=== FILE: text.dfy ===
/** The string operations the application relies on: JavaScript's whitespace class
    (`\s`, also what `trim` removes), `toLowerCase` on the letters A to Z, `trim`,
    `replace(/\s+/g, "")`, `includes`, and the decimal rendering and parsing of the
    numeric ids (`String(n)` and `parseInt`). */
module Text {
  import opened Common
  import opened Seqs

  /** JavaScript's white space and line terminators: the `\s` class, and the set `trim` strips. */
  predicate IsWhitespace(c: char) {
    c == '\t' || c == '\n' || c == '\U{000B}' || c == '\U{000C}' || c == '\r' || c == ' '
    || c == '\U{00A0}' || c == '\U{1680}' || ('\U{2000}' <= c <= '\U{200A}')
    || c == '\U{2028}' || c == '\U{2029}' || c == '\U{202F}' || c == '\U{205F}'
    || c == '\U{3000}' || c == '\U{FEFF}'
  }

  /** A string with nothing but white space in it (the empty string included). */
  predicate IsBlank(s: string) {
    forall i :: 0 <= i < |s| ==> IsWhitespace(s[i])
  }

  function LowerChar(c: char): (d: char)
    ensures 'A' <= c <= 'Z' ==> d as int == c as int + 32
    ensures !('A' <= c <= 'Z') ==> d == c
  {
    if 'A' <= c <= 'Z' then (c as int + 32) as char else c
  }

  /** `toLowerCase`, on the letters A to Z. */
  function Lower(s: string): (r: string)
    ensures |r| == |s|
    ensures forall i :: 0 <= i < |s| ==> r[i] == LowerChar(s[i])
  {
    if |s| == 0 then [] else [LowerChar(s[0])] + Lower(s[1..])
  }

  /** Lower-casing twice is lower-casing once. */
  lemma LowerIdempotent(s: string)
    ensures Lower(Lower(s)) == Lower(s)
  {
  }

  /** `a.toLowerCase() === b.toLowerCase()`. */
  predicate SameIgnoringCase(a: string, b: string) {
    Lower(a) == Lower(b)
  }

  /** The number of white-space characters `s` starts with. */
  function LeadingBlanks(s: string): (n: nat)
    ensures n <= |s| && IsBlank(s[..n])
    ensures n == |s| || !IsWhitespace(s[n])
  {
    if |s| > 0 && IsWhitespace(s[0]) then
      var m := LeadingBlanks(s[1..]);
      BlankFront(s, m + 1);
      assert m == |s| - 1 || s[m + 1] == s[1..][m];
      m + 1
    else
      assert s[..0] == [];
      0
  }

  /** One white-space character in front of a blank prefix of the rest. */
  lemma BlankFront(s: string, n: nat)
    requires 0 < n <= |s| && IsWhitespace(s[0]) && IsBlank(s[1..][..n - 1])
    ensures IsBlank(s[..n])
  {
    forall k | 0 < k < n ensures IsWhitespace(s[k]) {
      assert s[k] == s[1..][..n - 1][k - 1];
    }
  }

  /** The number of white-space characters `s` ends with. */
  function TrailingBlanks(s: string): (n: nat)
    ensures n <= |s| && IsBlank(s[|s| - n..])
    ensures n == |s| || !IsWhitespace(s[|s| - n - 1])
  {
    if |s| > 0 && IsWhitespace(s[|s| - 1]) then
      var m := TrailingBlanks(s[..|s| - 1]);
      BlankBack(s, |s| - 1 - m);
      assert m == |s| - 1 || s[|s| - m - 2] == s[..|s| - 1][|s| - 1 - m - 1];
      m + 1
    else
      assert s[|s|..] == [];
      0
  }

  /** A blank piece of the front of `s` followed by one white-space character. */
  lemma BlankBack(s: string, n: nat)
    requires n < |s| && IsWhitespace(s[|s| - 1]) && IsBlank(s[..|s| - 1][n..])
    ensures IsBlank(s[n..])
  {
    forall k | n <= k < |s| - 1 ensures IsWhitespace(s[k]) {
      assert s[k] == s[..|s| - 1][n..][k - n];
    }
  }

  /** `trimStart`: drops the leading white space and nothing else. */
  function TrimStart(s: string): (r: string)
    ensures |r| <= |s| && r == s[|s| - |r|..]
    ensures IsBlank(s[..|s| - |r|])
    ensures r == [] || !IsWhitespace(r[0])
  {
    s[LeadingBlanks(s)..]
  }

  /** `trimEnd`: drops the trailing white space and nothing else. */
  function TrimEnd(s: string): (r: string)
    ensures |r| <= |s| && r == s[..|r|]
    ensures IsBlank(s[|r|..])
    ensures r == [] || !IsWhitespace(r[|r| - 1])
  {
    s[..|s| - TrailingBlanks(s)]
  }

  /** `trim`: the middle of `s` between its leading and its trailing white space. */
  function Trim(s: string): (r: string)
    ensures |r| <= |s|
    ensures exists i :: OccursAt(s, r, i) && IsBlank(s[..i]) && IsBlank(s[i + |r|..])
    ensures r == [] || (!IsWhitespace(r[0]) && !IsWhitespace(r[|r| - 1]))
    ensures r == [] <==> IsBlank(s)
  {
    TrimOccurs(s);
    TrimEmpty(s);
    TrimNonEmpty(s);
    TrimEnd(TrimStart(s))
  }

  /** Where the middle of `s` sits in it: with only white space before and after it. */
  lemma TrimOccurs(s: string)
    ensures var front := TrimStart(s); var i := |s| - |front|; var r := TrimEnd(front);
      OccursAt(s, r, i) && IsBlank(s[..i]) && IsBlank(s[i + |r|..])
  {
    var front := TrimStart(s);
    var i := |s| - |front|;
    var r := TrimEnd(front);
    PrefixOfSuffix(s, i, r);
    assert s[i + |r|..] == front[|r|..];
  }

  /** A prefix of a suffix of `s` occurs in `s` where the suffix starts. */
  lemma PrefixOfSuffix(s: string, i: nat, r: string)
    requires i <= |s| && |r| <= |s| - i && r == s[i..][..|r|]
    ensures OccursAt(s, r, i)
  {
    assert s[i..i + |r|] == s[i..][..|r|];
  }

  /** Nothing is left of `s` only when it is blank. */
  lemma TrimEmpty(s: string)
    ensures TrimEnd(TrimStart(s)) == [] ==> IsBlank(s)
  {
    var front := TrimStart(s);
    var r := TrimEnd(front);
    if r == [] {
      assert front == [] by { assert IsBlank(front[|r|..]); }
      assert s[..|s|] == s;
    }
  }

  /** What is left of `s` starts and ends with a character that is not white space. */
  lemma TrimNonEmpty(s: string)
    ensures var r := TrimEnd(TrimStart(s));
      r != [] ==> !IsBlank(s) && !IsWhitespace(r[0]) && !IsWhitespace(r[|r| - 1])
  {
    var front := TrimStart(s);
    var r := TrimEnd(front);
    var i := |s| - |front|;
    if r != [] {
      assert r[0] == front[0] && r[0] == s[i];
    }
  }

  function Visible(): char -> bool {
    (c: char) => !IsWhitespace(c)
  }

  /** `replace(/\s+/g, "")`: every white-space character removed, the rest kept in order. */
  function StripWhitespace(s: string): (r: string)
    ensures |r| <= |s|
    ensures forall i :: 0 <= i < |r| ==> !IsWhitespace(r[i])
    ensures IsBlank(s) ==> r == []
    ensures r == Filter(s, Visible())
  {
    if |s| == 0 then []
    else if IsWhitespace(s[0]) then StripWhitespace(s[1..])
    else [s[0]] + StripWhitespace(s[1..])
  }

  /** A string without white space is left alone, so stripping twice is stripping once. */
  lemma {:induction false} StripWhitespaceIdempotent(s: string)
    ensures StripWhitespace(StripWhitespace(s)) == StripWhitespace(s)
  {
    if |s| != 0 {
      StripWhitespaceIdempotent(s[1..]);
      var t := StripWhitespace(s[1..]);
      if !IsWhitespace(s[0]) {
        var st := [s[0]] + t;
        assert st[0] == s[0] && st[1..] == t;
      }
    }
  }

  /** Lower-casing never turns white space into something else, or the reverse. */
  lemma {:induction false} StripLowerCommute(s: string)
    ensures StripWhitespace(Lower(s)) == Lower(StripWhitespace(s))
  {
    if |s| != 0 {
      var l := Lower(s);
      assert l[0] == LowerChar(s[0]) && l[1..] == Lower(s[1..]);
      assert IsWhitespace(l[0]) == IsWhitespace(s[0]);
      StripLowerCommute(s[1..]);
      var t := StripWhitespace(s[1..]);
      if !IsWhitespace(s[0]) {
        var st := [s[0]] + t;
        assert st[0] == s[0] && st[1..] == t;
        assert Lower(st) == [l[0]] + Lower(t);
      }
    }
  }

  /** `q` occurs in `s` starting at position `i`. */
  predicate OccursAt(s: string, q: string, i: int) {
    0 <= i <= |s| - |q| && s[i..i + |q|] == q
  }

  /** `s.includes(q)`: `q` occurs in `s` at some position; the empty query occurs everywhere. */
  predicate Includes(s: string, q: string) {
    exists i :: 0 <= i <= |s| - |q| && OccursAt(s, q, i)
  }

  // Decimal rendering and parsing of numbers.

  function Digit(d: nat): (c: char)
    requires d < 10
    ensures '0' <= c <= '9'
  {
    ('0' as int + d) as char
  }

  /** `String(n)` for a non-negative integer: its decimal digits, most significant first. */
  function Decimal(n: nat): (s: string)
    ensures |s| >= 1
    ensures forall i :: 0 <= i < |s| ==> '0' <= s[i] <= '9'
    ensures |s| > 1 ==> s[0] != '0'
    decreases n
  {
    if n < 10 then [Digit(n)] else Decimal(n / 10) + [Digit(n % 10)]
  }

  /** `String(i)` for any integer. */
  function IntString(i: int): (s: string)
    ensures |s| >= 1
    ensures i >= 0 ==> s == Decimal(i)
    ensures i < 0 ==> s == "-" + Decimal(-i)
  {
    if i < 0 then "-" + Decimal(-i) else Decimal(i)
  }

  /** The value of a string of decimal digits. */
  function DigitsValue(s: string): (n: nat)
    requires forall i :: 0 <= i < |s| ==> '0' <= s[i] <= '9'
  {
    if |s| == 0 then 0 else 10 * DigitsValue(s[..|s| - 1]) + (s[|s| - 1] as int - '0' as int)
  }

  /** `parseInt(s, 10)` on the ids the stores hand out: the value of a non-empty digit
      string, and no number otherwise. */
  function ParseDecimal(s: string): (r: Option<nat>)
    ensures r.Some? <==> |s| > 0 && forall i :: 0 <= i < |s| ==> '0' <= s[i] <= '9'
  {
    if |s| > 0 && forall i :: 0 <= i < |s| ==> '0' <= s[i] <= '9' then Some(DigitsValue(s)) else None
  }

  /** Rendering a number and parsing it back gives the number: a numeric id survives its
      trip through the string form the stores keep. */
  lemma {:induction false} ParseDecimalRoundTrip(n: nat)
    ensures ParseDecimal(Decimal(n)) == Some(n)
  {
    DecimalValue(n);
  }

  lemma {:induction false} DecimalValue(n: nat)
    ensures DigitsValue(Decimal(n)) == n
    decreases n
  {
    if n >= 10 {
      DecimalValue(n / 10);
      var s := Decimal(n / 10) + [Digit(n % 10)];
      assert s[..|s| - 1] == Decimal(n / 10);
    }
  }

  /** Distinct numbers render as distinct strings. */
  lemma DecimalInjective(m: nat, n: nat)
    requires Decimal(m) == Decimal(n)
    ensures m == n
  {
    DecimalValue(m);
    DecimalValue(n);
  }
}

=== FILE: user_profile.dfy ===
/** The profile page of one user: the user record, their posts and their comments, loaded
    together, shown under two tabs, and rewritten after a vote the service accepted. */
module UserProfile {
  import opened Common
  import opened Votes
  import opened Text
  import Users
  import Posts
  import Comments
  import PageVotes

  datatype Tab = PostsTab | CommentsTab

  /** The page's state. `user` is `None` until a load succeeds. */
  datatype Profile = Profile(
    user: Option<Users.User>, posts: seq<Posts.Post>, comments: seq<Comments.UserComment>,
    activeTab: Tab, loading: bool, error: string)

  /** The first render: nothing loaded, the spinner on, the posts tab. */
  function Initial(): (p: Profile)
    ensures p.user.None? && p.posts == [] && p.comments == [] && p.loading && p.error == ""
    ensures p.activeTab == PostsTab
  {
    Profile(None, [], [], PostsTab, true, "")
  }

  /** `loadUserData()` against the three stores: the user found without regard to case,
      that author's posts and comments, newest first. When the user is not found the
      three requests fail together: the message is shown and nothing else changes. */
  function Load(p: Profile, users: seq<Users.User>, posts: seq<Posts.Post>, comments: seq<Comments.Comment>,
                username: string): (r: Profile)
    ensures !r.loading && r.activeTab == p.activeTab
    ensures Users.FindUser(users, username).Ok? ==>
      r.error == "" && r.user == Some(Users.FindUser(users, username).value)
      && r.posts == Posts.PostsByUser(posts, username)
      && r.comments == Comments.CommentsByUser(comments, username)
    ensures Users.FindUser(users, username).Err? ==>
      r.error == "User not found" && r.user == p.user && r.posts == p.posts && r.comments == p.comments
  {
    var found := Users.FindUser(users, username);
    if found.Ok? then
      p.(user := Some(found.value), posts := Posts.PostsByUser(posts, username),
         comments := Comments.CommentsByUser(comments, username), loading := false, error := "")
    else
      p.(loading := false, error := if found.message == "" then "Failed to load user profile" else found.message)
  }

  /** What a successful load shows: that user's posts and comments and no one else's, every
      one of their comments, each post and comment list newest first. */
  lemma LoadShowsTheirs(p: Profile, users: seq<Users.User>, posts: seq<Posts.Post>, comments: seq<Comments.Comment>,
                        username: string)
    requires Users.FindUser(users, username).Ok?
    ensures var r := Load(p, users, posts, comments, username);
      r.user.Some? && Lower(r.user.value.username) == Lower(username)
      && (forall q :: q in r.posts <==> q in posts && q.author == username)
      && (forall i, j :: 0 <= i < j < |r.posts| ==> r.posts[i].createdAt >= r.posts[j].createdAt)
      && (forall c :: c in comments && c.author == username ==> exists u :: u in r.comments && u.comment == c)
      && (forall u :: u in r.comments ==> u.comment in comments && u.comment.author == username)
  {
    var r := Load(p, users, posts, comments, username);
    forall i, j | 0 <= i < j < |r.posts| ensures r.posts[i].createdAt >= r.posts[j].createdAt {
      assert Posts.CreatedAt()(r.posts[i]) >= Posts.CreatedAt()(r.posts[j]);
    }
  }

  /** `handleVote(postId, voteType)` given the outcome of the service's `vote`. */
  function HandleVote(p: Profile, postId: nat, v: Vote, outcome: Outcome): (r: Profile)
    ensures r == p.(posts := r.posts)
    ensures outcome.Failed? ==> r == p
    ensures |r.posts| == |p.posts|
    ensures forall i :: 0 <= i < |p.posts| && p.posts[i].id != postId ==> r.posts[i] == p.posts[i]
    ensures outcome.Done? ==> forall i :: 0 <= i < |p.posts| && p.posts[i].id == postId ==>
      r.posts[i] == p.posts[i].(tally := r.posts[i].tally)
      && Others(r.posts[i].tally) == Others(p.posts[i].tally) && r.posts[i].tally.userVote == v
  {
    p.(posts := PageVotes.AfterPostsVote(p.posts, postId, v, outcome))
  }

  /** `handleCommentVote(commentId, voteType)` given the outcome of the service's `vote`. */
  function HandleCommentVote(p: Profile, commentId: nat, v: Vote, outcome: Outcome): (r: Profile)
    ensures r == p.(comments := r.comments)
    ensures outcome.Failed? ==> r == p
    ensures |r.comments| == |p.comments|
    ensures forall i :: 0 <= i < |p.comments| && p.comments[i].comment.id != commentId ==> r.comments[i] == p.comments[i]
    ensures outcome.Done? ==> forall i :: 0 <= i < |p.comments| && p.comments[i].comment.id == commentId ==>
      r.comments[i].postTitle == p.comments[i].postTitle
      && r.comments[i].comment == p.comments[i].comment.(tally := r.comments[i].comment.tally)
      && Others(r.comments[i].comment.tally) == Others(p.comments[i].comment.tally)
      && r.comments[i].comment.tally.userVote == v
  {
    p.(comments := PageVotes.AfterCommentsVote(p.comments, commentId, v, outcome))
  }

  /** A tab of the page: its title and the number beside it. */
  datatype TabInfo = TabInfo(tab: Tab, title: string, count: nat)

  /** The two tabs, each counting its list. */
  function Tabs(p: Profile): (r: seq<TabInfo>)
    ensures |r| == 2 && r[0].tab == PostsTab && r[1].tab == CommentsTab
    ensures r[0].count == |p.posts| && r[1].count == |p.comments|
  {
    [TabInfo(PostsTab, "Posts", |p.posts|), TabInfo(CommentsTab, "Comments", |p.comments|)]
  }

  /** Votes never change the numbers on the tabs. */
  lemma VotesKeepTabs(p: Profile, id: nat, v: Vote, outcome: Outcome)
    ensures Tabs(HandleVote(p, id, v, outcome)) == Tabs(p)
    ensures Tabs(HandleCommentVote(p, id, v, outcome)) == Tabs(p)
  {
  }

  /** What the page shows: the spinner while loading, the error box when the load failed
      or found no one, the profile otherwise. */
  datatype Screen = Spinner | ErrorBox(message: string) | ProfileView(user: Users.User, tabs: seq<TabInfo>)

  function ScreenOf(p: Profile): (s: Screen)
    ensures s.Spinner? <==> p.loading
    ensures s.ErrorBox? <==> !p.loading && (p.error != "" || p.user.None?)
    ensures s.ErrorBox? ==> s.message != "" && (p.error != "" ==> s.message == p.error)
    ensures s.ProfileView? ==> Some(s.user) == p.user && s.tabs == Tabs(p)
  {
    if p.loading then Spinner
    else if p.error != "" || p.user.None? then ErrorBox(if p.error != "" then p.error else "User not found")
    else ProfileView(p.user.value, Tabs(p))
  }

  /** After any load the page shows the profile or the error box, never the spinner; a
      user who is not found gives the box "User not found". */
  lemma LoadSettles(p: Profile, users: seq<Users.User>, posts: seq<Posts.Post>, comments: seq<Comments.Comment>,
                    username: string)
    ensures !ScreenOf(Load(p, users, posts, comments, username)).Spinner?
    ensures Users.FindUser(users, username).Err? ==>
      ScreenOf(Load(p, users, posts, comments, username)) == ErrorBox("User not found")
    ensures Users.FindUser(users, username).Ok? ==>
      ScreenOf(Load(p, users, posts, comments, username)).ProfileView?
  {
  }
}

=== FILE: users.dfy ===
/** The users store: `UsersService` keeps an array of user records, looks users up by
    username without regard to case, refuses a second user with the same name, never
    renames a user on update, and keeps both karma counters at zero or above. */
module Users {
  import opened Common
  import opened Seqs
  import opened Text

  /** The message of every lookup of a user who is not there. */
  const NotFound := "User not found"
  /** The message of a sign-up under a name already taken. */
  const NameTaken := "Username already exists"

  /** A user record. `createdAt` is the creation time in milliseconds. */
  datatype User = User(username: string, postKarma: int, commentKarma: int, createdAt: int)

  /** The key users are sorted by: their total karma. */
  function Karma(): User -> int {
    (u: User) => u.postKarma + u.commentKarma
  }

  /** The username test of every lookup, given the lower-cased name asked for. */
  function NamedLike(lowered: string): User -> bool {
    (u: User) => Lower(u.username) == lowered
  }

  /** The usernames of the store, in order. */
  function Names(us: seq<User>): (ns: seq<string>)
    ensures |ns| == |us|
    ensures forall i :: 0 <= i < |us| ==> ns[i] == us[i].username
  {
    if |us| == 0 then [] else [us[0].username] + Names(us[1..])
  }

  /** No two users share a username, compared without case. */
  predicate UniqueNames(us: seq<User>) {
    forall i, j :: 0 <= i < j < |us| ==> Lower(us[i].username) != Lower(us[j].username)
  }

  /** Both karma counters are zero or above for every user. */
  predicate KarmaCounted(us: seq<User>) {
    forall i :: 0 <= i < |us| ==> us[i].postKarma >= 0 && us[i].commentKarma >= 0
  }

  /** The index every operation looks a username up at: the first user with that name
      when both are lower-cased, or -1. */
  function UserIndex(us: seq<User>, username: string): (i: int)
    ensures -1 <= i < |us|
    ensures i == -1 <==> forall u :: u in us ==> Lower(u.username) != Lower(username)
    ensures 0 <= i ==> Lower(us[i].username) == Lower(username)
    ensures 0 <= i ==> forall j :: 0 <= j < i ==> Lower(us[j].username) != Lower(username)
  {
    var i := FirstIndex(us, NamedLike(Lower(username)));
    if i == -1 then
      assert forall u :: u in us ==> Lower(u.username) != Lower(username) by {
        forall u | u in us ensures Lower(u.username) != Lower(username) {
          var j :| 0 <= j < |us| && us[j] == u;
          assert !NamedLike(Lower(username))(us[j]);
        }
      }
      i
    else
      assert NamedLike(Lower(username))(us[i]);
      assert forall j :: 0 <= j < i ==> !NamedLike(Lower(username))(us[j]);
      i
  }

  // ---------------------------------------------------------------- getAll

  /** The order `getAll` leaves the store in: most karma first, ties in their previous
      order. */
  function Ranked(us: seq<User>): (r: seq<User>)
    ensures multiset(r) == multiset(us)
    ensures forall i, j :: 0 <= i < j < |r| ==>
      r[i].postKarma + r[i].commentKarma >= r[j].postKarma + r[j].commentKarma
    ensures forall k :: Filter(r, KeyIs(Karma(), k)) == Filter(us, KeyIs(Karma(), k))
  {
    var r := SortDesc(us, Karma());
    forall k ensures Filter(r, KeyIs(Karma(), k)) == Filter(us, KeyIs(Karma(), k)) {
      SortDescStable(us, Karma(), k);
    }
    r
  }

  /** Sorting the store a second time leaves it as the first `getAll` left it. */
  lemma RankedIdempotent(us: seq<User>)
    ensures Ranked(Ranked(us)) == Ranked(us)
  {
    SortDescOfSorted(Ranked(us), Karma());
  }

  // ---------------------------------------------------------------- getByUsername

  /** `getByUsername(username)`: a copy of the user, or "User not found". */
  function FindUser(us: seq<User>, username: string): (r: Result<User>)
    ensures r.Err? <==> forall u :: u in us ==> Lower(u.username) != Lower(username)
    ensures r.Err? ==> r.message == NotFound
    ensures r.Ok? ==> r.value in us && Lower(r.value.username) == Lower(username)
    ensures r.Ok? ==> exists i :: (0 <= i < |us| && r.value == us[i]
      && forall j :: 0 <= j < i ==> Lower(us[j].username) != Lower(username))
  {
    var i := UserIndex(us, username);
    if i == -1 then Err(NotFound) else Ok(us[i])
  }

  /** With unique names, the user found is the only one answering to that name. */
  lemma {:induction false} FindUserUnique(us: seq<User>, username: string, u: User)
    requires UniqueNames(us)
    requires u in us && Lower(u.username) == Lower(username)
    ensures FindUser(us, username) == Ok(u)
  {
    var j :| 0 <= j < |us| && us[j] == u;
    assert UserIndex(us, username) == j;
  }

  // ---------------------------------------------------------------- create

  /** The store after `create({ username })`: rejected when the name is taken in any
      case, appended with no karma otherwise. */
  function AfterCreate(us: seq<User>, username: string, now: int): (r: Result<(seq<User>, User)>)
    ensures r.Err? <==> exists u :: u in us && Lower(u.username) == Lower(username)
    ensures r.Err? ==> r.message == NameTaken
    ensures r.Ok? ==> r.value.1 == User(username, 0, 0, now) && r.value.0 == us + [r.value.1]
  {
    if UserIndex(us, username) != -1 then Err(NameTaken)
    else Ok((us + [User(username, 0, 0, now)], User(username, 0, 0, now)))
  }

  /** Creating a user keeps the names unique and the karma counted. */
  lemma {:induction false} CreateKeepsInvariants(us: seq<User>, username: string, now: int)
    requires UniqueNames(us) && KarmaCounted(us)
    ensures AfterCreate(us, username, now).Ok? ==>
      UniqueNames(AfterCreate(us, username, now).value.0) && KarmaCounted(AfterCreate(us, username, now).value.0)
  {
    var r := AfterCreate(us, username, now);
    if r.Ok? {
      var s := r.value.0;
      assert s == us + [User(username, 0, 0, now)];
      forall i, j | 0 <= i < j < |s| ensures Lower(s[i].username) != Lower(s[j].username) {
        assert s[i] == us[i] && s[i] in us;
        if j < |us| { assert s[j] == us[j]; }
      }
    }
  }

  // ---------------------------------------------------------------- update

  /** The fields of `data` in `update(username, data)`; `None` for a field `data` leaves out. */
  datatype Patch = Patch(username: Option<string>, postKarma: Option<int>, commentKarma: Option<int>, createdAt: Option<int>)

  function Pick<T>(o: Option<T>, old_: T): T {
    if o.Some? then o.value else old_
  }

  /** `{ ...user, ...data }` with `data.username` deleted first: every other supplied field
      overwrites, and the username stays. */
  function Merge(u: User, d: Patch): (r: User)
    ensures r.username == u.username
    ensures d.postKarma.Some? ==> r.postKarma == d.postKarma.value
    ensures d.postKarma.None? ==> r.postKarma == u.postKarma
    ensures d.commentKarma.Some? ==> r.commentKarma == d.commentKarma.value
    ensures d.commentKarma.None? ==> r.commentKarma == u.commentKarma
    ensures d.createdAt.Some? ==> r.createdAt == d.createdAt.value
    ensures d.createdAt.None? ==> r.createdAt == u.createdAt
  {
    User(u.username, Pick(d.postKarma, u.postKarma), Pick(d.commentKarma, u.commentKarma), Pick(d.createdAt, u.createdAt))
  }

  /** The store after `update(username, data)`. */
  function AfterUpdate(us: seq<User>, username: string, d: Patch): (r: Result<(seq<User>, User)>)
    ensures r.Err? <==> forall u :: u in us ==> Lower(u.username) != Lower(username)
    ensures r.Err? ==> r.message == NotFound
    ensures r.Ok? ==> Names(r.value.0) == Names(us)
    ensures r.Ok? ==> exists i :: (0 <= i < |us| && Lower(us[i].username) == Lower(username)
      && (forall j :: 0 <= j < i ==> Lower(us[j].username) != Lower(username))
      && r.value.0 == us[i := Merge(us[i], d)] && r.value.1 == Merge(us[i], d))
  {
    var i := UserIndex(us, username);
    if i == -1 then Err(NotFound)
    else
      var r := us[i := Merge(us[i], d)];
      assert Names(r) == Names(us);
      Ok((r, Merge(us[i], d)))
  }

  /** Whatever `data` holds, an update renames nobody, so the names stay unique. */
  lemma UpdateKeepsNames(us: seq<User>, username: string, d: Patch)
    requires UniqueNames(us)
    ensures AfterUpdate(us, username, d).Ok? ==> UniqueNames(AfterUpdate(us, username, d).value.0)
  {
    var r := AfterUpdate(us, username, d);
    if r.Ok? {
      var s := r.value.0;
      assert forall i :: 0 <= i < |s| ==> s[i].username == Names(s)[i] == Names(us)[i] == us[i].username;
    }
  }

  // ---------------------------------------------------------------- delete

  /** The store after `delete(username)`: the user spliced out. */
  function AfterDelete(us: seq<User>, username: string): (r: Result<seq<User>>)
    ensures r.Err? <==> forall u :: u in us ==> Lower(u.username) != Lower(username)
    ensures r.Err? ==> r.message == NotFound
    ensures r.Ok? ==> exists i :: (0 <= i < |us| && Lower(us[i].username) == Lower(username)
      && (forall j :: 0 <= j < i ==> Lower(us[j].username) != Lower(username))
      && r.value == us[..i] + us[i + 1..])
  {
    var i := UserIndex(us, username);
    if i == -1 then Err(NotFound)
    else
      assert Splice1(us, i) == us[..i] + us[i + 1..];
      Ok(Splice1(us, i))
  }

  /** With unique names, deleting a user leaves nobody who answers to that name. */
  lemma DeleteRemovesName(us: seq<User>, username: string)
    requires UniqueNames(us)
    ensures AfterDelete(us, username).Ok? ==>
      UniqueNames(AfterDelete(us, username).value)
      && forall u :: u in AfterDelete(us, username).value ==> Lower(u.username) != Lower(username)
  {
    var i := UserIndex(us, username);
    if i != -1 {
      assert AfterDelete(us, username).value == Splice1(us, i);
      SpliceKeepsUnique(us, i);
      SpliceDropsName(us, i);
    }
  }

  /** Taking one user out keeps the names unique. */
  lemma SpliceKeepsUnique(us: seq<User>, i: nat)
    requires UniqueNames(us) && i < |us|
    ensures UniqueNames(Splice1(us, i))
  {
    var r := Splice1(us, i);
    forall a, b | 0 <= a < b < |r| ensures Lower(r[a].username) != Lower(r[b].username) {
      var ma := if a < i then a else a + 1;
      var mb := if b < i then b else b + 1;
      assert r[a] == us[ma] && r[b] == us[mb];
    }
  }

  /** With unique names, the users left after taking one out all have other names. */
  lemma SpliceDropsName(us: seq<User>, i: nat)
    requires UniqueNames(us) && i < |us|
    ensures forall u :: u in Splice1(us, i) ==> Lower(u.username) != Lower(us[i].username)
  {
    var r := Splice1(us, i);
    forall u | u in r ensures Lower(u.username) != Lower(us[i].username) {
      var k :| 0 <= k < |r| && r[k] == u;
      var m := if k < i then k else k + 1;
      assert r[k] == us[m];
    }
  }

  // ---------------------------------------------------------------- search

  function Mentions(query: string): User -> bool {
    (u: User) => Includes(Lower(u.username), Lower(query))
  }

  /** `search(query)`: the users whose lower-cased name contains the lower-cased query,
      most karma first. */
  function Search(us: seq<User>, query: string): (r: seq<User>)
    ensures forall u :: u in r <==> u in us && Includes(Lower(u.username), Lower(query))
    ensures multiset(r) == multiset(Filter(us, Mentions(query)))
    ensures forall i, j :: 0 <= i < j < |r| ==>
      r[i].postKarma + r[i].commentKarma >= r[j].postKarma + r[j].commentKarma
    ensures forall k :: Filter(r, KeyIs(Karma(), k)) == Filter(Filter(us, Mentions(query)), KeyIs(Karma(), k))
  {
    var found := Filter(us, Mentions(query));
    FilterMembers(us, Mentions(query));
    var r := SortDesc(found, Karma());
    forall k ensures Filter(r, KeyIs(Karma(), k)) == Filter(found, KeyIs(Karma(), k)) {
      SortDescStable(found, Karma(), k);
    }
    SameMembers(r, found);
    r
  }

  // ---------------------------------------------------------------- updateKarma

  /** `updateKarma` on one record: each counter moves by its delta and is floored at 0. */
  function Rekarma(u: User, postDelta: int, commentDelta: int): (r: User)
    ensures r.username == u.username && r.createdAt == u.createdAt
    ensures r.postKarma >= 0 && r.commentKarma >= 0
    ensures u.postKarma + postDelta >= 0 ==> r.postKarma == u.postKarma + postDelta
    ensures u.postKarma + postDelta < 0 ==> r.postKarma == 0
    ensures u.commentKarma + commentDelta >= 0 ==> r.commentKarma == u.commentKarma + commentDelta
    ensures u.commentKarma + commentDelta < 0 ==> r.commentKarma == 0
  {
    u.(postKarma := Max0(u.postKarma + postDelta), commentKarma := Max0(u.commentKarma + commentDelta))
  }

  /** The store after `updateKarma(username, postDelta, commentDelta)`. */
  function AfterKarma(us: seq<User>, username: string, postDelta: int, commentDelta: int): (r: Result<(seq<User>, User)>)
    ensures r.Err? <==> forall u :: u in us ==> Lower(u.username) != Lower(username)
    ensures r.Err? ==> r.message == NotFound
    ensures r.Ok? ==> Names(r.value.0) == Names(us)
    ensures r.Ok? ==> exists i :: (0 <= i < |us| && Lower(us[i].username) == Lower(username)
      && (forall j :: 0 <= j < i ==> Lower(us[j].username) != Lower(username))
      && r.value.0 == us[i := Rekarma(us[i], postDelta, commentDelta)] && r.value.1 == Rekarma(us[i], postDelta, commentDelta))
  {
    var i := UserIndex(us, username);
    if i == -1 then Err(NotFound)
    else
      var u := Rekarma(us[i], postDelta, commentDelta);
      var r := us[i := u];
      assert r[i] == u && u.username == us[i].username;
      assert Names(r) == Names(us);
      Ok((r, u))
  }

  /** Karma updates keep every counter at zero or above. */
  lemma KarmaKeepsCounted(us: seq<User>, username: string, postDelta: int, commentDelta: int)
    requires KarmaCounted(us)
    ensures AfterKarma(us, username, postDelta, commentDelta).Ok? ==>
      KarmaCounted(AfterKarma(us, username, postDelta, commentDelta).value.0)
  {
    var i := UserIndex(us, username);
    if i != -1 {
      assert AfterKarma(us, username, postDelta, commentDelta).value.0 == us[i := Rekarma(us[i], postDelta, commentDelta)];
    }
  }

  /** A delta and its opposite cancel unless the floor was hit in between. */
  lemma RekarmaUndo(u: User, postDelta: int, commentDelta: int)
    requires u.postKarma + postDelta >= 0 && u.commentKarma + commentDelta >= 0
    ensures Rekarma(Rekarma(u, postDelta, commentDelta), -postDelta, -commentDelta) == u.(postKarma := Max0(u.postKarma), commentKarma := Max0(u.commentKarma))
  {
  }

  /** `UsersService`: the array of users and the operations that change it. */
  class UsersService {
    var users: seq<User>

    /** The store starts as a copy of the fixture data. */
    constructor(initial: seq<User>)
      ensures users == initial
    {
      users := initial;
    }

    /** `getAll()`: sorts the store itself by total karma and returns a copy of it. */
    method GetAll() returns (r: seq<User>)
      modifies this
      ensures users == Ranked(old(users))
      ensures r == users
    {
      users := Ranked(users);
      r := users;
    }

    method Create(username: string, now: int) returns (r: Result<User>)
      modifies this
      ensures AfterCreate(old(users), username, now).Err? ==> r == Err(NameTaken) && users == old(users)
      ensures AfterCreate(old(users), username, now).Ok? ==>
        users == AfterCreate(old(users), username, now).value.0 && r == Ok(AfterCreate(old(users), username, now).value.1)
    {
      var i := UserIndex(users, username);
      if i != -1 {
        return Err(NameTaken);
      }
      var u := User(username, 0, 0, now);
      users := users + [u];
      r := Ok(u);
    }

    method Update(username: string, d: Patch) returns (r: Result<User>)
      modifies this
      ensures AfterUpdate(old(users), username, d).Err? ==> r == Err(NotFound) && users == old(users)
      ensures AfterUpdate(old(users), username, d).Ok? ==>
        users == AfterUpdate(old(users), username, d).value.0 && r == Ok(AfterUpdate(old(users), username, d).value.1)
    {
      var i := UserIndex(users, username);
      if i == -1 {
        return Err(NotFound);
      }
      var kept := d.(username := None);
      var merged := Merge(users[i], kept);
      assert merged == Merge(users[i], d);
      users := users[i := merged];
      r := Ok(merged);
    }

    method Delete(username: string) returns (o: Outcome)
      modifies this
      ensures AfterDelete(old(users), username).Err? ==> o == Failed(NotFound) && users == old(users)
      ensures AfterDelete(old(users), username).Ok? ==> o == Done && users == AfterDelete(old(users), username).value
    {
      var i := UserIndex(users, username);
      if i == -1 {
        return Failed(NotFound);
      }
      assert Splice1(users, i) == AfterDelete(users, username).value;
      users := Splice1(users, i);
      o := Done;
    }

    method UpdateKarma(username: string, postDelta: int := 0, commentDelta: int := 0) returns (r: Result<User>)
      modifies this
      ensures AfterKarma(old(users), username, postDelta, commentDelta).Err? ==> r == Err(NotFound) && users == old(users)
      ensures AfterKarma(old(users), username, postDelta, commentDelta).Ok? ==>
        users == AfterKarma(old(users), username, postDelta, commentDelta).value.0
        && r == Ok(AfterKarma(old(users), username, postDelta, commentDelta).value.1)
    {
      var i := UserIndex(users, username);
      if i == -1 {
        return Err(NotFound);
      }
      var u := users[i];
      u := u.(postKarma := Max0(u.postKarma + postDelta));
      u := u.(commentKarma := Max0(u.commentKarma + commentDelta));
      assert u == Rekarma(users[i], postDelta, commentDelta);
      users := users[i := u];
      r := Ok(u);
    }
  }
}

=== FILE: vote_buttons.dfy ===
/** The vote buttons: a local copy of a post's or comment's tally that a click updates at
    once, that is reset whenever the parent passes new counts, and that goes back to
    where it was when the vote the click sent fails. A click while the previous one is
    still being handled does nothing. */
module VoteButtonsState {
  import opened Common
  import opened Votes

  class VoteButtons {
    var currentVote: Vote
    var currentUpvotes: int
    var currentDownvotes: int
    var isAnimating: bool
    /** The state before the click being handled, kept for the revert. */
    var previous: Option<Tally>

    /** The tally the buttons show. */
    function Current(): Tally
      reads this
    {
      Tally(currentUpvotes, currentDownvotes, currentVote)
    }

    /** A click is in flight exactly while its snapshot is kept. */
    predicate Valid()
      reads this
    {
      isAnimating <==> previous.Some?
    }

    /** The first render shows the counts passed in, with no click in flight. */
    constructor(upvotes: int, downvotes: int, userVote: Vote)
      ensures Valid()
      ensures Current() == Tally(upvotes, downvotes, userVote) && !isAnimating
    {
      currentVote := userVote;
      currentUpvotes := upvotes;
      currentDownvotes := downvotes;
      isAnimating := false;
      previous := None;
    }

    /** The effect on new props: the shown tally becomes the one passed in. */
    method SyncProps(upvotes: int, downvotes: int, userVote: Vote)
      modifies this
      ensures Current() == Tally(upvotes, downvotes, userVote)
      ensures isAnimating == old(isAnimating) && previous == old(previous)
    {
      currentVote := userVote;
      currentUpvotes := upvotes;
      currentDownvotes := downvotes;
    }

    /** `handleVote(voteType)` up to the call of `onVote`: ignored while a click is in
        flight; otherwise the shown tally takes the toggle at once, the state before it
        is kept, and the vote to send is returned. */
    method HandleVote(voteType: Vote) returns (sent: Option<Vote>)
      requires Valid()
      modifies this
      ensures Valid()
      ensures old(isAnimating) ==> sent.None? && Current() == old(Current()) && isAnimating && previous == old(previous)
      ensures !old(isAnimating) ==>
        isAnimating && previous == Some(old(Current()))
        && Current() == Cast(old(Current()), voteType)
        && sent == Some(Clicked(old(currentVote), voteType))
        && Current().userVote == sent.value
    {
      if isAnimating {
        return None;
      }
      var previousVote := currentVote;
      var previousUpvotes := currentUpvotes;
      var previousDownvotes := currentDownvotes;
      isAnimating := true;
      previous := Some(Tally(previousUpvotes, previousDownvotes, previousVote));

      var newVote := voteType;
      var newUpvotes := currentUpvotes;
      var newDownvotes := currentDownvotes;
      if previousVote == Up {
        newUpvotes := newUpvotes - 1;
      } else if previousVote == Down {
        newDownvotes := newDownvotes - 1;
      }
      if voteType == previousVote {
        newVote := NoVote;
      } else {
        if voteType == Up {
          newUpvotes := newUpvotes + 1;
        } else if voteType == Down {
          newDownvotes := newDownvotes + 1;
        }
      }
      currentVote := newVote;
      currentUpvotes := newUpvotes;
      currentDownvotes := newDownvotes;
      sent := Some(newVote);
    }

    /** The end of the click in flight: after a vote that went through, the animation
        ends and the shown tally stays; after one that failed, the shown tally is the one
        from before the click. With no click in flight nothing happens. */
    method Settle(succeeded: bool)
      requires Valid()
      modifies this
      ensures Valid() && !isAnimating
      ensures old(previous).None? ==> Current() == old(Current())
      ensures old(previous).Some? && succeeded ==> Current() == old(Current())
      ensures old(previous).Some? && !succeeded ==> Current() == old(previous).value
    {
      if previous.None? {
        return;
      }
      if !succeeded {
        currentVote := previous.value.userVote;
        currentUpvotes := previous.value.upvotes;
        currentDownvotes := previous.value.downvotes;
      }
      isAnimating := false;
      previous := None;
    }
  }

  /** A click whose vote fails leaves the buttons exactly as they were before it. */
  method ClickAndFail(b: VoteButtons, voteType: Vote)
    requires b.Valid() && !b.isAnimating
    modifies b
    ensures b.Valid() && !b.isAnimating
    ensures b.Current() == old(b.Current())
  {
    var _ := b.HandleVote(voteType);
    b.Settle(false);
  }
}

=== FILE: votes.dfy ===
/** The tri-state vote shared by posts and comments.
    A post or comment carries `upvotes`, `downvotes` and the viewer's own `userVote`
    ("up", "down" or "none"). The viewer's vote is one of the counted votes, so the
    counters are the votes of everybody else plus the viewer's share. Two rules move
    that share:
    - `Cast`, the toggle of the services' `vote` and of the vote buttons: voting
      again for the current vote takes it back;
    - `Revote`, the rewrite of the page handlers once the service has agreed:
      `userVote` becomes the given vote, whatever it was. */
module Votes {

  datatype Vote = Up | Down | NoVote

  datatype Tally = Tally(upvotes: int, downvotes: int, userVote: Vote)

  /** `getVoteScore(upvotes, downvotes)`, the number shown between the arrows. */
  function Score(t: Tally): (s: int)
    ensures s + t.downvotes == t.upvotes
  {
    t.upvotes - t.downvotes
  }

  /** The +1 the viewer's vote `v` puts on the counter for `side`. */
  function Share(v: Vote, side: Vote): (n: int)
    ensures 0 <= n <= 1
    ensures n == 1 <==> v == side && v != NoVote
  {
    if v == side && v != NoVote then 1 else 0
  }

  /** The votes of everybody but the viewer, as (upvotes, downvotes). */
  function Others(t: Tally): (int, int) {
    (t.upvotes - Share(t.userVote, Up), t.downvotes - Share(t.userVote, Down))
  }

  /** The counters include the viewer's own vote. */
  predicate Consistent(t: Tally) {
    Others(t).0 >= 0 && Others(t).1 >= 0
  }

  /** `vote(id, voteType)` on a record that exists: the previous vote is removed, and the
      new one applied unless it is the one just removed. */
  function Cast(t: Tally, v: Vote): (r: Tally)
    ensures r.userVote == if v == t.userVote then NoVote else v
    ensures Others(r) == Others(t)
    ensures Consistent(t) ==> Consistent(r) && r.upvotes >= 0 && r.downvotes >= 0
  {
    var up := t.upvotes - Share(t.userVote, Up);
    var down := t.downvotes - Share(t.userVote, Down);
    if v == t.userVote then Tally(up, down, NoVote)
    else Tally(up + Share(v, Up), down + Share(v, Down), v)
  }

  /** The page handlers' update after a successful vote: the previous vote is removed, `v`
      is applied, and `userVote` becomes `v`. */
  function Revote(t: Tally, v: Vote): (r: Tally)
    ensures r.userVote == v
    ensures Others(r) == Others(t)
    ensures Consistent(t) ==> Consistent(r) && r.upvotes >= 0 && r.downvotes >= 0
  {
    var up := t.upvotes - Share(t.userVote, Up);
    var down := t.downvotes - Share(t.userVote, Down);
    Tally(up + Share(v, Up), down + Share(v, Down), v)
  }

  /** A tally is fixed by the other voters' counts and the viewer's vote. */
  lemma {:induction false} TallyDetermined(a: Tally, b: Tally)
    requires Others(a) == Others(b) && a.userVote == b.userVote
    ensures a == b
  {
  }

  /** Casting the same vote twice gives the tally back exactly when the viewer had either
      no vote or that very vote before; from the opposite vote the second click leaves
      no vote at all. */
  lemma CastTwice(t: Tally, v: Vote)
    ensures Cast(Cast(t, v), v) == t <==> t.userVote == NoVote || t.userVote == v
    ensures Cast(Cast(t, v), v).userVote == (if t.userVote == v then v else NoVote)
  {
    var once := Cast(t, v);
    var twice := Cast(once, v);
    if t.userVote == NoVote || t.userVote == v {
      TallyDetermined(twice, t);
    } else {
      assert twice.userVote == NoVote != t.userVote;
    }
  }

  /** The toggle is the page rule applied to the vote the toggle settles on. */
  lemma CastIsRevote(t: Tally, v: Vote)
    ensures Cast(t, v) == Revote(t, if v == t.userVote then NoVote else v)
  {
    var w := if v == t.userVote then NoVote else v;
    TallyDetermined(Cast(t, v), Revote(t, w));
  }

  /** The vote the buttons send after a click: "none" when the clicked vote was already
      active, the clicked vote otherwise. */
  function Clicked(current: Vote, button: Vote): (v: Vote)
    ensures v == NoVote <==> button == current || button == NoVote
    ensures v != NoVote ==> v == button
  {
    if button == current then NoVote else button
  }

  /** One click on a vote button, three updates in agreement: the buttons' optimistic
      state, the service's `vote` on the vote they send, and the page's rewrite once the
      service has answered all reach the same tally. */
  lemma ClickThenConfirm(t: Tally, button: Vote)
    requires button != NoVote
    ensures Cast(t, Clicked(t.userVote, button)) == Cast(t, button)
    ensures Revote(t, Clicked(t.userVote, button)) == Cast(t, button)
  {
    var sent := Clicked(t.userVote, button);
    TallyDetermined(Cast(t, sent), Cast(t, button));
    TallyDetermined(Revote(t, sent), Cast(t, button));
  }

  /** Whatever the vote, a single cast moves the score by at most two. */
  lemma CastScoreStep(t: Tally, v: Vote)
    ensures -2 <= Score(Cast(t, v)) - Score(t) <= 2
    ensures Score(Cast(t, v)) == Others(t).0 - Others(t).1 + Share(Cast(t, v).userVote, Up) - Share(Cast(t, v).userVote, Down)
  {
  }
}
